=== FILE: README.md ===
# Zevo video platform backend — a Dafny model of its controllers

This project models the request handlers of the Zevo video backend (an
Express + Mongoose service) over an in-memory store, and proves properties
of that model. Each handler is a pure function
`(store, caller, request arguments) -> (outcome, store')`. The outcome is one of:

- an HTTP status with an `ApiResponse` envelope;
- an `ApiError(status, message)` the handler throws;
- a failure of another kind: the database rejects a pipeline, or the code
  reads a property of a missing document.

The store keeps each collection as a sequence in natural (insertion) order:
videos, users, likes, subscriptions, watch-history entries, playlists,
tweets and comments. It also holds a clock that stamps `createdAt` and
`watchedAt` on every document created.

Modules, one file each:

- `Base` — `Option`, ObjectId validity and casting, `Filter`/`Count` with their algebra, JavaScript `trim`/truthiness.
- `Envelope` — `ApiResponse` (src/utils/ApiResponse.js).
- `Documents` — the documents, the store, the read-models the handlers answer with, and `Outcome`/`Step`.
- `Sorting` — the `$sort` stage the listings build from `sortBy`/`sortType`, the BSON value order, and a stable sort that realises it.
- `Feed` — `getAllVideos` and `getUserVideos`: filter, owner join, sort, skip/limit page, separate count.
- `WatchHistory` — the bounded per-user history that `getVideoById` maintains: delete, re-insert, cap at 50 by evicting the oldest.
- `VideoController` — `getVideoById`, `togglePublishStatus`, `updateVideo`, `deleteVideo`, the watch-history handlers, the request checks of `publishAVideo`/`updateVideo`, and public-id extraction from hosted-file URLs.
- `Ledger` — the find-then-delete-or-create toggle shared by likes and subscriptions.
- `Likes` — all handlers of src/controllers/like.controller.js.
- `Subscriptions` — all handlers of src/controllers/subscription.controller.js.
- `Playlists` — all handlers of src/controllers/playlist.controller.js.
- `Dashboard` — `getChannelStats`.

For each row under Findings the model has two members: one for the code as
written (an `…AsWritten` member) and one for the intended behaviour, which
the rest of the model uses. Everywhere else the model follows the code. The
Findings rows are:

- The controller file does not import `WatchHistory` or `cloudinary`, so as it stands `getVideoById`, `updateVideo` and `deleteVideo` throw before doing their work. The unsuffixed members model them with the imports added.
- `toggleSubscription` does not reject every self-subscription. `Subscriptions.ToggleSubscription` makes the refusal on the cast id.
- `totalCommentsLikes` counts tweet likes. `Dashboard.GetChannelStats` counts comment likes.

Behaviour of the code that the model follows although it may be unintended:

- `getUserChannelSubscribers` computes `isSubscribed` as "the channel subscribes back to this subscriber", not "the caller subscribes".
- `GET /videos` with a malformed `userId` answers HTTP 400 with an envelope whose `statuscode` is 404 and whose `data` holds the text, because the envelope is built from two arguments.
- `deletePlaylist` and `updatePlaylist` do not check that the caller owns the playlist, and neither does the model.
- `getPlaylistById` lists member videos in the order of the video collection, each existing video once when video ids are unique, because `$lookup` on an array field works that way. It does not use the playlist's own order.

## Model

| member | source | states |
|---|---|---|
| Envelope.Make | src/utils/ApiResponse.js:1-8 | the envelope carries the given status code and data; `sucess` holds exactly when the status is below 400; an omitted message becomes "Sucess" |
| Sorting.SetKey | src/controllers/video.controller.js:41 | assigning a key gives that field the new direction, leaves every other field's direction alone, and adds no key besides the assigned one |
| Sorting.BuildSortStage | src/controllers/video.controller.js:37-43 | the stage has one key per named field with direction 1 or -1; it is empty unless `sortBy` and `sortType` are both arrays; a field never named has no key; a named field takes "desc" → -1 from the type at its last occurrence, and 1 otherwise, including past the end of `sortType` |
| Sorting.LeastTag | src/controllers/video.controller.js:64-71 | the ascending sort key of a non-empty `tags` array is one of its tags, no greater than any other |
| Sorting.GreatestTag | src/controllers/video.controller.js:64-71 | the descending sort key of a non-empty `tags` array is one of its tags, no smaller than any other |
| Sorting.TagSortOrder | src/controllers/video.controller.js:64-71 | sorting on `tags` puts an untagged video before a tagged one ascending and after it descending; ascending, a video holding a tag below all of a tagged video's tags comes first; descending, one holding a tag above all of the other's comes first |
| Sorting.CompareAntisymmetric | src/controllers/video.controller.js:71 | swapping two documents negates their comparison under any valid sort stage |
| Sorting.CompareTransitive | src/controllers/video.controller.js:71 | the order a valid sort stage imposes is transitive |
| Sorting.InsertSorted | src/controllers/video.controller.js:71 | inserting a document into a sorted listing keeps it sorted |
| Sorting.SortCards | src/controllers/video.controller.js:71 | the sorted listing is a permutation of its input and is in the stage's order |
| Feed.Matching | src/controllers/video.controller.js:21-34 | a video is matched exactly when it is published, passes the text search if one is given, has the given owner if one is given, and carries the given tag if one is given |
| Feed.JoinOwners | src/controllers/video.controller.js:47-55 | the join yields one card per video whose owner exists; each card is a listed video projected with its owner's names and avatar |
| Feed.JoinListsAll | src/controllers/video.controller.js:47-55 | every video whose owner exists is in the join, as its card |
| Feed.JoinListsOnce | src/controllers/video.controller.js:47-55 | when video ids are unique, every video whose owner exists is in the join exactly once |
| Feed.Page | src/controllers/video.controller.js:72-73 | a page has at most `limit` items, all taken from the listing; it is empty past the end and full when enough items remain |
| Feed.Listing | src/controllers/video.controller.js:45-71 | the listing is in sort order and is a permutation of the joined matches: no longer than the matches, and every card comes from a matching video with an existing owner |
| Feed.ListingListsOnce | src/controllers/video.controller.js:21-71 | every matching video with an existing owner is in the listing, exactly once when video ids are unique |
| Feed.ListVideos | src/controllers/video.controller.js:45-98 | the pipelines fail exactly when the sort object is empty, the limit is not positive or the page is below 1; otherwise the reply echoes page and limit, counts every match, and holds the requested page of the listing |
| Feed.GetAllVideos | src/controllers/video.controller.js:9-99 | a malformed `userId` gets HTTP 400 with the text in `data` and status 404 in the envelope; otherwise the reply is the public-feed listing of the query's filters, sorted by views then creation time by default |
| Feed.PublicFeedFilter | src/controllers/video.controller.js:21-55 | every card on a public page is a published video with an existing owner that passes each filter the query names |
| Feed.GetUserVideos | src/controllers/video.controller.js:413-486 | the handler fails exactly when the sort object is empty, the limit is not positive or the page is below 1; otherwise it answers 200 "Got user's videos successfully" and echoes the page and limit |
| Feed.UserVideosOwned | src/controllers/video.controller.js:413-486 | the caller's listing shows only the caller's videos, published or not, and counts all of them |
| Feed.FeedPage | src/controllers/video.controller.js:9-99 | the public feed's answer for page k is the k-th `limit`-sized slice of the same listing, and is in the stage's sort order |
| Feed.UserPage | src/controllers/video.controller.js:413-486 | the caller's answer for page k is the k-th `limit`-sized slice of the same listing, and is in the stage's sort order |
| Feed.ConcatPages | src/controllers/video.controller.js:72-73 | fetching pages 1..n, each the matching slice, gives the first n pages of the listing |
| Feed.PublicFeedListsEachOnce | src/controllers/video.controller.js:9-99 | when video ids are unique, paging through the public feed until n·limit reaches the reported total, the number of matching videos, shows every published video with an existing owner that passes the query's filters exactly once |
| Feed.UserVideosListEachOnce | src/controllers/video.controller.js:413-486 | when video ids are unique, paging through the caller's videos until n·limit reaches the number of matching videos shows each of them with an existing owner exactly once, published or not |
| Feed.TotalCountsOwnerless | src/controllers/video.controller.js:76-85 | the total equals the cards that can be listed plus the matching videos whose owner is missing |
| Feed.PagesArePrefix | src/controllers/video.controller.js:20 | pages 1..n of a listing, concatenated, are exactly its first n·limit items, so paging neither skips nor repeats an item |
| Feed.PagesCoverListing | src/controllers/video.controller.js:20 | once the pages reach the end they hold the whole listing, and the next page is empty |
| Feed.UnknownTagListsNothing | src/controllers/video.controller.js:32-34 | a tag no video carries gives a successful empty page with total 0 |
| Feed.DefaultSortStages | src/controllers/video.controller.js:14-15 | with no sort parameters the feed sorts by views then creation time, both descending, and the caller's own listing by creation time descending |
| WatchHistory.DeleteOne | src/controllers/video.controller.js:184-187 | at most one entry goes; one goes exactly when the pair had one; the user's count drops by the number deleted; other users' counts stay |
| WatchHistory.OldestIndex | src/controllers/video.controller.js:198-201 | picks an entry of the user whose `watchedAt` is no later than that of any other entry of the user |
| WatchHistory.EvictOldest | src/controllers/video.controller.js:198-204 | removes exactly k of the user's entries, only deletes, and leaves other users' counts alone |
| WatchHistory.EvictKeepsNewer | src/controllers/video.controller.js:198-204 | eviction takes the oldest first: an entry strictly newer than a surviving one survives too |
| WatchHistory.EvictKeepsNewest | src/controllers/video.controller.js:198-204 | the user's strictly newest entry survives any eviction that leaves the user at least one entry |
| WatchHistory.Trim | src/controllers/video.controller.js:196-205 | the user ends with min(count, 50) entries; other users are untouched; only deletions happen |
| WatchHistory.RecordView | src/controllers/video.controller.js:183-205 | after a view the viewer has min(previous count without the pair + 1, 50) entries; other users keep their counts; the only new entry is the fresh one |
| WatchHistory.ViewKeepsInvariant | src/controllers/video.controller.js:183-205 | a view keeps at most one entry per (user, video) and at most 50 per user, stamps every entry before the advanced clock, keeps the fresh entry, and leaves exactly one entry for the viewed pair |
| WatchHistory.RemoveEntry | src/controllers/video.controller.js:495-500 | the removal reports success exactly when the pair had an entry; then exactly one entry goes and nothing is added; the user's count drops by one; other users' counts stay; with no entry nothing changes |
| WatchHistory.ClearUser | src/controllers/video.controller.js:512-514 | clearing leaves the user no entries, reports how many there were, and keeps every other user's entries with their multiplicity |
| VideoController.ReplaceVideo | src/controllers/video.controller.js:215 | writing a video replaces the document with that id and no other; nothing changes when there is none |
| VideoController.ReplaceTwice | src/controllers/video.controller.js:405-406 | a second write to the same document overrides the first |
| VideoController.DropVideo | src/controllers/video.controller.js:387 | deleting by id removes exactly the found document and no other |
| VideoController.OwnerCard | src/controllers/video.controller.js:217-265 | the joined owner has the owner's id, user name, full name and avatar, a subscriber count equal to the records naming the owner as channel, and `isSubscribed` exactly when the viewer holds such a record |
| VideoController.ViewFound | src/controllers/video.controller.js:207-291 | a viewer with no user document makes the handler fail with the store unchanged. Otherwise the viewer's tag preferences are updated and the views go up by one. The reply is 200 exactly when the owner exists, else 404 "Video not found". The detail shows the video's id, title, description, thumbnail, tags, file, duration and creation time, and the incremented views. Its owner block carries the owner's id, and the user name, full name and avatar of the owner's user document, plus the owner's subscriber facts |
| VideoController.GetVideoById | src/controllers/video.controller.js:176-292 | a malformed id answers 404 and changes nothing; a well-formed id records the view in the history before anything is looked up, so a missing video still leaves a history entry and answers 404 |
| VideoController.ViewRecorded | src/controllers/video.controller.js:179-205 | whatever the lookups find, a well-formed id records the view and advances the clock |
| VideoController.ViewMaintainsHistory | src/controllers/video.controller.js:183-205 | a view keeps the history invariant, leaves exactly one entry for the pair, keeps the fresh entry, and caps the viewer at 50 |
| VideoController.TogglePublishStatus | src/controllers/video.controller.js:395-411 | a malformed id answers 404; a missing video answers 404 with the text in `data`; otherwise only that video's `isPublished` flips and the flipped document is returned |
| VideoController.ToggleTwiceRestores | src/controllers/video.controller.js:405-406 | toggling the publish status twice restores the store |
| VideoController.RemoveFromWatchHistory | src/controllers/video.controller.js:488-509 | a malformed id answers 400; a pair with no entry answers 404 "Video not found in watch history"; otherwise exactly one entry, of the pair, goes, the history shrinks by one, and only the history changes |
| VideoController.ClearWatchHistory | src/controllers/video.controller.js:511-525 | clearing removes every entry of the caller, reports how many, keeps every other user's entries with their multiplicity, and leaves the rest of the store alone |
| VideoController.RemoveAfterView | src/controllers/video.controller.js:183-205 | right after a view, removing that video succeeds and leaves no entry for the pair |
| VideoController.RemoveAfterClear | src/controllers/video.controller.js:495-514 | after clearing, removing any video answers 404 and a second clear reports 0 |
| VideoController.AfterLast | src/controllers/video.controller.js:340 | `split(c).pop()` is the suffix after the last `c`, and contains no `c` |
| VideoController.BeforeFirst | src/controllers/video.controller.js:340 | `split(c)[0]` is the prefix before the first `c`, and contains no `c` |
| VideoController.PublicId | src/controllers/video.controller.js:379-380 | a public id contains no `/` and no `.`, and is no longer than its URL |
| VideoController.PublicIdOfUrl | src/controllers/video.controller.js:379-380 | the public id of `base/name.ext` is `name` |
| VideoController.PublicIdOfBareUrl | src/controllers/video.controller.js:379-380 | the public id of `base/name` with no extension is `name` |
| VideoController.PublishChecks | src/controllers/video.controller.js:101-126 | the request is accepted exactly when the tags parse, neither title nor description is the empty string, the tags are a non-empty array and `req.files` holds both upload fields; unparseable tags answer 400 "Invalid tags format" first; with no `req.files` the answer is 400 "video and thumbnail are required"; a `req.files` lacking either field crashes the handler |
| VideoController.UpdateChecks | src/controllers/video.controller.js:311-336 | the request is accepted exactly when the tags parse, the id is valid, title and description are truthy, the tags are a non-empty array and a thumbnail is present; the tag-parse error comes before the id check; the checks never crash |
| VideoController.TagRulesAgree | src/controllers/video.controller.js:118-120 | once everything else passes, publish and update accept the same tags and reject the rest with the same status and message |
| VideoController.MissingTitleChecks | src/controllers/video.controller.js:114-116 | an absent title passes the publish check but fails the update check with 404 "All fields are required" |
| VideoController.UpdateVideo | src/controllers/video.controller.js:294-370 | a failed check answers with its error; a missing video fails; otherwise the old thumbnail's public id is destroyed; an upload with no result fails, and one without a URL or with an empty URL answers 400 "Error while uploading thumbnail", all with the store unchanged; a successful one rewrites title, description, thumbnail and tags of that video, every other video is found as before, and nothing else in the store changes |
| VideoController.UpdateThenView | src/controllers/video.controller.js:176-292 | after a successful update, the next view of the video is answered exactly when its owner exists, and shows the new title, description, thumbnail and tags |
| VideoController.DeleteVideo | src/controllers/video.controller.js:372-393 | a malformed id answers 404; a missing video fails; otherwise both hosted files' public ids are destroyed and exactly that document is deleted |
| VideoController.GetVideoByIdAsWritten | src/controllers/video.controller.js:176-184 | as the file stands, a valid id makes the handler fail before any write, and a malformed one answers 404; the store never changes |
| VideoController.ViewNeverRecordedAsWritten | src/controllers/video.controller.js:183-205 | a viewer with an empty history still has none after the handler as it stands, and has one entry after the handler with its import |
| VideoController.UpdateVideoAsWritten | src/controllers/video.controller.js:294-345 | as the file stands, a rejected request answers with the check's error, and an accepted one fails with nothing written or destroyed |
| VideoController.UpdateNeverAppliesAsWritten | src/controllers/video.controller.js:339-362 | where the handler with its imports stores the new thumbnail, the handler as it stands fails and leaves the store as it was |
| VideoController.DeleteVideoAsWritten | src/controllers/video.controller.js:372-387 | as the file stands, a valid id makes the handler fail with nothing deleted or destroyed, and a malformed one answers 404 |
| VideoController.DeleteNeverDeletesAsWritten | src/controllers/video.controller.js:381-387 | an existing video is still found after the handler as it stands, while the handler with its import removes one document |
| Ledger.Toggle | src/controllers/like.controller.js:36-51 | with no record of the key one is appended; otherwise one is removed; the key's count becomes 1 or drops by one |
| Ledger.ToggleDisjoint | src/controllers/like.controller.js:36-51 | a toggle leaves unchanged the count of any filter that no record of its key passes |
| Ledger.ToggleCovering | src/controllers/like.controller.js:36-51 | a toggle moves the count of any filter that every record of its key passes by exactly one, up on create and down on delete |
| Ledger.ToggleBack | src/controllers/like.controller.js:36-51 | creating and then deleting restores the ledger exactly |
| Ledger.ToggleReturn | src/controllers/like.controller.js:36-51 | deleting the only record and creating a new one restores every count that cannot tell the two records apart |
| Likes.ToggleLike | src/controllers/like.controller.js:36-52 | with no like of the caller on the target, one is created and returned with "liked successfully"; otherwise one is deleted with "unLike successfully"; only the likes and the clock change |
| Likes.ToggleVideoLike | src/controllers/like.controller.js:31-53 | a malformed id answers 404 "not valid video id" and changes nothing; otherwise the toggle is keyed on the video |
| Likes.ToggleCommentLike | src/controllers/like.controller.js:55-77 | a malformed id answers 404 with the same "video" message; otherwise the toggle is keyed on the comment |
| Likes.ToggleTweetLike | src/controllers/like.controller.js:79-101 | a malformed id answers 404 with the same "video" message; otherwise the toggle is keyed on the tweet |
| Likes.GetVideosLikes | src/controllers/like.controller.js:7-29 | `likeCount` is the number of likes on the video; `likedByUser` holds exactly when the caller has one |
| Likes.GetLikedVideos | src/controllers/like.controller.js:103-112 | the list has one entry per like by the caller, of any target kind, each with its video populated when it is a video like whose video exists |
| Likes.ToggleMovesItsCount | src/controllers/like.controller.js:36-51 | a toggle moves its own target's like count by one, down when the caller had liked it |
| Likes.ToggleTouchesOnlyItsKey | src/controllers/like.controller.js:60-75 | a toggle leaves every other target's count, and every other user's likes, unchanged |
| Likes.LikeThenUnlike | src/controllers/like.controller.js:41-51 | liking and then unliking restores the ledger exactly |
| Likes.UnlikeThenLike | src/controllers/like.controller.js:41-51 | unliking the only like and liking again restores every per-user and per-target count |
| Likes.LikeAlternates | src/controllers/like.controller.js:36-51 | with at most one like per (user, target), repeated toggles alternate the like between present and absent |
| Likes.LikeParity | src/controllers/like.controller.js:36-51 | after n toggles the like exists exactly when it existed before xor n is odd |
| Likes.ToggleFlipsSummary | src/controllers/like.controller.js:12-25 | a video-like toggle flips the caller's `likedByUser` and moves `likeCount` by one |
| Subscriptions.ToggleRecord | src/controllers/subscription.controller.js:42-60 | with no record of the pair one is created and returned with "Subscribed successfully"; otherwise one is deleted with "Unsubscribed successfully" |
| Subscriptions.ToggleSubscriptionAsWritten | src/controllers/subscription.controller.js:31-61 | a malformed id answers 404; the own-channel refusal fires only when the raw parameter is textually the caller's id |
| Subscriptions.ToggleSubscription | src/controllers/subscription.controller.js:31-61 | as the handler, with the own-channel refusal made on the cast id |
| Subscriptions.ToggleKeepsNoSelf | src/controllers/subscription.controller.js:35-40 | the corrected toggle never creates a record subscribing a user to their own channel |
| Subscriptions.SelfSubscriptionAsWritten | src/controllers/subscription.controller.js:35-40 | the upper-case spelling of one's own id passes the check as written and creates a self-subscription; the corrected toggle refuses it |
| Subscriptions.SelfToggleChangesNothing | src/controllers/subscription.controller.js:35-40 | naming one's own id in its stored spelling is refused by both versions, and the store is unchanged |
| Subscriptions.GetVideoSubscriber | src/controllers/subscription.controller.js:7-29 | `subscribers` counts the records naming the channel; `subscribeByUser` holds exactly when the caller has one |
| Subscriptions.SubscriberCards | src/controllers/subscription.controller.js:76-127 | one card per record whose subscriber exists: each user has as many cards as records naming them with an existing user document; each card's user name, full name and avatar are that user document's; its subscriber count is that user's own, and `isSubscribed` says whether the channel subscribes back |
| Subscriptions.GetUserChannelSubscribers | src/controllers/subscription.controller.js:63-139 | a malformed id answers 404; otherwise every listed user subscribes to the channel, with the user name, full name and avatar of their user document, and the list has one entry per record whose subscriber exists |
| Subscriptions.ChannelInfos | src/controllers/subscription.controller.js:148-186 | one entry per record whose channel exists: each channel has as many entries as records naming it with an existing user document; each entry has that channel's user name, full name, avatar and subscriber count |
| Subscriptions.GetSubscribedChannels | src/controllers/subscription.controller.js:141-194 | every listed channel is one the caller subscribes to, with the user name, full name and avatar of its user document and its subscriber count; one entry per record of the caller whose channel exists |
| Subscriptions.SubscriberListed | src/controllers/subscription.controller.js:63-139 | every subscriber of the channel who has a user document is in the subscriber list |
| Subscriptions.ChannelListed | src/controllers/subscription.controller.js:141-194 | every channel the caller subscribes to that has a user document is in the caller's channel list |
| Subscriptions.ListMatchesCount | src/controllers/subscription.controller.js:63-139 | when every subscriber has a user document, the subscriber list is exactly as long as the subscriber count |
| Subscriptions.ToggleFlipsSummary | src/controllers/subscription.controller.js:12-18 | a toggle moves the channel's subscriber count by one, flips `subscribeByUser` when there was at most one record, and leaves other channels' counts alone |
| Subscriptions.SubscribeThenUnsubscribe | src/controllers/subscription.controller.js:47-60 | subscribing and then unsubscribing restores the ledger exactly |
| Subscriptions.UnsubscribeThenSubscribe | src/controllers/subscription.controller.js:47-60 | unsubscribing from the only record and subscribing again restores every pair count |
| Subscriptions.SubscriptionAlternates | src/controllers/subscription.controller.js:47-60 | with at most one record per pair, repeated toggles alternate the record between present and absent |
| Subscriptions.SubscriptionParity | src/controllers/subscription.controller.js:47-60 | after n toggles the record exists exactly when it existed before xor n is odd |
| Playlists.CreatePlaylist | src/controllers/playlist.controller.js:7-24 | a missing, empty or whitespace-only title or description answers 400; otherwise the caller's new playlist, with no videos, is appended and returned |
| Playlists.FirstThumbnail | src/controllers/playlist.controller.js:35-63 | a thumbnail is reported exactly when the playlist has a first member that exists, and it is that video's thumbnail |
| Playlists.GetUserPlaylists | src/controllers/playlist.controller.js:26-77 | a malformed id answers 404; otherwise there is one summary per playlist of the user, giving its id, name, member count and first thumbnail |
| Playlists.ListingReportsFirstThumbnail | src/controllers/playlist.controller.js:26-77 | every playlist of the user appears in the listing with its member count, and its thumbnail when the first member exists |
| Playlists.GetPlaylistById | src/controllers/playlist.controller.js:79-131 | a malformed id answers 404; a missing playlist answers 200 with no data; otherwise the detail carries the playlist's id, name, description and creation time; it lists each video of the collection that the playlist names, as many times as the collection holds it, and no other; its owner is the owner's user document (`_id`, names and avatar), and absent exactly when that document is missing |
| Playlists.AddSlot | src/controllers/playlist.controller.js:138-142 | the update targets a playlist with that id that does not list the video; there is none exactly when no such playlist exists |
| Playlists.AddVideoToPlaylist | src/controllers/playlist.controller.js:133-154 | malformed ids answer 404; it answers 400 exactly when no playlist with the id lacks the video; otherwise the video is appended to that playlist only |
| Playlists.Pull | src/controllers/playlist.controller.js:163 | `$pull` removes every occurrence of the video and keeps every other member |
| Playlists.RemoveVideoFromPlaylist | src/controllers/playlist.controller.js:156-174 | malformed ids answer 404; a missing playlist answers 404 "Playlist not found"; otherwise the video is pulled from that playlist only |
| Playlists.DeletePlaylist | src/controllers/playlist.controller.js:176-184 | a malformed id answers 404; otherwise the answer is the same whether or not the playlist existed, and exactly that playlist goes |
| Playlists.UpdatePlaylist | src/controllers/playlist.controller.js:186-206 | a malformed id answers 404; a missing or blank name, or a blank description, answers 400; a missing playlist answers 200 with no data and changes nothing; otherwise only the name, and the description when one is given, of that playlist change: its id, owner, members and creation time stay, every other playlist stays, and nothing else in the store changes |
| Playlists.AddKeepsDistinct | src/controllers/playlist.controller.js:138-142 | adding never makes a playlist list a video twice |
| Playlists.RemoveKeepsDistinct | src/controllers/playlist.controller.js:161-165 | removing keeps every playlist free of repeated members |
| Playlists.DeleteKeepsDistinct | src/controllers/playlist.controller.js:180 | deleting keeps every remaining playlist free of repeated members |
| Playlists.RemoveNonMember | src/controllers/playlist.controller.js:161-165 | removing a video the playlist does not list leaves the store unchanged |
| Playlists.AddThenRemove | src/controllers/playlist.controller.js:133-174 | with unique playlist ids, adding a video a playlist lacks and then removing it restores the store |
| Playlists.PlaylistListsMembersOnce | src/controllers/playlist.controller.js:79-131 | when video ids are unique, the detail lists every existing member video exactly once and nothing else |
| Playlists.AddThenGet | src/controllers/playlist.controller.js:79-154 | with unique playlist ids, after a successful add, reading the playlist shows the added video when it exists |
| Playlists.RemoveThenGet | src/controllers/playlist.controller.js:79-174 | after a video is removed from an existing playlist, reading the playlist does not show it |
| Dashboard.GetChannelStatsAsWritten | src/controllers/dashboard.controller.js:9-120 | the reply counts the caller's videos, subscribers, tweets and playlists; its comment-like total always equals its tweet-like total |
| Dashboard.GetChannelStats | src/controllers/dashboard.controller.js:74-99 | the corrected stats agree with the handler's on every figure except the comment-like total |
| Dashboard.SumLikesCounts | src/controllers/dashboard.controller.js:22-47 | summing per-target like counts over distinct targets counts each like on any of them once |
| Dashboard.LikeTotalsCountLikes | src/controllers/dashboard.controller.js:22-73 | the video-like total is the number of likes on the owner's videos; the tweet-like total is the number of likes on the owner's tweets |
| Dashboard.CommentTotalIsTweetTotal | src/controllers/dashboard.controller.js:74-99 | as written, the comment-like total is the number of likes on the owner's tweets |
| Dashboard.CommentTotalCountsLikes | src/controllers/dashboard.controller.js:74-99 | the corrected comment-like total is the number of likes on the owner's comments |
| Dashboard.CommentLikesMissed | src/controllers/dashboard.controller.js:114-115 | on a channel with one liked comment and no tweets, the handler as written reports 0 comment likes, and the corrected one reports 1 |
| VideoController.ViewWritesOneView | src/controllers/video.controller.js:207-216 | a view of an existing video by a viewer with a user document writes back that video with one more view, even when its owner is missing, and leaves every other video document as it was |
| Dashboard.ReplaceAddsView | src/controllers/dashboard.controller.js:11-16 | writing back a video with one more view adds one to its owner's view total |
| Dashboard.ViewAddsToTotalViews | src/controllers/dashboard.controller.js:11-16 | `getVideoById` on an existing video, by a viewer with a user document, adds one to the owner's `totalViews` |
| Dashboard.VideoLikeMovesTotal | src/controllers/dashboard.controller.js:22-47 | liking or unliking one of the channel's videos moves `totalVideosLikes` by one |

## Left out

- Storage and hosting: Cloudinary uploads and deletes, multer temporary files and `fs` clean-up are external. `updateVideo` takes the upload helper's answer as a parameter: no result, a result without a URL, or a URL. `updateVideo` and `deleteVideo` return the public ids they ask the host to destroy.
- `publishAVideo` after its request checks is not modelled (upload, create, populate), because it depends entirely on the host's answers.
- `$text` relevance: the text index's verdict is a parameter `textMatch`, and text-score order is not modelled.
- `User.updateTagPreferences`: its definition is not part of this model, so each call is recorded with its tags in `Store.prefUpdates`.
- Imports and exports: the controller file does not import `WatchHistory`, `fs` or `cloudinary`. `getVideoById`, `updateVideo` and `deleteVideo` are modelled with those imports added; the `…AsWritten` members model them as the file stands (see Findings). The file does not export `getUserVideos` or the two watch-history handlers, which are modelled as if exported; the watch-history handlers also use `WatchHistory` and are modelled with its import added.
- Query-string parsing: `page` and `limit` are taken as integers. JavaScript coercion of numeric strings, `NaN` and fractional values is not modelled. The echoed `page`/`limit` are the numbers, not the strings.
- Feed.GetUserVideos: its own contract states the status, message and echoed page and limit. What the listing holds is stated by `Feed.UserVideosOwned` (only the caller's videos, all counted), `Feed.UserPage` (each page is a slice of one listing) and `Feed.UserVideosListEachOnce` (each video shown once across the pages).
- Ids: `isValidObjectId` also accepts any 12-character string and 12-byte buffers. Only 24-digit hexadecimal ids are modelled.
- Sort ties: `$sort` leaves the order of equal documents open. The model uses a stable sort, which is one admissible order. An array field sorts by its least element ascending and its greatest descending, and an empty array before a missing field; this is modelled for `tags`. Fields the card does not carry sort as missing. The order of JavaScript object keys is modelled only for string keys that are not integer-like.
- WatchHistory.OldestIndex: `sort({ watchedAt: 1 })` leaves ties open. The model takes the first in natural order.
- Floating point: views, durations and sums are integers; no overflow or rounding is modelled.
- Concurrency: `Promise.all` and interleaving of requests are not modelled. Each handler runs atomically.
- Wall-clock time: a counter stands in for `Date.now()`.
- `asyncHandler` and the error middleware are not part of this model. A thrown `ApiError` is the outcome `Raised`, and other exceptions are `Failed`.
- Tweet and comment CRUD, authentication, routing and `src/index.js`: tweets and comments appear only as like targets and owned records.
- Sorting.FieldValue: a sort on `owner` compares the embedded owner document field by field, in the order of the user schema's fields. That schema is not part of this model, so `owner` sorts as missing. The dotted keys `owner.userName`, `owner.fullName` and `owner.avatar` are modelled.

## Findings

| source | as written | input that shows it | evidently intended | confidence | as-written member | corrected member |
|---|---|---|---|---|---|---|
| src/controllers/subscription.controller.js:35-40 | the own-channel check compares the raw path parameter with the caller's ObjectId, whose text is lower-case hex | the caller's own id spelled in upper-case hex: it is a valid id, it casts to the caller's id, and it is not textually equal to it, so the caller is subscribed to their own channel | refuse any parameter that denotes the caller's id | high, by reading; not executed | Subscriptions.ToggleSubscriptionAsWritten (shown by Subscriptions.SelfSubscriptionAsWritten) | Subscriptions.ToggleSubscription (Subscriptions.ToggleKeepsNoSelf) |
| src/controllers/dashboard.controller.js:74-99 | `totalCommentsLikes` repeats the tweet pipeline: the caller's tweets joined on the likes' `tweet` field | a channel with one comment that has one like, and no tweets: `totalCommentsLikes` is 0 | sum the likes on the caller's comments, joined on the `comments` field that `toggleCommentLike` writes | high, by reading; not executed | Dashboard.GetChannelStatsAsWritten (shown by Dashboard.CommentLikesMissed) | Dashboard.GetChannelStats (Dashboard.CommentTotalCountsLikes) |
| src/controllers/video.controller.js:184 | `getVideoById` calls `WatchHistory.deleteOne`, but the imports at lines 1-7 do not include `WatchHistory` | any viewer and any well-formed video id: the handler throws a `ReferenceError` before reading the video, so no view is counted and no history is kept | import the `WatchHistory` model and record the view | high, by reading; not executed | VideoController.GetVideoByIdAsWritten (shown by VideoController.ViewNeverRecordedAsWritten) | VideoController.GetVideoById (VideoController.ViewMaintainsHistory) |
| src/controllers/video.controller.js:342 | `updateVideo` calls `cloudinary.uploader.destroy`, but the imports at lines 1-7 bring in only `uploadOnCloudinary` | an existing video and a request that passes every check: the handler throws before the upload, and the video is never updated | import the Cloudinary client and apply the edit | high, by reading; not executed | VideoController.UpdateVideoAsWritten (shown by VideoController.UpdateNeverAppliesAsWritten) | VideoController.UpdateVideo (VideoController.UpdateThenView) |
| src/controllers/video.controller.js:382 | `deleteVideo` calls `cloudinary.uploader.destroy` before `findByIdAndDelete`, but the imports at lines 1-7 do not include `cloudinary` | the id of an existing video: the handler throws and the video stays in the collection | import the Cloudinary client and delete the document | high, by reading; not executed | VideoController.DeleteVideoAsWritten (shown by VideoController.DeleteNeverDeletesAsWritten) | VideoController.DeleteVideo (VideoController.DeleteNeverDeletesAsWritten) |

=== FILE: base.dfy ===
/** Shared vocabulary of the backend model: optional values, document ids as
    the request handlers see them, sequence filtering and counting, and the
    JavaScript string predicates the handlers rely on. */
module Base {

  datatype Option<+T> = None | Some(value: T)

  // ---------------------------------------------------------------------------
  // Document ids
  // ---------------------------------------------------------------------------

  /** A stored document id: the hexadecimal text of a BSON ObjectId. */
  type ObjectId = string

  predicate IsHexDigit(c: char) {
    '0' <= c <= '9' || 'a' <= c <= 'f' || 'A' <= c <= 'F'
  }

  /** What `mongoose.Types.ObjectId.isValid` / `isValidObjectId` accept of a
      request parameter: 24 hexadecimal digits, in either case. */
  predicate IsValidObjectId(s: string) {
    |s| == 24 && forall i :: 0 <= i < |s| ==> IsHexDigit(s[i])
  }

  function ToLower(c: char): char {
    if 'A' <= c <= 'Z' then (c as int + 32) as char else c
  }

  /** An id in the form the store keeps it: an ObjectId prints as lower-case hex. */
  predicate IsCanonical(s: string) {
    IsValidObjectId(s) && forall i :: 0 <= i < |s| ==> !('A' <= s[i] <= 'Z')
  }

  /** The id a valid request parameter denotes once mongoose casts it to an
      ObjectId: the same digits, in lower case. */
  function Cast(s: string): (r: ObjectId)
    ensures IsValidObjectId(s) ==> IsCanonical(r)
    ensures IsCanonical(s) ==> r == s
  {
    seq(|s|, i requires 0 <= i < |s| => ToLower(s[i]))
  }

  // ---------------------------------------------------------------------------
  // Filtering, counting, removing
  // ---------------------------------------------------------------------------

  /** The elements of `s` satisfying `p`, in their original order (a store query). */
  function Filter<T(!new)>(s: seq<T>, p: T -> bool): (r: seq<T>)
    ensures |r| <= |s|
    ensures forall x :: x in r <==> x in s && p(x)
  {
    if |s| == 0 then []
    else (if p(s[0]) then [s[0]] else []) + Filter(s[1..], p)
  }

  /** No element occurs twice. */
  predicate Distinct<T(==)>(s: seq<T>) {
    forall i, j :: 0 <= i < j < |s| ==> s[i] != s[j]
  }

  /** `countDocuments` over `s` with filter `p`. */
  function Count<T(!new)>(s: seq<T>, p: T -> bool): nat {
    |Filter(s, p)|
  }

  lemma {:induction false} FilterAppend<T(!new)>(a: seq<T>, b: seq<T>, p: T -> bool)
    ensures Filter(a + b, p) == Filter(a, p) + Filter(b, p)
  {
    if |a| == 0 {
      assert a + b == b;
    } else {
      assert (a + b)[1..] == a[1..] + b;
      FilterAppend(a[1..], b, p);
    }
  }

  lemma FilterSingle<T(!new)>(x: T, p: T -> bool)
    ensures Filter([x], p) == if p(x) then [x] else []
  {
    assert [x][1..] == [];
  }

  /** Counting distributes over concatenation. */
  lemma CountAppend<T(!new)>(a: seq<T>, b: seq<T>, p: T -> bool)
    ensures Count(a + b, p) == Count(a, p) + Count(b, p)
  {
    FilterAppend(a, b, p);
  }

  lemma CountSingle<T(!new)>(x: T, p: T -> bool)
    ensures Count([x], p) == if p(x) then 1 else 0
  {
    FilterSingle(x, p);
  }

  /** A count is zero exactly when nothing satisfies the filter. */
  lemma {:induction false} CountZero<T(!new)>(s: seq<T>, p: T -> bool)
    ensures Count(s, p) == 0 <==> forall i :: 0 <= i < |s| ==> !p(s[i])
  {
    if |s| > 0 {
      CountZero(s[1..], p);
      assert forall i :: 1 <= i < |s| ==> s[1..][i - 1] == s[i];
    }
  }

  /** An element that passes the filter makes the count positive. */
  lemma CountPositive<T(!new)>(s: seq<T>, p: T -> bool, x: T)
    requires x in s && p(x)
    ensures Count(s, p) > 0
  {
    CountZero(s, p);
  }

  /** A positive count has a witness. */
  lemma CountWitness<T(!new)>(s: seq<T>, p: T -> bool)
    requires Count(s, p) > 0
    ensures exists x :: x in s && p(x)
  {
    CountZero(s, p);
  }

  /** Filtering keeps every copy of an element that passes and no copy of
      one that fails. */
  lemma {:induction false} FilterMultiset<T(!new)>(s: seq<T>, p: T -> bool, x: T)
    ensures multiset(Filter(s, p))[x] == if p(x) then multiset(s)[x] else 0
  {
    if |s| > 0 {
      FilterMultiset(s[1..], p, x);
      assert s == [s[0]] + s[1..];
      assert multiset(s) == multiset{s[0]} + multiset(s[1..]);
      var head := if p(s[0]) then [s[0]] else [];
      assert multiset(Filter(s, p)) == multiset(head) + multiset(Filter(s[1..], p));
    }
  }

  /** Two filters that agree on every element select the same subsequence. */
  lemma {:induction false} FilterSame<T(!new)>(s: seq<T>, p: T -> bool, q: T -> bool)
    requires forall i :: 0 <= i < |s| ==> p(s[i]) == q(s[i])
    ensures Filter(s, p) == Filter(s, q)
  {
    if |s| > 0 {
      assert forall i :: 1 <= i < |s| ==> s[1..][i - 1] == s[i];
      FilterSame(s[1..], p, q);
    }
  }

  /** Every element satisfies a filter or its negation, never both. */
  lemma {:induction false} CountComplement<T(!new)>(s: seq<T>, p: T -> bool, q: T -> bool)
    requires forall i :: 0 <= i < |s| ==> q(s[i]) == !p(s[i])
    ensures Count(s, p) + Count(s, q) == |s|
  {
    if |s| > 0 {
      assert forall i :: 1 <= i < |s| ==> s[1..][i - 1] == s[i];
      CountComplement(s[1..], p, q);
    }
  }

  /** The sequence without its element at position `i`. */
  function RemoveAt<T>(s: seq<T>, i: nat): (r: seq<T>)
    requires i < |s|
    ensures |r| == |s| - 1
    ensures multiset(r) + multiset{s[i]} == multiset(s)
  {
    assert s == s[..i] + [s[i]] + s[i + 1..];
    s[..i] + s[i + 1..]
  }

  /** The position of the first element satisfying `p` (what `findOne` finds,
      in natural order), or None when there is none. */
  function FirstIndex<T>(s: seq<T>, p: T -> bool): (r: Option<nat>)
    ensures r.None? <==> forall i :: 0 <= i < |s| ==> !p(s[i])
    ensures r.Some? ==> r.value < |s| && p(s[r.value])
    ensures r.Some? ==> forall i :: 0 <= i < r.value ==> !p(s[i])
  {
    if |s| == 0 then None
    else if p(s[0]) then Some(0)
    else match FirstIndex(s[1..], p)
      case None => None
      case Some(k) => Some(k + 1)
  }

  /** Removing one element that satisfies `p` lowers the count by one, and
      leaves the count of any filter it fails unchanged. */
  lemma CountRemoveAt<T(!new)>(s: seq<T>, i: nat, p: T -> bool)
    requires i < |s|
    ensures Count(RemoveAt(s, i), p) == Count(s, p) - (if p(s[i]) then 1 else 0)
  {
    assert s == s[..i] + [s[i]] + s[i + 1..];
    CountAppend(s[..i] + [s[i]], s[i + 1..], p);
    CountAppend(s[..i], [s[i]], p);
    CountAppend(s[..i], s[i + 1..], p);
    CountSingle(s[i], p);
  }

  /** Whatever is a sub-multiset of `b` has no more elements passing a filter. */
  lemma {:induction false} CountSubMultiset<T(!new)>(a: seq<T>, b: seq<T>, p: T -> bool)
    requires multiset(a) <= multiset(b)
    ensures Count(a, p) <= Count(b, p)
    decreases |a|
  {
    if |a| > 0 {
      var x := a[0];
      assert x in multiset(b);
      var i :| 0 <= i < |b| && b[i] == x;
      assert a == [x] + a[1..];
      assert multiset(a) == multiset{x} + multiset(a[1..]);
      assert multiset(b) == multiset(RemoveAt(b, i)) + multiset{x};
      forall y ensures multiset(a[1..])[y] <= multiset(RemoveAt(b, i))[y] {
        assert multiset(a)[y] <= multiset(b)[y];
      }
      CountSubMultiset(a[1..], RemoveAt(b, i), p);
      CountAppend([x], a[1..], p);
      CountSingle(x, p);
      CountRemoveAt(b, i, p);
    }
  }

  // ---------------------------------------------------------------------------
  // JavaScript strings
  // ---------------------------------------------------------------------------

  /** The characters `String.prototype.trim` removes: WhiteSpace and
      LineTerminator of ECMAScript (section 12.2 and 12.3 of ECMA-262). */
  predicate IsJsWhitespace(c: char) {
    var n := c as int;
    (0x09 <= n <= 0x0D) || n == 0x20 || n == 0xA0 || n == 0x1680
    || (0x2000 <= n <= 0x200A) || n == 0x2028 || n == 0x2029 || n == 0x202F
    || n == 0x205F || n == 0x3000 || n == 0xFEFF
  }

  /** `s.trim() === ""`. */
  predicate IsBlank(s: string) {
    forall i :: 0 <= i < |s| ==> IsJsWhitespace(s[i])
  }

  /** JavaScript truthiness of an optional string field: present and non-empty. */
  predicate Truthy(s: Option<string>) {
    s.Some? && s.value != ""
  }
}

=== FILE: dashboard.dfy ===
/** The channel dashboard of src/controllers/dashboard.controller.js: the
    totals of the signed-in user's channel. */
module Dashboard {
  import opened Base
  import opened Envelope
  import opened Documents
  import opened Ledger
  import opened WatchHistory
  import VideoController
  import Likes

  // ---------------------------------------------------------------------------
  // The owner's documents and their totals
  // ---------------------------------------------------------------------------

  function OwnsVideo(o: ObjectId): Video -> bool {
    (v: Video) => v.owner == o
  }

  function OwnedVideos(vs: seq<Video>, o: ObjectId): seq<Video> {
    Filter(vs, OwnsVideo(o))
  }

  function OwnedTweets(ts: seq<Tweet>, o: ObjectId): seq<Tweet> {
    Filter(ts, (t: Tweet) => t.owner == o)
  }

  function OwnedComments(cs: seq<Comment>, o: ObjectId): seq<Comment> {
    Filter(cs, (c: Comment) => c.owner == o)
  }

  /** The view counter summed over `vs`, front to back. */
  function SumViews(vs: seq<Video>): nat {
    if |vs| == 0 then 0 else vs[0].views + SumViews(vs[1..])
  }

  /** For each target, the size of its joined likes, summed (`$lookup`,
      `$size`, then `$group` with `$sum`; no documents sum to 0). */
  function SumLikes(likes: seq<Like>, ts: seq<LikeTarget>): nat {
    if |ts| == 0 then 0 else LikeCount(likes, ts[0]) + SumLikes(likes, ts[1..])
  }

  function VideoTargets(vs: seq<Video>): seq<LikeTarget> {
    seq(|vs|, i requires 0 <= i < |vs| => OnVideo(vs[i].id))
  }

  function TweetTargets(ts: seq<Tweet>): seq<LikeTarget> {
    seq(|ts|, i requires 0 <= i < |ts| => OnTweet(ts[i].id))
  }

  function CommentTargets(cs: seq<Comment>): seq<LikeTarget> {
    seq(|cs|, i requires 0 <= i < |cs| => OnComment(cs[i].id))
  }

  // ---------------------------------------------------------------------------
  // getChannelStats
  // ---------------------------------------------------------------------------

  /** `getChannelStats` as written: the comment-like total repeats the tweet
      pipeline (tweets of the owner joined on the likes' `tweet` field). */
  function GetChannelStatsAsWritten(st: Store, actor: ObjectId): (r: Outcome)
    ensures r.Reply? && r.httpStatus == 200 && r.body.sucess && r.body.message == "stats fetch successfully"
    ensures r.body.data.StatsDoc?
    ensures var s := r.body.data.stats;
            && s.id == actor
            && s.totalVideos == Count(st.videos, (v: Video) => v.owner == actor)
            && s.subscribersCount == SubscriberCount(st.subscriptions, actor)
            && s.tweetsCount == Count(st.tweets, (t: Tweet) => t.owner == actor)
            && s.playlistsCount == Count(st.playlists, (p: Playlist) => p.owner == actor)
            && s.totalCommentsLikes == s.totalTweetsLikes
  {
    var vs := OwnedVideos(st.videos, actor);
    var ts := OwnedTweets(st.tweets, actor);
    var tweetLikes := SumLikes(st.likes, TweetTargets(ts));
    var stats := ChannelStats(
      actor, SumViews(vs), |vs|, SubscriberCount(st.subscriptions, actor),
      Count(st.playlists, (p: Playlist) => p.owner == actor), |ts|,
      SumLikes(st.likes, VideoTargets(vs)), tweetLikes, tweetLikes);
    Ok(StatsDoc(stats), "stats fetch successfully")
  }

  /** `getChannelStats` with the comment-like total taken over the owner's
      comments joined on the likes' `comments` field, the one
      `toggleCommentLike` writes; every other figure is the one the handler
      computes. */
  function GetChannelStats(st: Store, actor: ObjectId): (r: Outcome)
    ensures r.Reply? && r.httpStatus == 200 && r.body.message == "stats fetch successfully"
    ensures r.body.data.StatsDoc?
    ensures var s := GetChannelStatsAsWritten(st, actor).body.data.stats;
            r.body.data.stats == s.(totalCommentsLikes := r.body.data.stats.totalCommentsLikes)
  {
    var s := GetChannelStatsAsWritten(st, actor).body.data.stats;
    var cs := CommentTargets(OwnedComments(st.comments, actor));
    Ok(StatsDoc(s.(totalCommentsLikes := SumLikes(st.likes, cs))), "stats fetch successfully")
  }

  // ---------------------------------------------------------------------------
  // What the totals mean
  // ---------------------------------------------------------------------------

  /** Two filters that never both hold count up to their disjunction. */
  lemma {:induction false} CountDisjointUnion<T(!new)>(s: seq<T>, p: T -> bool, q: T -> bool, pq: T -> bool)
    requires forall i :: 0 <= i < |s| ==> (pq(s[i]) <==> p(s[i]) || q(s[i]))
    requires forall i :: 0 <= i < |s| ==> !(p(s[i]) && q(s[i]))
    ensures Count(s, pq) == Count(s, p) + Count(s, q)
  {
    if |s| > 0 {
      assert forall i :: 1 <= i < |s| ==> s[1..][i - 1] == s[i];
      CountDisjointUnion(s[1..], p, q, pq);
    }
  }

  /** Summing per-target like counts over distinct targets counts the likes
      on any of them once each. */
  lemma {:induction false} SumLikesCounts(likes: seq<Like>, ts: seq<LikeTarget>)
    requires Distinct(ts)
    ensures SumLikes(likes, ts) == Count(likes, (l: Like) => l.target in ts)
  {
    if |ts| == 0 {
      CountZero(likes, (l: Like) => l.target in ts);
    } else {
      var rest := ts[1..];
      assert Distinct(rest) by {
        forall i, j | 0 <= i < j < |rest| ensures rest[i] != rest[j] {
          assert rest[i] == ts[i + 1] && rest[j] == ts[j + 1];
        }
      }
      SumLikesCounts(likes, rest);
      assert ts[0] !in rest by {
        forall k | 0 <= k < |rest| ensures rest[k] != ts[0] {
          assert rest[k] == ts[k + 1];
        }
      }
      assert forall t :: t in ts <==> t == ts[0] || t in rest by {
        assert ts == [ts[0]] + rest;
      }
      CountDisjointUnion(likes, (l: Like) => l.target == ts[0], (l: Like) => l.target in rest,
                         (l: Like) => l.target in ts);
    }
  }

  /** A target is one of the owner's videos exactly when it names a video the
      owner has. */
  lemma VideoTargetOwned(vs: seq<Video>, o: ObjectId, t: LikeTarget)
    ensures t in VideoTargets(OwnedVideos(vs, o)) <==>
              t.OnVideo? && exists v :: v in vs && v.owner == o && v.id == t.video
  {
    var owned := OwnedVideos(vs, o);
    var targets := VideoTargets(owned);
    if t in targets {
      var i :| 0 <= i < |targets| && targets[i] == t;
      assert owned[i] in owned;
    }
    if t.OnVideo? && exists v :: v in vs && v.owner == o && v.id == t.video {
      var v :| v in vs && v.owner == o && v.id == t.video;
      assert v in owned;
      var i :| 0 <= i < |owned| && owned[i] == v;
      assert targets[i] == t;
    }
  }

  /** Whether a like is on one of the owner's videos. */
  predicate OnOwnVideo(vs: seq<Video>, o: ObjectId, l: Like) {
    l.target.OnVideo? && exists v :: v in vs && v.owner == o && v.id == l.target.video
  }

  /** With the owner's videos' ids distinct, the video-like total is the
      number of likes on any of the owner's videos, and the tweet-like total
      the number of likes on any of the owner's tweets. */
  lemma LikeTotalsCountLikes(st: Store, actor: ObjectId)
    requires Distinct(VideoTargets(OwnedVideos(st.videos, actor)))
    requires Distinct(TweetTargets(OwnedTweets(st.tweets, actor)))
    ensures GetChannelStatsAsWritten(st, actor).body.data.stats.totalVideosLikes
            == Count(st.likes, (l: Like) => OnOwnVideo(st.videos, actor, l))
    ensures GetChannelStatsAsWritten(st, actor).body.data.stats.totalTweetsLikes
            == Count(st.likes, (l: Like) => l.target in TweetTargets(OwnedTweets(st.tweets, actor)))
  {
    var targets := VideoTargets(OwnedVideos(st.videos, actor));
    SumLikesCounts(st.likes, targets);
    SumLikesCounts(st.likes, TweetTargets(OwnedTweets(st.tweets, actor)));
    forall i | 0 <= i < |st.likes|
      ensures (st.likes[i].target in targets) == OnOwnVideo(st.videos, actor, st.likes[i])
    {
      VideoTargetOwned(st.videos, actor, st.likes[i].target);
    }
    FilterSame(st.likes, (l: Like) => l.target in targets, (l: Like) => OnOwnVideo(st.videos, actor, l));
  }

  /** With the owner's comments' ids distinct, the corrected comment-like
      total is the number of likes on any of the owner's comments. */
  lemma CommentTotalCountsLikes(st: Store, actor: ObjectId)
    requires Distinct(CommentTargets(OwnedComments(st.comments, actor)))
    ensures GetChannelStats(st, actor).body.data.stats.totalCommentsLikes
            == Count(st.likes, (l: Like) => l.target in CommentTargets(OwnedComments(st.comments, actor)))
  {
    SumLikesCounts(st.likes, CommentTargets(OwnedComments(st.comments, actor)));
  }

  /** As written, the comment-like total counts the likes on the owner's
      tweets, not on the owner's comments. */
  lemma CommentTotalIsTweetTotal(st: Store, actor: ObjectId)
    requires Distinct(TweetTargets(OwnedTweets(st.tweets, actor)))
    ensures GetChannelStatsAsWritten(st, actor).body.data.stats.totalCommentsLikes
            == Count(st.likes, (l: Like) => l.target in TweetTargets(OwnedTweets(st.tweets, actor)))
  {
    SumLikesCounts(st.likes, TweetTargets(OwnedTweets(st.tweets, actor)));
  }

  const Owner: ObjectId := "aaaaaaaaaaaaaaaaaaaaaaaa"
  const Fan: ObjectId := "bbbbbbbbbbbbbbbbbbbbbbbb"
  const OwnComment: ObjectId := "cccccccccccccccccccccccc"

  /** A channel with one comment, liked once, and no tweets: as written the
      dashboard reports no comment likes; the corrected handler reports one. */
  lemma CommentLikesMissed()
    ensures var st := Store([], [], [Like(Fan, OnComment(OwnComment), 0)], [], [], [], [],
                            [Comment(OwnComment, Owner)], [], 1);
            && GetChannelStatsAsWritten(st, Owner).body.data.stats.totalCommentsLikes == 0
            && GetChannelStats(st, Owner).body.data.stats.totalCommentsLikes == 1
  {
    var st := Store([], [], [Like(Fan, OnComment(OwnComment), 0)], [], [], [], [],
                    [Comment(OwnComment, Owner)], [], 1);
    var cs := OwnedComments(st.comments, Owner);
    FilterSingle(Comment(OwnComment, Owner), (c: Comment) => c.owner == Owner);
    assert cs == [Comment(OwnComment, Owner)];
    assert CommentTargets(cs) == [OnComment(OwnComment)];
    CountSingle(Like(Fan, OnComment(OwnComment), 0), (l: Like) => l.target == OnComment(OwnComment));
    assert OwnedTweets(st.tweets, Owner) == [];
    assert [OnComment(OwnComment)][1..] == [];
    assert st.likes[1..] == [];
    assert LikeCount(st.likes, OnComment(OwnComment)) == 1;
  }

  // ---------------------------------------------------------------------------
  // How other handlers move the totals
  // ---------------------------------------------------------------------------

  /** The owner's view total of a list with a given first video. */
  lemma OwnedViewsCons(x: Video, rest: seq<Video>, o: ObjectId)
    ensures SumViews(OwnedVideos([x] + rest, o)) == (if x.owner == o then x.views else 0) + SumViews(OwnedVideos(rest, o))
  {
    var s := [x] + rest;
    assert s[0] == x && s[1..] == rest;
    var f := OwnedVideos(s, o);
    if x.owner == o {
      assert f == [x] + OwnedVideos(rest, o);
      assert f[0] == x && f[1..] == OwnedVideos(rest, o);
    } else {
      assert f == OwnedVideos(rest, o);
    }
  }

  /** Writing back a video with one more view, same owner, adds one to the
      owner's view total. */
  lemma {:induction false} ReplaceAddsView(vs: seq<Video>, id: ObjectId, v: Video)
    requires FindVideo(vs, id) == Some(v)
    ensures SumViews(OwnedVideos(VideoController.ReplaceVideo(vs, id, VideoController.Viewed(v)), v.owner))
            == SumViews(OwnedVideos(vs, v.owner)) + 1
  {
    var o := v.owner;
    var nv := VideoController.Viewed(v);
    var rest := vs[1..];
    var before := SumViews(OwnedVideos(vs, o));
    assert vs == [vs[0]] + rest;
    OwnedViewsCons(vs[0], rest, o);
    if vs[0].id == id {
      assert v == vs[0];
      var r := VideoController.ReplaceVideo(vs, id, nv);
      assert r == [nv] + rest;
      OwnedViewsCons(nv, rest, o);
      assert SumViews(OwnedVideos(r, o)) == nv.views + SumViews(OwnedVideos(rest, o));
      assert before == v.views + SumViews(OwnedVideos(rest, o));
      assert SumViews(OwnedVideos(r, o)) == before + 1;
    } else {
      assert FindVideo(rest, id) == Some(v);
      var rr := VideoController.ReplaceVideo(rest, id, nv);
      var r := VideoController.ReplaceVideo(vs, id, nv);
      assert r == [vs[0]] + rr;
      ReplaceAddsView(rest, id, v);
      OwnedViewsCons(vs[0], rr, o);
      var head := if vs[0].owner == o then vs[0].views else 0;
      assert SumViews(OwnedVideos(r, o)) == head + SumViews(OwnedVideos(rr, o));
      assert before == head + SumViews(OwnedVideos(rest, o));
      assert SumViews(OwnedVideos(r, o)) == before + 1;
    }
  }

  function TotalViews(st: Store, o: ObjectId): int {
    GetChannelStatsAsWritten(st, o).body.data.stats.totalViews
  }

  /** The dashboard's view total is the sum of the channel's view counters. */
  lemma TotalViewsSums(st: Store, o: ObjectId)
    ensures TotalViews(st, o) == SumViews(OwnedVideos(st.videos, o))
  {
  }

  /** Watching an existing video adds one to its owner's view total on the
      dashboard, as soon as the viewer has a user document. */
  lemma ViewAddsToTotalViews(st: Store, actor: ObjectId, rawId: string)
    requires IsValidObjectId(rawId) && FindVideo(st.videos, Cast(rawId)).Some?
    requires FindUser(st.users, actor).Some?
    ensures TotalViews(VideoController.GetVideoById(st, actor, rawId).st, FindVideo(st.videos, Cast(rawId)).value.owner)
            == TotalViews(st, FindVideo(st.videos, Cast(rawId)).value.owner) + 1
  {
    var id := Cast(rawId);
    VideoController.ViewWritesOneView(st, actor, rawId);
    var v := FindVideo(st.videos, id).value;
    var after := VideoController.GetVideoById(st, actor, rawId).st;
    ReplaceAddsView(st.videos, id, v);
    TotalViewsSums(after, v.owner);
    TotalViewsSums(st, v.owner);
  }

  /** Liking or unliking a video of the channel moves the dashboard's
      video-like total by one. */
  lemma VideoLikeMovesTotal(st: Store, actor: ObjectId, rawId: string, o: ObjectId)
    requires IsValidObjectId(rawId)
    requires FindVideo(st.videos, Cast(rawId)).Some? && FindVideo(st.videos, Cast(rawId)).value.owner == o
    requires Distinct(VideoTargets(OwnedVideos(st.videos, o)))
    ensures var before := GetChannelStatsAsWritten(st, o).body.data.stats.totalVideosLikes;
            GetChannelStatsAsWritten(Likes.ToggleVideoLike(st, actor, rawId).st, o).body.data.stats.totalVideosLikes
            == if Likes.HasLiked(st.likes, actor, OnVideo(Cast(rawId))) then before - 1 else before + 1
  {
    var target := OnVideo(Cast(rawId));
    var after := Likes.ToggleVideoLike(st, actor, rawId).st;
    var targets := VideoTargets(OwnedVideos(st.videos, o));
    var x := Like(actor, target, st.clock);
    assert after.videos == st.videos;
    assert after.likes == Toggle(st.likes, Likes.Key(actor, target), x);
    VideoLikesTotal(st, o);
    VideoLikesTotal(after, o);
    VideoTargetOwned(st.videos, o, target);
    ToggleMovesSum(st.likes, targets, actor, target, st.clock);
  }

  /** Toggling a like on one of a set of targets moves their like sum by one. */
  lemma ToggleMovesSum(likes: seq<Like>, targets: seq<LikeTarget>, actor: ObjectId, target: LikeTarget, clock: nat)
    requires target in targets && Distinct(targets)
    ensures SumLikes(Toggle(likes, Likes.Key(actor, target), Like(actor, target, clock)), targets)
            == if Likes.HasLiked(likes, actor, target) then SumLikes(likes, targets) - 1 else SumLikes(likes, targets) + 1
  {
    var x := Like(actor, target, clock);
    SumLikesCounts(likes, targets);
    SumLikesCounts(Toggle(likes, Likes.Key(actor, target), x), targets);
    ToggleCovering(likes, Likes.Key(actor, target), x, (l: Like) => l.target in targets);
  }

  /** The dashboard's video-like total sums the likes over the owner's videos. */
  lemma VideoLikesTotal(st: Store, o: ObjectId)
    ensures GetChannelStatsAsWritten(st, o).body.data.stats.totalVideosLikes
            == SumLikes(st.likes, VideoTargets(OwnedVideos(st.videos, o)))
  {
  }
}

=== FILE: documents.dfy ===
/** The documents the controllers read and write, the in-memory store holding
    them, the read-models the handlers answer with, and the shape of a handler
    step: `(state, actor, args) -> (outcome, state')`. */
module Documents {
  import opened Base
  import opened Envelope

  // ---------------------------------------------------------------------------
  // Stored documents
  // ---------------------------------------------------------------------------

  datatype Video = Video(
    id: ObjectId,
    owner: ObjectId,
    title: string,
    description: string,
    videoFile: string,
    thumbnail: string,
    duration: int,
    views: nat,
    tags: seq<string>,
    isPublished: bool,
    createdAt: nat)

  /** The part of a user document the controllers read. Tag preferences live
      behind `User.updateTagPreferences`, whose definition is not part of this
      model; its calls are recorded in `Store.prefUpdates`. */
  datatype User = User(id: ObjectId, userName: string, fullName: string, avatar: string)

  /** A like targets exactly one video, comment or tweet: the ledger's three
      optional reference fields, of which each handler sets exactly one. */
  datatype LikeTarget = OnVideo(video: ObjectId) | OnComment(comment: ObjectId) | OnTweet(tweet: ObjectId)

  datatype Like = Like(likedBy: ObjectId, target: LikeTarget, createdAt: nat)

  datatype Subscription = Subscription(subscriber: ObjectId, channel: ObjectId, createdAt: nat)

  datatype WatchEntry = WatchEntry(user: ObjectId, video: ObjectId, watchedAt: nat)

  datatype Playlist = Playlist(
    id: ObjectId,
    owner: ObjectId,
    playlistName: string,
    description: string,
    videos: seq<ObjectId>,
    createdAt: nat)

  /** Tweets and comments appear only as like targets and owned records. */
  datatype Tweet = Tweet(id: ObjectId, owner: ObjectId)

  datatype Comment = Comment(id: ObjectId, owner: ObjectId)

  /** One call `user.updateTagPreferences(tags)`. */
  datatype PrefUpdate = PrefUpdate(user: ObjectId, tags: seq<string>)

  /** The collections, in natural (insertion) order, and a clock that stamps
      `createdAt` / `watchedAt` of every document created. */
  datatype Store = Store(
    videos: seq<Video>,
    users: seq<User>,
    likes: seq<Like>,
    subscriptions: seq<Subscription>,
    history: seq<WatchEntry>,
    playlists: seq<Playlist>,
    tweets: seq<Tweet>,
    comments: seq<Comment>,
    prefUpdates: seq<PrefUpdate>,
    clock: nat)

  // ---------------------------------------------------------------------------
  // Lookups by _id (the store keeps _id unique, so the first match is the match)
  // ---------------------------------------------------------------------------

  function FindVideo(videos: seq<Video>, id: ObjectId): (r: Option<Video>)
    ensures r.Some? ==> r.value in videos && r.value.id == id
    ensures r.None? ==> forall i :: 0 <= i < |videos| ==> videos[i].id != id
  {
    if |videos| == 0 then None
    else if videos[0].id == id then Some(videos[0])
    else FindVideo(videos[1..], id)
  }

  /** The store's `_id` index: no two videos share an id. */
  predicate UniqueVideoIds(videos: seq<Video>) {
    forall i, j :: 0 <= i < j < |videos| ==> videos[i].id != videos[j].id
  }

  /** Under unique ids no video occurs twice. */
  lemma {:induction false} UniqueVideoOnce(videos: seq<Video>, v: Video)
    requires UniqueVideoIds(videos)
    ensures multiset(videos)[v] <= 1
  {
    if |videos| > 0 {
      var rest := videos[1..];
      assert videos == [videos[0]] + rest;
      assert UniqueVideoIds(rest) by {
        forall i, j | 0 <= i < j < |rest| ensures rest[i].id != rest[j].id {
          assert rest[i] == videos[i + 1] && rest[j] == videos[j + 1];
        }
      }
      UniqueVideoOnce(rest, v);
      if v == videos[0] {
        forall k | 0 <= k < |rest| ensures rest[k] != v {
          assert rest[k] == videos[k + 1];
        }
        assert v !in multiset(rest);
      }
    }
  }

  function FindUser(users: seq<User>, id: ObjectId): (r: Option<User>)
    ensures r.Some? ==> r.value in users && r.value.id == id
    ensures r.None? ==> forall i :: 0 <= i < |users| ==> users[i].id != id
  {
    if |users| == 0 then None
    else if users[0].id == id then Some(users[0])
    else FindUser(users[1..], id)
  }

  // ---------------------------------------------------------------------------
  // Ledger queries shared by several handlers
  // ---------------------------------------------------------------------------

  /** The number of subscription records naming `channel` as channel. */
  function SubscriberCount(subs: seq<Subscription>, channel: ObjectId): nat {
    Count(subs, (s: Subscription) => s.channel == channel)
  }

  /** Whether some record says `subscriber` subscribes to `channel`. */
  predicate Subscribes(subs: seq<Subscription>, subscriber: ObjectId, channel: ObjectId) {
    exists i :: 0 <= i < |subs| && subs[i].subscriber == subscriber && subs[i].channel == channel
  }

  /** The number of likes on `target`. */
  function LikeCount(likes: seq<Like>, target: LikeTarget): nat {
    Count(likes, (l: Like) => l.target == target)
  }

  // ---------------------------------------------------------------------------
  // Read-models returned in envelopes
  // ---------------------------------------------------------------------------

  /** `owner.fullName`, `owner.userName`, `owner.avatar` of a joined user. */
  datatype OwnerSummary = OwnerSummary(fullName: string, userName: string, avatar: string)

  function Summary(u: User): OwnerSummary {
    OwnerSummary(u.fullName, u.userName, u.avatar)
  }

  /** A listed video: the projected fields of a video joined with its owner. */
  datatype VideoCard = VideoCard(
    id: ObjectId,
    thumbnail: string,
    title: string,
    description: string,
    views: nat,
    duration: int,
    isPublished: bool,
    tags: seq<string>,
    owner: OwnerSummary,
    createdAt: nat)

  /** A user joined with the subscriptions naming it as channel. */
  datatype ChannelCard = ChannelCard(
    id: ObjectId,
    fullName: string,
    userName: string,
    avatar: string,
    subscriberCount: nat,
    isSubscribed: bool)

  /** A subscribed-to channel with its subscriber count. */
  datatype ChannelInfo = ChannelInfo(
    id: ObjectId,
    userName: string,
    fullName: string,
    avatar: string,
    subscribers: nat)

  datatype VideoDetail = VideoDetail(
    id: ObjectId,
    title: string,
    description: string,
    videoFile: string,
    thumbnail: string,
    duration: int,
    views: nat,
    createdAt: nat,
    owner: ChannelCard,
    tags: seq<string>)

  /** A like with its `video` reference populated (null when absent). */
  datatype LikedItem = LikedItem(like: Like, video: Option<Video>)

  datatype PlaylistSummary = PlaylistSummary(
    id: ObjectId,
    playlistName: string,
    description: string,
    videos: nat,
    thumbnail: Option<string>,
    createdAt: nat)

  datatype PlaylistDetail = PlaylistDetail(
    id: ObjectId,
    playlistName: string,
    description: string,
    videos: seq<Video>,
    owner: Option<User>,
    createdAt: nat)

  datatype ChannelStats = ChannelStats(
    id: ObjectId,
    totalViews: int,
    totalVideos: nat,
    subscribersCount: nat,
    playlistsCount: nat,
    tweetsCount: nat,
    totalVideosLikes: nat,
    totalTweetsLikes: nat,
    totalCommentsLikes: nat)

  /** What the `data` field of an envelope holds. */
  datatype Payload =
    | Empty                                     // `{}`
    | Null                                      // `null` or `undefined`
    | Text(text: string)
    | VideoPage(totalVideos: nat, page: int, limit: int, videos: seq<VideoCard>)
    | VideoDoc(video: Video)
    | VideoDetailDoc(detail: VideoDetail)
    | DeletedCount(deletedCount: nat)
    | LikeDoc(like: Like)
    | LikeSummary(likeCount: nat, likedByUser: bool)
    | LikedList(liked: seq<LikedItem>)
    | SubscriptionDoc(subscription: Subscription)
    | SubscriberSummary(subscribers: nat, subscribeByUser: bool)
    | SubscriberList(subscriberCards: seq<ChannelCard>)
    | ChannelList(channels: seq<ChannelInfo>)
    | PlaylistDoc(playlist: Playlist)
    | PlaylistList(summaries: seq<PlaylistSummary>)
    | PlaylistDetailDoc(playlistDetail: PlaylistDetail)
    | StatsDoc(stats: ChannelStats)

  // ---------------------------------------------------------------------------
  // Handler steps
  // ---------------------------------------------------------------------------

  /** How a handler ends: it writes an HTTP status and an envelope, it throws
      an `ApiError(status, message)` (rendered by error middleware that is not
      part of this model), or it fails with some other error: the database
      rejects the pipeline it was sent, or the code reads a property of a
      `null` document. */
  datatype Outcome =
    | Reply(httpStatus: int, body: ApiResponse<Payload>)
    | Raised(status: int, message: string)
    | Failed

  datatype Step = Step(out: Outcome, st: Store)

  /** `res.status(200).json(new ApiResponse(200, data, message))`. */
  function Ok(data: Payload, message: string): (r: Outcome)
    ensures r.Reply? && r.httpStatus == 200 && r.body.sucess
    ensures r.body.data == data && r.body.message == message
  {
    Reply(200, Make(200, data, Some(message)))
  }
}

=== FILE: envelope.dfy ===
/** The JSON envelope every handler answers with (src/utils/ApiResponse.js).
    Field names keep the source's spelling: `statuscode` and `sucess`. */
module Envelope {
  import opened Base

  datatype ApiResponse<D> = ApiResponse(statuscode: int, data: D, message: string, sucess: bool)

  /** The message an envelope carries when the caller passes none. */
  const DefaultMessage: string := "Sucess"

  /** `new ApiResponse(statusCode, data, message)`, where `None` stands for an
      omitted (undefined) message argument. */
  function Make<D>(statusCode: int, data: D, message: Option<string>): (r: ApiResponse<D>)
    ensures r.statuscode == statusCode
    ensures r.data == data
    ensures r.sucess <==> statusCode < 400
    ensures message.Some? ==> r.message == message.value
    ensures message.None? ==> r.message == DefaultMessage
  {
    ApiResponse(statusCode, data, if message.Some? then message.value else DefaultMessage, statusCode < 400)
  }
}

=== FILE: feed.dfy ===
/** The catalogue listings of src/controllers/video.controller.js:
    `getAllVideos` (public feed, lines 9-99) and `getUserVideos` (the
    requester's own videos, lines 413-486). Both run a filter, an owner join,
    a multi-key sort and a skip/limit page, and count the filter's matches in
    a second pipeline that has no owner join. */
module Feed {
  import opened Base
  import opened Envelope
  import opened Documents
  import opened Sorting

  // ---------------------------------------------------------------------------
  // Filter
  // ---------------------------------------------------------------------------

  /** The `$match` object: `isPublished: true` (public feed only), `$text`,
      `owner` and `tags` conditions, each present or not. */
  datatype MatchStage = MatchStage(
    publishedOnly: bool,
    text: Option<string>,
    owner: Option<ObjectId>,
    tag: Option<string>)

  /** Whether a video passes the filter. `$text` relevance is not modelled:
      `textMatch` is whatever the text index answers for a search string. */
  predicate Matches(m: MatchStage, textMatch: (string, Video) -> bool, v: Video) {
    && (m.publishedOnly ==> v.isPublished)
    && (m.text.Some? ==> textMatch(m.text.value, v))
    && (m.owner.Some? ==> v.owner == m.owner.value)
    && (m.tag.Some? ==> m.tag.value in v.tags)
  }

  function Matching(videos: seq<Video>, m: MatchStage, textMatch: (string, Video) -> bool): (r: seq<Video>)
    ensures forall v :: v in r <==> v in videos && Matches(m, textMatch, v)
  {
    Filter(videos, v => Matches(m, textMatch, v))
  }

  // ---------------------------------------------------------------------------
  // Join, page
  // ---------------------------------------------------------------------------

  /** The projected fields of a video joined with its owner. */
  function Card(v: Video, u: User): VideoCard {
    VideoCard(v.id, v.thumbnail, v.title, v.description, v.views, v.duration,
              v.isPublished, v.tags, Summary(u), v.createdAt)
  }

  predicate HasOwner(users: seq<User>, v: Video) {
    FindUser(users, v.owner).Some?
  }

  /** The card a video with an existing owner is listed as. */
  function CardOf(users: seq<User>, v: Video): VideoCard
    requires HasOwner(users, v)
  {
    Card(v, FindUser(users, v.owner).value)
  }

  /** `$lookup` of the owner followed by `$unwind`: a video whose owner is
      not in the user collection produces no document, and every other
      video produces its card, once when the ids are unique. */
  function JoinOwners(videos: seq<Video>, users: seq<User>): (r: seq<VideoCard>)
    ensures |r| == Count(videos, v => HasOwner(users, v))
    ensures forall c :: c in r ==>
              exists v :: v in videos && HasOwner(users, v) && c == CardOf(users, v)
  {
    if |videos| == 0 then []
    else
      var v := videos[0];
      var rest := JoinOwners(videos[1..], users);
      assert forall c :: c in rest ==>
        exists w :: w in videos && HasOwner(users, w) && c == CardOf(users, w) by {
        forall c | c in rest
          ensures exists w :: w in videos && HasOwner(users, w) && c == CardOf(users, w)
        {
          var w :| w in videos[1..] && HasOwner(users, w) && c == CardOf(users, w);
          assert w in videos;
        }
      }
      match FindUser(users, v.owner)
      case None => rest
      case Some(u) => [Card(v, u)] + rest
  }

  /** The tail of a sequence with unique ids has unique ids, none of them
      the head's. */
  lemma TailUniqueIds(s: seq<Video>)
    requires |s| > 0 && UniqueVideoIds(s)
    ensures UniqueVideoIds(s[1..])
    ensures forall x :: x in s[1..] ==> x.id != s[0].id
  {
    forall i, j | 0 <= i < j < |s[1..]| ensures s[1..][i].id != s[1..][j].id {
      assert s[1..][i] == s[i + 1] && s[1..][j] == s[j + 1];
    }
    forall x | x in s[1..] ensures x.id != s[0].id {
      var k :| 0 <= k < |s[1..]| && s[1..][k] == x;
      assert s[k + 1] == x;
    }
  }

  /** The join lists every video that has an owner. */
  lemma {:induction false} JoinListsAll(videos: seq<Video>, users: seq<User>, v: Video)
    requires v in videos && HasOwner(users, v)
    ensures CardOf(users, v) in JoinOwners(videos, users)
  {
    if v != videos[0] {
      assert v in videos[1..] by {
        assert videos == [videos[0]] + videos[1..];
      }
      JoinListsAll(videos[1..], users, v);
    }
  }

  /** With unique ids, the join lists every video that has an owner exactly once. */
  lemma {:induction false} JoinListsOnce(videos: seq<Video>, users: seq<User>, v: Video)
    requires UniqueVideoIds(videos) && v in videos && HasOwner(users, v)
    ensures multiset(JoinOwners(videos, users))[CardOf(users, v)] == 1
  {
    var rest := JoinOwners(videos[1..], users);
    TailUniqueIds(videos);
    if v == videos[0] {
      forall c | c in rest ensures c != CardOf(users, v) {
        var w :| w in videos[1..] && HasOwner(users, w) && c == CardOf(users, w);
        assert c.id == w.id != v.id;
      }
      assert CardOf(users, v) !in rest;
    } else {
      assert v in videos[1..] by {
        assert videos == [videos[0]] + videos[1..];
      }
      JoinListsOnce(videos[1..], users, v);
      assert v.id != videos[0].id;
    }
  }

  /** Filtering keeps the ids unique. */
  lemma {:induction false} FilterUniqueIds(s: seq<Video>, p: Video -> bool)
    requires UniqueVideoIds(s)
    ensures UniqueVideoIds(Filter(s, p))
  {
    if |s| > 0 {
      TailUniqueIds(s);
      FilterUniqueIds(s[1..], p);
      var rest := Filter(s[1..], p);
      var head: seq<Video> := if p(s[0]) then [s[0]] else [];
      assert Filter(s, p) == head + rest;
      forall i, j | 0 <= i < j < |head + rest| ensures (head + rest)[i].id != (head + rest)[j].id {
        if i < |head| {
          assert (head + rest)[j] == rest[j - |head|];
        } else {
          assert (head + rest)[i] == rest[i - |head|] && (head + rest)[j] == rest[j - |head|];
        }
      }
    }
  }

  /** `$skip: skip` then `$limit: limit`. */
  function Page<T>(s: seq<T>, skip: nat, limit: nat): (r: seq<T>)
    ensures |r| <= limit
    ensures forall x :: x in r ==> x in s
    ensures skip >= |s| ==> r == []
    ensures skip + limit <= |s| ==> |r| == limit
  {
    var lo := if skip < |s| then skip else |s|;
    var hi := if skip + limit < |s| then skip + limit else |s|;
    s[lo..hi]
  }

  /** `const skip = (page - 1) * limit`, for a page and limit the database accepts. */
  function Skip(page: int, limit: int): nat
    requires page >= 1 && limit >= 1
  {
    MulNonNegative(page - 1, limit);
    (page - 1) * limit
  }

  lemma MulNonNegative(a: int, b: int)
    requires a >= 0 && b >= 0
    ensures a * b >= 0
  {
  }

  /** The full, sorted, joined result from which pages are cut. */
  function Listing(st: Store, m: MatchStage, textMatch: (string, Video) -> bool, stage: seq<SortKey>): (r: seq<VideoCard>)
    requires ValidStage(stage)
    ensures Sorted(stage, r)
    ensures multiset(r) == multiset(JoinOwners(Matching(st.videos, m, textMatch), st.users))
    ensures |r| <= |Matching(st.videos, m, textMatch)|
    ensures forall c :: c in r ==>
              exists v :: v in st.videos && Matches(m, textMatch, v) && HasOwner(st.users, v)
                          && c == CardOf(st.users, v)
  {
    var matched := Matching(st.videos, m, textMatch);
    var joined := JoinOwners(matched, st.users);
    var r := SortCards(stage, joined);
    assert |r| == |joined| by {
      assert |multiset(r)| == |multiset(joined)|;
    }
    assert forall c :: c in r ==> c in joined by {
      forall c | c in r ensures c in joined {
        assert c in multiset(r);
      }
    }
    r
  }

  /** Every matching video with an existing owner is in the listing, exactly
      once when the store's ids are unique. */
  lemma ListingListsOnce(st: Store, m: MatchStage, textMatch: (string, Video) -> bool, stage: seq<SortKey>, v: Video)
    requires ValidStage(stage)
    requires v in st.videos && Matches(m, textMatch, v) && HasOwner(st.users, v)
    ensures CardOf(st.users, v) in Listing(st, m, textMatch, stage)
    ensures UniqueVideoIds(st.videos) ==> multiset(Listing(st, m, textMatch, stage))[CardOf(st.users, v)] == 1
  {
    var matched := Matching(st.videos, m, textMatch);
    var joined := JoinOwners(matched, st.users);
    JoinListsAll(matched, st.users, v);
    assert CardOf(st.users, v) in multiset(joined);
    if UniqueVideoIds(st.videos) {
      FilterUniqueIds(st.videos, v => Matches(m, textMatch, v));
      JoinListsOnce(matched, st.users, v);
    }
  }

  /** Both pipelines of a listing, once the request has been validated: the
      page pipeline fails when the sort object is empty, the skip negative or
      the limit not positive; otherwise the page and the independent count. */
  function ListVideos(st: Store, m: MatchStage, textMatch: (string, Video) -> bool,
                      page: int, limit: int, stage: seq<SortKey>, message: string): (r: Outcome)
    requires ValidStage(stage)
    ensures r.Failed? <==> stage == [] || limit <= 0 || page < 1
    ensures !r.Failed? ==> r.Reply? && r.httpStatus == 200 && r.body.sucess && r.body.data.VideoPage?
    ensures !r.Failed? ==> r.body.data.totalVideos == |Matching(st.videos, m, textMatch)|
    ensures !r.Failed? ==> r.body.data.page == page && r.body.data.limit == limit
    ensures !r.Failed? ==>
              r.body.data.videos == Page(Listing(st, m, textMatch, stage), Skip(page, limit), limit)
  {
    if stage == [] || limit <= 0 || page < 1 then Failed
    else
      var items := Page(Listing(st, m, textMatch, stage), Skip(page, limit), limit);
      Ok(VideoPage(|Matching(st.videos, m, textMatch)|, page, limit, items), message)
  }

  // ---------------------------------------------------------------------------
  // Handlers
  // ---------------------------------------------------------------------------

  /** The query string of `getAllVideos` / `getUserVideos`; `None` is an
      absent parameter. `page` and `limit` are taken as already numeric. */
  datatype ListQuery = ListQuery(
    page: Option<int>,
    limit: Option<int>,
    query: Option<string>,
    sortBy: Option<QueryValue>,
    sortType: Option<QueryValue>,
    userId: Option<string>,
    tag: Option<string>)

  function PageOf(q: ListQuery): int { if q.page.Some? then q.page.value else 1 }

  function LimitOf(q: ListQuery): int { if q.limit.Some? then q.limit.value else 10 }

  /** The filter of the public feed for a query whose `userId`, if given, is valid. */
  function PublicMatch(q: ListQuery): MatchStage {
    MatchStage(true,
               if Truthy(q.query) then Some(q.query.value) else None,
               if Truthy(q.userId) then Some(Cast(q.userId.value)) else None,
               if Truthy(q.tag) then Some(q.tag.value) else None)
  }

  function PublicStage(q: ListQuery): seq<SortKey> {
    BuildSortStage(if q.sortBy.Some? then q.sortBy.value else Many(["views", "createdAt"]),
                   if q.sortType.Some? then q.sortType.value else Many(["desc", "desc"]))
  }

  /** GET /videos. A malformed `userId` answers HTTP 400 with an envelope
      built from two arguments, so its text lands in `data`. */
  function GetAllVideos(st: Store, q: ListQuery, textMatch: (string, Video) -> bool): (r: Outcome)
    ensures Truthy(q.userId) && !IsValidObjectId(q.userId.value) ==>
              r == Reply(400, ApiResponse(404, Text("Invalid user id"), "Sucess", false))
    ensures !(Truthy(q.userId) && !IsValidObjectId(q.userId.value)) ==>
              r == ListVideos(st, PublicMatch(q), textMatch, PageOf(q), LimitOf(q), PublicStage(q),
                              "Got all Videos successfully")
  {
    if Truthy(q.userId) && !IsValidObjectId(q.userId.value) then
      Reply(400, Make(404, Text("Invalid user id"), None))
    else
      ListVideos(st, PublicMatch(q), textMatch, PageOf(q), LimitOf(q), PublicStage(q), "Got all Videos successfully")
  }

  function UserMatch(actor: ObjectId): MatchStage {
    MatchStage(false, None, Some(actor), None)
  }

  function UserStage(q: ListQuery): seq<SortKey> {
    BuildSortStage(if q.sortBy.Some? then q.sortBy.value else Many(["createdAt"]),
                   if q.sortType.Some? then q.sortType.value else Many(["desc"]))
  }

  /** `getUserVideos` sends no text search. */
  function NoText(s: string, v: Video): bool { false }

  /** GET the requester's videos: owner filter only (unpublished included),
      newest first by default; no id to validate. */
  function GetUserVideos(st: Store, actor: ObjectId, q: ListQuery): (r: Outcome)
    ensures r.Failed? <==> UserStage(q) == [] || LimitOf(q) <= 0 || PageOf(q) < 1
    ensures !r.Failed? ==>
              && r.Reply? && r.httpStatus == 200 && r.body.message == "Got user's videos successfully"
              && r.body.data.VideoPage? && r.body.data.page == PageOf(q) && r.body.data.limit == LimitOf(q)
  {
    ListVideos(st, UserMatch(actor), NoText, PageOf(q), LimitOf(q), UserStage(q), "Got user's videos successfully")
  }

  // ---------------------------------------------------------------------------
  // Properties
  // ---------------------------------------------------------------------------

  /** Every video on a public page is published, owned by an existing user,
      and satisfies each filter the query gives; its card is that video
      joined with that owner. */
  lemma PublicFeedFilter(st: Store, q: ListQuery, textMatch: (string, Video) -> bool, c: VideoCard)
    requires GetAllVideos(st, q, textMatch).Reply?
    requires GetAllVideos(st, q, textMatch).httpStatus == 200
    requires c in GetAllVideos(st, q, textMatch).body.data.videos
    ensures exists v :: && v in st.videos && v.isPublished
                        && (Truthy(q.userId) ==> v.owner == Cast(q.userId.value))
                        && (Truthy(q.tag) ==> q.tag.value in v.tags)
                        && (Truthy(q.query) ==> textMatch(q.query.value, v))
                        && HasOwner(st.users, v)
                        && c == Card(v, FindUser(st.users, v.owner).value)
  {
    var m := PublicMatch(q);
    var stage := PublicStage(q);
    assert c in Listing(st, m, textMatch, stage);
  }

  /** `getUserVideos` lists only the requester's videos, and counts exactly them. */
  lemma UserVideosOwned(st: Store, actor: ObjectId, q: ListQuery)
    requires GetUserVideos(st, actor, q).Reply?
    ensures GetUserVideos(st, actor, q).body.data.VideoPage?
    ensures GetUserVideos(st, actor, q).body.data.totalVideos == Count(st.videos, (v: Video) => v.owner == actor)
    ensures forall c :: c in GetUserVideos(st, actor, q).body.data.videos ==>
              exists v :: v in st.videos && v.owner == actor && HasOwner(st.users, v)
                          && c == Card(v, FindUser(st.users, v.owner).value)
  {
    var stage := UserStage(q);
    var r := GetUserVideos(st, actor, q);
    FilterSame(st.videos, v => Matches(UserMatch(actor), NoText, v), (v: Video) => v.owner == actor);
    assert forall c :: c in r.body.data.videos ==> c in Listing(st, UserMatch(actor), NoText, stage);
  }

  /** Page `k` of the public feed for one query, as the handler answers it:
      the `k`-th slice of the listing. */
  function FeedPage(st: Store, q: ListQuery, textMatch: (string, Video) -> bool, k: nat): (r: seq<VideoCard>)
    requires !Truthy(q.userId) || IsValidObjectId(q.userId.value)
    requires LimitOf(q) >= 1 && PublicStage(q) != [] && k >= 1
    ensures r == Page(Listing(st, PublicMatch(q), textMatch, PublicStage(q)), Skip(k, LimitOf(q)), LimitOf(q))
    ensures Sorted(PublicStage(q), r)
  {
    PageSorted(PublicStage(q), Listing(st, PublicMatch(q), textMatch, PublicStage(q)), Skip(k, LimitOf(q)), LimitOf(q));
    var q' := q.(page := Some(k));
    assert PublicMatch(q') == PublicMatch(q) && PublicStage(q') == PublicStage(q) && LimitOf(q') == LimitOf(q);
    GetAllVideos(st, q', textMatch).body.data.videos
  }

  /** Pages 1..n of the public feed for one query, concatenated. */
  function FeedPages(st: Store, q: ListQuery, textMatch: (string, Video) -> bool, n: nat): seq<VideoCard>
    requires !Truthy(q.userId) || IsValidObjectId(q.userId.value)
    requires LimitOf(q) >= 1 && PublicStage(q) != []
  {
    Concat(k => if k >= 1 then FeedPage(st, q, textMatch, k) else [], n)
  }

  /** Paging through the public feed until the pages reach the reported
      total, the number of matching videos, shows every published video with
      an existing owner that passes the query's filters exactly once, given
      the store's unique ids. */
  lemma PublicFeedListsEachOnce(st: Store, q: ListQuery, textMatch: (string, Video) -> bool, n: nat, v: Video)
    requires !Truthy(q.userId) || IsValidObjectId(q.userId.value)
    requires LimitOf(q) >= 1 && PublicStage(q) != []
    requires n * LimitOf(q) >= |Matching(st.videos, PublicMatch(q), textMatch)|
    requires UniqueVideoIds(st.videos)
    requires v in st.videos && v.isPublished && HasOwner(st.users, v)
    requires Truthy(q.userId) ==> v.owner == Cast(q.userId.value)
    requires Truthy(q.tag) ==> q.tag.value in v.tags
    requires Truthy(q.query) ==> textMatch(q.query.value, v)
    ensures multiset(FeedPages(st, q, textMatch, n))[CardOf(st.users, v)] == 1
  {
    var m := PublicMatch(q);
    var listing := Listing(st, m, textMatch, PublicStage(q));
    assert Matches(m, textMatch, v);
    var f := k => if k >= 1 then FeedPage(st, q, textMatch, k) else [];
    ConcatPages(f, listing, LimitOf(q), n);
    PagesCoverListing(listing, LimitOf(q), n);
    assert FeedPages(st, q, textMatch, n) == listing;
    ListingListsOnce(st, m, textMatch, PublicStage(q), v);
  }

  /** Page `k` of the requester's videos, as the handler answers it: the
      `k`-th slice of the listing. */
  function UserPage(st: Store, actor: ObjectId, q: ListQuery, k: nat): (r: seq<VideoCard>)
    requires LimitOf(q) >= 1 && UserStage(q) != [] && k >= 1
    ensures r == Page(Listing(st, UserMatch(actor), NoText, UserStage(q)), Skip(k, LimitOf(q)), LimitOf(q))
    ensures Sorted(UserStage(q), r)
  {
    PageSorted(UserStage(q), Listing(st, UserMatch(actor), NoText, UserStage(q)), Skip(k, LimitOf(q)), LimitOf(q));
    var q' := q.(page := Some(k));
    assert UserStage(q') == UserStage(q) && LimitOf(q') == LimitOf(q);
    GetUserVideos(st, actor, q').body.data.videos
  }

  /** Pages 1..n of the requester's videos, concatenated. */
  function UserPages(st: Store, actor: ObjectId, q: ListQuery, n: nat): seq<VideoCard>
    requires LimitOf(q) >= 1 && UserStage(q) != []
  {
    Concat(k => if k >= 1 then UserPage(st, actor, q, k) else [], n)
  }

  /** Paging through one's own videos until the pages reach their number,
      the reported total, shows each of them whose owner document exists
      exactly once, published or not. */
  lemma UserVideosListEachOnce(st: Store, actor: ObjectId, q: ListQuery, n: nat, v: Video)
    requires LimitOf(q) >= 1 && UserStage(q) != []
    requires n * LimitOf(q) >= |Matching(st.videos, UserMatch(actor), NoText)|
    requires UniqueVideoIds(st.videos)
    requires v in st.videos && v.owner == actor && HasOwner(st.users, v)
    ensures multiset(UserPages(st, actor, q, n))[CardOf(st.users, v)] == 1
  {
    var listing := Listing(st, UserMatch(actor), NoText, UserStage(q));
    assert Matches(UserMatch(actor), NoText, v);
    var f := k => if k >= 1 then UserPage(st, actor, q, k) else [];
    ConcatPages(f, listing, LimitOf(q), n);
    PagesCoverListing(listing, LimitOf(q), n);
    assert UserPages(st, actor, q, n) == listing;
    ListingListsOnce(st, UserMatch(actor), NoText, UserStage(q), v);
  }

  /** The count pipeline has no owner join: the total is the number of
      listable cards plus the matching videos whose owner is missing, which
      no page ever shows. */
  lemma TotalCountsOwnerless(st: Store, m: MatchStage, textMatch: (string, Video) -> bool, stage: seq<SortKey>)
    requires ValidStage(stage)
    ensures |Matching(st.videos, m, textMatch)|
            == |Listing(st, m, textMatch, stage)|
               + Count(Matching(st.videos, m, textMatch), v => !HasOwner(st.users, v))
  {
    var matched := Matching(st.videos, m, textMatch);
    var joined := JoinOwners(matched, st.users);
    var sorted := SortCards(stage, joined);
    assert |sorted| == |joined| by {
      assert |multiset(sorted)| == |multiset(joined)|;
    }
    CountComplement(matched, v => HasOwner(st.users, v), v => !HasOwner(st.users, v));
  }

  /** The first `n` pages of `limit` items, concatenated. */
  function Pages<T>(s: seq<T>, limit: nat, n: nat): seq<T>
    requires limit >= 1
  {
    if n == 0 then [] else Pages(s, limit, n - 1) + Page(s, Skip(n, limit), limit)
  }

  /** `f(1) + ... + f(n)`: the pages a client fetches one after another. */
  function Concat<T>(f: nat -> seq<T>, n: nat): seq<T> {
    if n == 0 then [] else Concat(f, n - 1) + f(n)
  }

  /** Fetching pages 1..n, each of which is the matching slice, gives the
      first n pages of the listing. */
  lemma {:induction false} ConcatPages<T>(f: nat -> seq<T>, s: seq<T>, limit: nat, n: nat)
    requires limit >= 1
    requires forall k :: 1 <= k <= n ==> f(k) == Page(s, Skip(k, limit), limit)
    ensures Concat(f, n) == Pages(s, limit, n)
  {
    if n > 0 {
      ConcatPages(f, s, limit, n - 1);
    }
  }

  /** Consecutive pages are contiguous slices: pages 1..n are exactly the
      first `n * limit` items, so no item is skipped or repeated. */
  lemma {:induction false} PagesArePrefix<T>(s: seq<T>, limit: nat, n: nat)
    requires limit >= 1
    ensures Pages(s, limit, n) == s[..if n * limit < |s| then n * limit else |s|]
  {
    if n > 0 {
      PagesArePrefix(s, limit, n - 1);
      MulNonNegative(n - 1, limit);
      assert (n - 1) * limit + limit == n * limit;
      var lo := if (n - 1) * limit < |s| then (n - 1) * limit else |s|;
      var hi := if n * limit < |s| then n * limit else |s|;
      assert s[..lo] + s[lo..hi] == s[..hi];
    }
  }

  /** Once the pages reach the end of the listing they hold every item, so
      the page sizes add up to the listing's length; later pages are empty. */
  lemma PagesCoverListing<T>(s: seq<T>, limit: nat, n: nat)
    requires limit >= 1 && n * limit >= |s|
    ensures Pages(s, limit, n) == s
    ensures Page(s, Skip(n + 1, limit), limit) == []
  {
    PagesArePrefix(s, limit, n);
    assert Skip(n + 1, limit) == n * limit;
  }

  /** A page is in the listing's order. */
  lemma PageSorted(stage: seq<SortKey>, s: seq<VideoCard>, skip: nat, limit: nat)
    requires Sorted(stage, s)
    ensures Sorted(stage, Page(s, skip, limit))
  {
  }

  /** A tag no video carries gives a successful, empty listing with total 0. */
  lemma UnknownTagListsNothing(st: Store, q: ListQuery, textMatch: (string, Video) -> bool)
    requires Truthy(q.tag)
    requires forall i :: 0 <= i < |st.videos| ==> q.tag.value !in st.videos[i].tags
    requires !Truthy(q.userId) || IsValidObjectId(q.userId.value)
    requires PageOf(q) >= 1 && LimitOf(q) >= 1 && PublicStage(q) != []
    ensures GetAllVideos(st, q, textMatch).Reply?
    ensures GetAllVideos(st, q, textMatch).httpStatus == 200
    ensures GetAllVideos(st, q, textMatch).body.data.totalVideos == 0
    ensures GetAllVideos(st, q, textMatch).body.data.videos == []
  {
    var m := PublicMatch(q);
    var matched := Matching(st.videos, m, textMatch);
    assert forall i :: 0 <= i < |st.videos| ==> !Matches(m, textMatch, st.videos[i]);
    CountZero(st.videos, v => Matches(m, textMatch, v));
    assert |Listing(st, m, textMatch, PublicStage(q))| == 0;
  }

  /** With no sort parameters the public feed sorts by views, then creation
      time, both descending; the owner's listing by creation time descending. */
  lemma DefaultSortStages(q: ListQuery)
    requires q.sortBy.None? && q.sortType.None?
    ensures PublicStage(q) == [SortKey("views", -1), SortKey("createdAt", -1)]
    ensures UserStage(q) == [SortKey("createdAt", -1)]
  {
    var fields: seq<string> := ["views", "createdAt"];
    assert fields[..1] == ["views"];
    assert ["views"][..0] == [];
    assert ["createdAt"][..0] == [];
    assert StageOf(["views"], ["desc", "desc"]) == [SortKey("views", -1)];
    assert "views" != "createdAt";
    assert SetKey([SortKey("views", -1)], "createdAt", -1) == [SortKey("views", -1), SortKey("createdAt", -1)];
  }
}

=== FILE: ledger.dfy ===
/** The find-then-delete-or-create toggle that the like and subscription
    handlers share: look up the first record matching a key; delete it when
    there is one, append a new record otherwise. */
module Ledger {
  import opened Base

  /** Toggle the record keyed by `p`; `x` is the new record, which matches
      the key. */
  function Toggle<T(!new)>(s: seq<T>, p: T -> bool, x: T): (r: seq<T>)
    requires p(x)
    ensures Count(s, p) == 0 ==> r == s + [x]
    ensures Count(s, p) > 0 ==> |r| + 1 == |s| && multiset(r) <= multiset(s)
    ensures Count(r, p) == if Count(s, p) == 0 then 1 else Count(s, p) - 1
  {
    CountZero(s, p);
    match FirstIndex(s, p)
    case None =>
      CountAppend(s, [x], p);
      CountSingle(x, p);
      s + [x]
    case Some(i) =>
      CountRemoveAt(s, i, p);
      RemoveAt(s, i)
  }

  /** A toggle leaves the count of a filter that no record of the key passes
      unchanged. */
  lemma ToggleDisjoint<T(!new)>(s: seq<T>, p: T -> bool, x: T, q: T -> bool)
    requires p(x) && !q(x)
    requires forall i :: 0 <= i < |s| && p(s[i]) ==> !q(s[i])
    ensures Count(Toggle(s, p, x), q) == Count(s, q)
  {
    CountZero(s, p);
    match FirstIndex(s, p)
    case None =>
      CountAppend(s, [x], q);
      CountSingle(x, q);
    case Some(i) =>
      CountRemoveAt(s, i, q);
  }

  /** A toggle moves the count of a filter that every record of the key passes
      by exactly one: up when it creates, down when it deletes. */
  lemma ToggleCovering<T(!new)>(s: seq<T>, p: T -> bool, x: T, q: T -> bool)
    requires p(x) && q(x)
    requires forall i :: 0 <= i < |s| && p(s[i]) ==> q(s[i])
    ensures Count(Toggle(s, p, x), q) == if Count(s, p) == 0 then Count(s, q) + 1 else Count(s, q) - 1
  {
    CountZero(s, p);
    match FirstIndex(s, p)
    case None =>
      CountAppend(s, [x], q);
      CountSingle(x, q);
    case Some(i) =>
      CountRemoveAt(s, i, q);
  }

  /** Creating and then deleting restores the ledger exactly. */
  lemma ToggleBack<T(!new)>(s: seq<T>, p: T -> bool, x: T, y: T)
    requires p(x) && p(y)
    requires Count(s, p) == 0
    ensures Toggle(Toggle(s, p, x), p, y) == s
  {
    CountZero(s, p);
    var s1 := s + [x];
    assert s1[|s|] == x;
    var k := FirstIndex(s1, p).value;
    assert k == |s|;
    assert s1[..|s|] == s;
  }

  /** Deleting the only record of the key and then creating a new one
      restores the count of every filter that cannot tell the two apart. */
  lemma ToggleReturn<T(!new)>(s: seq<T>, p: T -> bool, x: T, y: T, q: T -> bool)
    requires p(x) && p(y)
    requires Count(s, p) == 1
    requires forall i :: 0 <= i < |s| && p(s[i]) ==> q(s[i]) == q(y)
    ensures Count(Toggle(Toggle(s, p, x), p, y), q) == Count(s, q)
  {
    CountZero(s, p);
    var i := FirstIndex(s, p).value;
    var s1 := RemoveAt(s, i);
    CountRemoveAt(s, i, q);
    assert Toggle(s, p, x) == s1;
    assert Toggle(s1, p, y) == s1 + [y];
    CountAppend(s1, [y], q);
    CountSingle(y, q);
  }

  /** A property every record and the new record have survives a toggle. */
  lemma ToggleKeepsAll<T(!new)>(s: seq<T>, p: T -> bool, x: T, ok: T -> bool)
    requires p(x) && ok(x)
    requires forall i :: 0 <= i < |s| ==> ok(s[i])
    ensures forall i :: 0 <= i < |Toggle(s, p, x)| ==> ok(Toggle(s, p, x)[i])
  {
    var r := Toggle(s, p, x);
    forall i | 0 <= i < |r| ensures ok(r[i]) {
      if Count(s, p) == 0 {
        assert r == s + [x];
      } else {
        assert r[i] in multiset(s);
        var j :| 0 <= j < |s| && s[j] == r[i];
      }
    }
  }

  /** Oddness by alternation, which the toggle lemmas follow step by step. */
  predicate Odd(n: nat)
    decreases n
  {
    n > 0 && !Odd(n - 1)
  }

  lemma {:induction false} OddIsRemainder(n: nat)
    ensures Odd(n) <==> n % 2 == 1
    decreases n
  {
    if n > 0 {
      OddIsRemainder(n - 1);
    }
  }
}

=== FILE: likes.dfy ===
/** The like ledger of src/controllers/like.controller.js: one toggle per
    target kind (video, comment, tweet), the like summary of a video, and the
    list of everything a user liked. */
module Likes {
  import opened Base
  import opened Envelope
  import opened Documents
  import opened Ledger

  /** The key of a toggle: likes by `actor` on `target`. */
  function Key(actor: ObjectId, target: LikeTarget): Like -> bool {
    (l: Like) => l.likedBy == actor && l.target == target
  }

  /** The number of likes `actor` holds on `target`. */
  function PairCount(likes: seq<Like>, actor: ObjectId, target: LikeTarget): nat {
    Count(likes, Key(actor, target))
  }

  predicate HasLiked(likes: seq<Like>, actor: ObjectId, target: LikeTarget) {
    PairCount(likes, actor, target) > 0
  }

  /** The shared body of the three toggles: delete the first like of `actor`
      on `target` if there is one, else create one stamped with the clock. */
  function ToggleLike(st: Store, actor: ObjectId, target: LikeTarget): (r: Step)
    ensures !HasLiked(st.likes, actor, target) ==>
              && r.out == Ok(LikeDoc(Like(actor, target, st.clock)), "liked successfully")
              && r.st == st.(likes := st.likes + [Like(actor, target, st.clock)], clock := st.clock + 1)
    ensures HasLiked(st.likes, actor, target) ==>
              && r.out == Ok(Empty, "unLike successfully")
              && |r.st.likes| + 1 == |st.likes| && multiset(r.st.likes) <= multiset(st.likes)
              && r.st == st.(likes := r.st.likes)
    ensures PairCount(r.st.likes, actor, target) ==
              if HasLiked(st.likes, actor, target) then PairCount(st.likes, actor, target) - 1 else 1
  {
    var x := Like(actor, target, st.clock);
    var likes := Toggle(st.likes, Key(actor, target), x);
    if HasLiked(st.likes, actor, target) then Step(Ok(Empty, "unLike successfully"), st.(likes := likes))
    else Step(Ok(LikeDoc(x), "liked successfully"), st.(likes := likes, clock := st.clock + 1))
  }

  /** `toggleVideoLike`. */
  function ToggleVideoLike(st: Store, actor: ObjectId, rawId: string): (r: Step)
    ensures !IsValidObjectId(rawId) ==> r == Step(Raised(404, "not valid video id"), st)
    ensures IsValidObjectId(rawId) ==> r == ToggleLike(st, actor, OnVideo(Cast(rawId)))
  {
    if !IsValidObjectId(rawId) then Step(Raised(404, "not valid video id"), st)
    else ToggleLike(st, actor, OnVideo(Cast(rawId)))
  }

  /** `toggleCommentLike` (its malformed-id message also says "video"). */
  function ToggleCommentLike(st: Store, actor: ObjectId, rawId: string): (r: Step)
    ensures !IsValidObjectId(rawId) ==> r == Step(Raised(404, "not valid video id"), st)
    ensures IsValidObjectId(rawId) ==> r == ToggleLike(st, actor, OnComment(Cast(rawId)))
  {
    if !IsValidObjectId(rawId) then Step(Raised(404, "not valid video id"), st)
    else ToggleLike(st, actor, OnComment(Cast(rawId)))
  }

  /** `toggleTweetLike` (its malformed-id message also says "video"). */
  function ToggleTweetLike(st: Store, actor: ObjectId, rawId: string): (r: Step)
    ensures !IsValidObjectId(rawId) ==> r == Step(Raised(404, "not valid video id"), st)
    ensures IsValidObjectId(rawId) ==> r == ToggleLike(st, actor, OnTweet(Cast(rawId)))
  {
    if !IsValidObjectId(rawId) then Step(Raised(404, "not valid video id"), st)
    else ToggleLike(st, actor, OnTweet(Cast(rawId)))
  }

  /** `getVideosLikes`: how many likes the video has and whether the caller
      gave one. */
  function GetVideosLikes(st: Store, actor: ObjectId, rawId: string): (r: Outcome)
    ensures !IsValidObjectId(rawId) ==> r == Raised(404, "not valid video id")
    ensures IsValidObjectId(rawId) ==>
              && r.Reply? && r.httpStatus == 200 && r.body.sucess && r.body.message == "success"
              && r.body.data.LikeSummary?
              && r.body.data.likeCount == |Filter(st.likes, (l: Like) => l.target == OnVideo(Cast(rawId)))|
              && (r.body.data.likedByUser <==>
                    exists i :: 0 <= i < |st.likes| && st.likes[i].likedBy == actor
                                && st.likes[i].target == OnVideo(Cast(rawId)))
  {
    if !IsValidObjectId(rawId) then Raised(404, "not valid video id")
    else
      var target := OnVideo(Cast(rawId));
      CountZero(st.likes, Key(actor, target));
      Ok(LikeSummary(LikeCount(st.likes, target), HasLiked(st.likes, actor, target)), "success")
  }

  /** The video a like points at, populated (`None` for a missing video and
      for likes on comments and tweets). */
  function LikedVideo(videos: seq<Video>, l: Like): Option<Video> {
    if l.target.OnVideo? then FindVideo(videos, l.target.video) else None
  }

  /** `getLikedVideos`: every like by the caller, of any target kind, in
      ledger order, with its video populated. */
  function GetLikedVideos(st: Store, actor: ObjectId): (r: Outcome)
    ensures r.Reply? && r.httpStatus == 200 && r.body.message == "got all liked videos successfully"
    ensures r.body.data.LikedList?
    ensures |r.body.data.liked| == Count(st.likes, (l: Like) => l.likedBy == actor)
    ensures forall i :: 0 <= i < |r.body.data.liked| ==>
              && r.body.data.liked[i].like in st.likes
              && r.body.data.liked[i].like.likedBy == actor
              && r.body.data.liked[i].video == LikedVideo(st.videos, r.body.data.liked[i].like)
    ensures forall l :: l in st.likes && l.likedBy == actor ==>
              exists i :: 0 <= i < |r.body.data.liked| && r.body.data.liked[i].like == l
  {
    var mine := Filter(st.likes, (l: Like) => l.likedBy == actor);
    var items := LikedItems(st.videos, mine);
    MineListed(st.likes, actor, items);
    Ok(LikedList(items), "got all liked videos successfully")
  }

  /** Each like with its video populated, in order. */
  function LikedItems(videos: seq<Video>, likes: seq<Like>): (r: seq<LikedItem>)
    ensures |r| == |likes|
    ensures forall i :: 0 <= i < |r| ==> r[i].like == likes[i] && r[i].video == LikedVideo(videos, likes[i])
  {
    if |likes| == 0 then [] else [LikedItem(likes[0], LikedVideo(videos, likes[0]))] + LikedItems(videos, likes[1..])
  }

  lemma MineListed(likes: seq<Like>, actor: ObjectId, items: seq<LikedItem>)
    requires var mine := Filter(likes, (l: Like) => l.likedBy == actor);
             |items| == |mine| && forall i :: 0 <= i < |items| ==> items[i].like == mine[i]
    ensures forall i :: 0 <= i < |items| ==> items[i].like in likes && items[i].like.likedBy == actor
    ensures forall l :: l in likes && l.likedBy == actor ==> exists i :: 0 <= i < |items| && items[i].like == l
  {
    var mine := Filter(likes, (l: Like) => l.likedBy == actor);
    assert forall i :: 0 <= i < |mine| ==> mine[i] in mine;
    forall l | l in likes && l.likedBy == actor ensures exists i :: 0 <= i < |items| && items[i].like == l {
      assert l in mine;
      var i :| 0 <= i < |mine| && mine[i] == l;
      assert items[i].like == l;
    }
  }

  // ---------------------------------------------------------------------------
  // Properties of the toggles
  // ---------------------------------------------------------------------------

  /** A toggle moves the like count of its own target by one. */
  lemma ToggleMovesItsCount(st: Store, actor: ObjectId, target: LikeTarget)
    ensures LikeCount(ToggleLike(st, actor, target).st.likes, target) ==
              if HasLiked(st.likes, actor, target) then LikeCount(st.likes, target) - 1 else LikeCount(st.likes, target) + 1
  {
    var x := Like(actor, target, st.clock);
    assert ToggleLike(st, actor, target).st.likes == Toggle(st.likes, Key(actor, target), x);
    ToggleCovering(st.likes, Key(actor, target), x, (l: Like) => l.target == target);
  }

  /** A toggle leaves the like count of every other target, and the likes of
      every other user, unchanged. */
  lemma ToggleTouchesOnlyItsKey(st: Store, actor: ObjectId, target: LikeTarget, other: LikeTarget, user: ObjectId)
    ensures other != target ==> LikeCount(ToggleLike(st, actor, target).st.likes, other) == LikeCount(st.likes, other)
    ensures user != actor ==> PairCount(ToggleLike(st, actor, target).st.likes, user, other) == PairCount(st.likes, user, other)
  {
    var p := Key(actor, target);
    var x := Like(actor, target, st.clock);
    assert ToggleLike(st, actor, target).st.likes == Toggle(st.likes, p, x);
    if other != target {
      ToggleDisjoint(st.likes, p, x, (l: Like) => l.target == other);
    }
    if user != actor {
      ToggleDisjoint(st.likes, p, x, Key(user, other));
    }
  }

  /** Liking and then unliking restores the ledger exactly. */
  lemma LikeThenUnlike(st: Store, actor: ObjectId, target: LikeTarget)
    requires !HasLiked(st.likes, actor, target)
    ensures ToggleLike(ToggleLike(st, actor, target).st, actor, target).st.likes == st.likes
  {
    var st1 := ToggleLike(st, actor, target).st;
    ToggleBack(st.likes, Key(actor, target), Like(actor, target, st.clock), Like(actor, target, st1.clock));
  }

  /** Unliking the only like and liking again restores every count of the
      ledger: only the new like's timestamp differs. */
  lemma UnlikeThenLike(st: Store, actor: ObjectId, target: LikeTarget, user: ObjectId, other: LikeTarget)
    requires PairCount(st.likes, actor, target) == 1
    ensures PairCount(ToggleLike(ToggleLike(st, actor, target).st, actor, target).st.likes, user, other)
            == PairCount(st.likes, user, other)
    ensures LikeCount(ToggleLike(ToggleLike(st, actor, target).st, actor, target).st.likes, other)
            == LikeCount(st.likes, other)
  {
    var p := Key(actor, target);
    var st1 := ToggleLike(st, actor, target).st;
    var x := Like(actor, target, st.clock);
    var y := Like(actor, target, st1.clock);
    assert st1.likes == Toggle(st.likes, p, x);
    ToggleReturn(st.likes, p, x, y, Key(user, other));
    ToggleReturn(st.likes, p, x, y, (l: Like) => l.target == other);
  }

  /** `n` toggles in a row by the same user on the same target. */
  function ToggleLikeTimes(st: Store, actor: ObjectId, target: LikeTarget, n: nat): Store
    decreases n
  {
    if n == 0 then st else ToggleLike(ToggleLikeTimes(st, actor, target, n - 1), actor, target).st
  }

  /** With at most one like per (user, target), toggling alternates the like
      between present and absent. */
  lemma {:induction false} LikeAlternates(st: Store, actor: ObjectId, target: LikeTarget, n: nat)
    requires PairCount(st.likes, actor, target) <= 1
    ensures PairCount(ToggleLikeTimes(st, actor, target, n).likes, actor, target) <= 1
    ensures HasLiked(ToggleLikeTimes(st, actor, target, n).likes, actor, target)
            <==> (HasLiked(st.likes, actor, target) != Odd(n))
    decreases n
  {
    if n > 0 {
      LikeAlternates(st, actor, target, n - 1);
      var before := ToggleLikeTimes(st, actor, target, n - 1);
      assert ToggleLikeTimes(st, actor, target, n) == ToggleLike(before, actor, target).st;
    }
  }

  /** With at most one like per (user, target), the like exists after `n`
      toggles exactly when it existed before or `n` is odd, but not both. */
  lemma LikeParity(st: Store, actor: ObjectId, target: LikeTarget, n: nat)
    requires PairCount(st.likes, actor, target) <= 1
    ensures PairCount(ToggleLikeTimes(st, actor, target, n).likes, actor, target) <= 1
    ensures HasLiked(ToggleLikeTimes(st, actor, target, n).likes, actor, target)
            <==> (HasLiked(st.likes, actor, target) != (n % 2 == 1))
  {
    LikeAlternates(st, actor, target, n);
    OddIsRemainder(n);
  }

  /** A video-like toggle flips the caller's `likedByUser` and moves
      `likeCount` by one in the video's like summary. */
  lemma ToggleFlipsSummary(st: Store, actor: ObjectId, rawId: string)
    requires IsValidObjectId(rawId)
    requires PairCount(st.likes, actor, OnVideo(Cast(rawId))) <= 1
    ensures var before := GetVideosLikes(st, actor, rawId).body.data;
            var after := GetVideosLikes(ToggleVideoLike(st, actor, rawId).st, actor, rawId).body.data;
            && (after.likedByUser <==> !before.likedByUser)
            && after.likeCount == if before.likedByUser then before.likeCount - 1 else before.likeCount + 1
  {
    var target := OnVideo(Cast(rawId));
    var st1 := ToggleVideoLike(st, actor, rawId).st;
    ToggleMovesItsCount(st, actor, target);
    CountZero(st.likes, Key(actor, target));
    CountZero(st1.likes, Key(actor, target));
  }
}

=== FILE: playlists.dfy ===
/** The playlist handlers of src/controllers/playlist.controller.js:
    creating, listing, reading, editing and deleting playlists, and adding
    and removing member videos. */
module Playlists {
  import opened Base
  import opened Envelope
  import opened Documents

  /** The store-wide playlist invariant: no playlist lists a video twice. */
  ghost predicate DistinctMembers(ps: seq<Playlist>) {
    forall i :: 0 <= i < |ps| ==> Distinct(ps[i].videos)
  }

  /** The position of the first playlist whose `_id` is `id`. */
  function PlaylistAt(ps: seq<Playlist>, id: ObjectId): (r: Option<nat>)
    ensures r.Some? ==> r.value < |ps| && ps[r.value].id == id
    ensures r.None? ==> forall i :: 0 <= i < |ps| ==> ps[i].id != id
  {
    FirstIndex(ps, (p: Playlist) => p.id == id)
  }

  // ---------------------------------------------------------------------------
  // createPlaylist
  // ---------------------------------------------------------------------------

  /** `createPlaylist` with the id the database assigns as a parameter: a
      missing, empty or whitespace-only title or description is refused;
      otherwise the caller gets a new playlist with no videos. */
  function CreatePlaylist(st: Store, actor: ObjectId, title: Option<string>, description: Option<string>,
                          newId: ObjectId): (r: Step)
    ensures (title.None? || description.None? || IsBlank(title.value) || IsBlank(description.value)) ==>
              r == Step(Raised(400, "all fields are required"), st)
    ensures title.Some? && description.Some? && !IsBlank(title.value) && !IsBlank(description.value) ==>
              var p := Playlist(newId, actor, title.value, description.value, [], st.clock);
              && r.out == Ok(PlaylistDoc(p), "playlist created successfully")
              && r.st == st.(playlists := st.playlists + [p], clock := st.clock + 1)
  {
    if !Truthy(title) || !Truthy(description) || IsBlank(title.value) || IsBlank(description.value) then
      Step(Raised(400, "all fields are required"), st)
    else
      var p := Playlist(newId, actor, title.value, description.value, [], st.clock);
      Step(Ok(PlaylistDoc(p), "playlist created successfully"), st.(playlists := st.playlists + [p], clock := st.clock + 1))
  }

  // ---------------------------------------------------------------------------
  // getUserPlaylists and getPlaylistById
  // ---------------------------------------------------------------------------

  /** The thumbnail of a playlist's first video, when it has one that exists. */
  function FirstThumbnail(videos: seq<Video>, p: Playlist): (r: Option<string>)
    ensures r.Some? <==> |p.videos| > 0 && FindVideo(videos, p.videos[0]).Some?
    ensures r.Some? ==> exists v :: v in videos && v.id == p.videos[0] && r.value == v.thumbnail
  {
    if |p.videos| == 0 then None
    else match FindVideo(videos, p.videos[0])
      case None => None
      case Some(v) => Some(v.thumbnail)
  }

  function SummaryOf(videos: seq<Video>, p: Playlist): PlaylistSummary {
    PlaylistSummary(p.id, p.playlistName, p.description, |p.videos|, FirstThumbnail(videos, p), p.createdAt)
  }

  /** `getUserPlaylists`: one summary per playlist of the user, in natural
      order, giving the number of members and the first member's thumbnail. */
  function GetUserPlaylists(st: Store, rawId: string): (r: Outcome)
    ensures !IsValidObjectId(rawId) ==> r == Raised(404, "user id not valid")
    ensures IsValidObjectId(rawId) ==>
              && r.Reply? && r.httpStatus == 200 && r.body.message == "playlist fetch successfully"
              && r.body.data.PlaylistList?
              && |r.body.data.summaries| == Count(st.playlists, (p: Playlist) => p.owner == Cast(rawId))
              && forall s :: s in r.body.data.summaries ==>
                   exists p :: && p in st.playlists && p.owner == Cast(rawId) && s.id == p.id
                               && s.playlistName == p.playlistName && s.videos == |p.videos|
                               && (s.thumbnail.Some? <==> |p.videos| > 0 && FindVideo(st.videos, p.videos[0]).Some?)
  {
    if !IsValidObjectId(rawId) then Raised(404, "user id not valid")
    else
      var owned := Filter(st.playlists, (p: Playlist) => p.owner == Cast(rawId));
      var sums := Summaries(st.videos, owned);
      SummariesOwned(st.videos, st.playlists, Cast(rawId), sums);
      Ok(PlaylistList(sums), "playlist fetch successfully")
  }

  /** One summary per playlist, in order. */
  function Summaries(videos: seq<Video>, ps: seq<Playlist>): (r: seq<PlaylistSummary>)
    ensures |r| == |ps|
    ensures forall i :: 0 <= i < |r| ==> r[i] == SummaryOf(videos, ps[i])
  {
    if |ps| == 0 then [] else [SummaryOf(videos, ps[0])] + Summaries(videos, ps[1..])
  }

  lemma SummariesOwned(videos: seq<Video>, ps: seq<Playlist>, owner: ObjectId, sums: seq<PlaylistSummary>)
    requires var owned := Filter(ps, (p: Playlist) => p.owner == owner);
             |sums| == |owned| && forall i :: 0 <= i < |sums| ==> sums[i] == SummaryOf(videos, owned[i])
    ensures forall s :: s in sums ==> exists p :: p in ps && p.owner == owner && s == SummaryOf(videos, p)
  {
    var owned := Filter(ps, (p: Playlist) => p.owner == owner);
    forall s | s in sums ensures exists p :: p in ps && p.owner == owner && s == SummaryOf(videos, p) {
      var i :| 0 <= i < |sums| && sums[i] == s;
      assert owned[i] in owned;
    }
  }

  /** `getPlaylistById`: the playlist with its member videos joined (in the
      order of the video collection, each existing video once) and its owner's
      `_id`, names and avatar (absent when the user is gone); `data` is empty
      when there is no such playlist. */
  function GetPlaylistById(st: Store, rawId: string): (r: Outcome)
    ensures !IsValidObjectId(rawId) ==> r == Raised(404, "playlist id not valid")
    ensures IsValidObjectId(rawId) && PlaylistAt(st.playlists, Cast(rawId)).None? ==>
              r == Ok(Null, "playlist fetch successfully")
    ensures IsValidObjectId(rawId) && PlaylistAt(st.playlists, Cast(rawId)).Some? ==>
              var p := st.playlists[PlaylistAt(st.playlists, Cast(rawId)).value];
              && r.Reply? && r.body.message == "playlist fetch successfully"
              && r.body.data.PlaylistDetailDoc?
              && r.body.data.playlistDetail.id == p.id
              && r.body.data.playlistDetail.playlistName == p.playlistName
              && r.body.data.playlistDetail.description == p.description
              && r.body.data.playlistDetail.createdAt == p.createdAt
              && (forall v :: v in r.body.data.playlistDetail.videos <==> v in st.videos && v.id in p.videos)
              && (forall v :: multiset(r.body.data.playlistDetail.videos)[v]
                                == if v.id in p.videos then multiset(st.videos)[v] else 0)
              && |r.body.data.playlistDetail.videos| <= |st.videos|
              && (r.body.data.playlistDetail.owner.Some? <==> FindUser(st.users, p.owner).Some?)
              && (r.body.data.playlistDetail.owner.Some? ==> r.body.data.playlistDetail.owner.value.id == p.owner)
              && (FindUser(st.users, p.owner).Some? ==>
                    r.body.data.playlistDetail.owner == Some(FindUser(st.users, p.owner).value))
  {
    if !IsValidObjectId(rawId) then Raised(404, "playlist id not valid")
    else match PlaylistAt(st.playlists, Cast(rawId))
      case None => Ok(Null, "playlist fetch successfully")
      case Some(i) =>
        var p := st.playlists[i];
        var members := Filter(st.videos, (v: Video) => v.id in p.videos);
        assert forall v :: multiset(members)[v] == if v.id in p.videos then multiset(st.videos)[v] else 0 by {
          forall v ensures multiset(members)[v] == if v.id in p.videos then multiset(st.videos)[v] else 0 {
            FilterMultiset(st.videos, (v: Video) => v.id in p.videos, v);
          }
        }
        Ok(PlaylistDetailDoc(PlaylistDetail(p.id, p.playlistName, p.description, members,
                                            FindUser(st.users, p.owner), p.createdAt)),
           "playlist fetch successfully")
  }

  // ---------------------------------------------------------------------------
  // addVideoToPlaylist and removeVideoFromPlaylist
  // ---------------------------------------------------------------------------

  /** The filter `{ _id: pid, videos: { $ne: vid } }`: the first playlist
      with that id that does not list the video. */
  function AddSlot(ps: seq<Playlist>, pid: ObjectId, vid: ObjectId): (r: Option<nat>)
    ensures r.Some? ==> r.value < |ps| && ps[r.value].id == pid && vid !in ps[r.value].videos
    ensures r.None? <==> forall i :: 0 <= i < |ps| ==> !(ps[i].id == pid && vid !in ps[i].videos)
  {
    FirstIndex(ps, (p: Playlist) => p.id == pid && vid !in p.videos)
  }

  /** `addVideoToPlaylist`: push the video onto the first playlist with the
      given id that does not list it yet; refuse with 400 when there is none
      (the playlist is missing or already lists the video). */
  function AddVideoToPlaylist(st: Store, rawPlaylist: string, rawVideo: string): (r: Step)
    ensures !IsValidObjectId(rawPlaylist) || !IsValidObjectId(rawVideo) ==> r == Step(Raised(404, "id not valid"), st)
    ensures IsValidObjectId(rawPlaylist) && IsValidObjectId(rawVideo) ==>
              && (r.out.Raised? <==> AddSlot(st.playlists, Cast(rawPlaylist), Cast(rawVideo)).None?)
              && (r.out.Raised? ==>
                    r == Step(Raised(400, "Video already exists in playlist or playlist not found"), st))
              && (!r.out.Raised? ==>
                    var i := AddSlot(st.playlists, Cast(rawPlaylist), Cast(rawVideo)).value;
                    var np := st.playlists[i].(videos := st.playlists[i].videos + [Cast(rawVideo)]);
                    && r.st == st.(playlists := st.playlists[i := np])
                    && r.out == Ok(PlaylistDoc(np), "video added successfully"))
  {
    if !IsValidObjectId(rawPlaylist) || !IsValidObjectId(rawVideo) then Step(Raised(404, "id not valid"), st)
    else
      var pid := Cast(rawPlaylist);
      var vid := Cast(rawVideo);
      match AddSlot(st.playlists, pid, vid)
      case None => Step(Raised(400, "Video already exists in playlist or playlist not found"), st)
      case Some(i) =>
        var np := st.playlists[i].(videos := st.playlists[i].videos + [vid]);
        Step(Ok(PlaylistDoc(np), "video added successfully"), st.(playlists := st.playlists[i := np]))
  }

  /** `$pull`: every occurrence of `v` goes, the rest keep their order. */
  function Pull(videos: seq<ObjectId>, v: ObjectId): (r: seq<ObjectId>)
    ensures v !in r
    ensures forall w :: w != v ==> (w in r <==> w in videos)
  {
    Filter(videos, (w: ObjectId) => w != v)
  }

  /** `removeVideoFromPlaylist`: pull the video from the first playlist with
      the given id; 404 when there is none; a video that is not a member
      leaves the playlist as it was. */
  function RemoveVideoFromPlaylist(st: Store, rawPlaylist: string, rawVideo: string): (r: Step)
    ensures !IsValidObjectId(rawPlaylist) || !IsValidObjectId(rawVideo) ==> r == Step(Raised(404, "id not valid"), st)
    ensures IsValidObjectId(rawPlaylist) && IsValidObjectId(rawVideo) && PlaylistAt(st.playlists, Cast(rawPlaylist)).None? ==>
              r == Step(Raised(404, "Playlist not found"), st)
    ensures IsValidObjectId(rawPlaylist) && IsValidObjectId(rawVideo) && PlaylistAt(st.playlists, Cast(rawPlaylist)).Some? ==>
              var i := PlaylistAt(st.playlists, Cast(rawPlaylist)).value;
              var np := st.playlists[i].(videos := Pull(st.playlists[i].videos, Cast(rawVideo)));
              && r.st == st.(playlists := st.playlists[i := np])
              && r.out == Ok(PlaylistDoc(np), "video removed successfully")
  {
    if !IsValidObjectId(rawPlaylist) || !IsValidObjectId(rawVideo) then Step(Raised(404, "id not valid"), st)
    else match PlaylistAt(st.playlists, Cast(rawPlaylist))
      case None => Step(Raised(404, "Playlist not found"), st)
      case Some(i) =>
        var np := st.playlists[i].(videos := Pull(st.playlists[i].videos, Cast(rawVideo)));
        Step(Ok(PlaylistDoc(np), "video removed successfully"), st.(playlists := st.playlists[i := np]))
  }

  // ---------------------------------------------------------------------------
  // deletePlaylist and updatePlaylist
  // ---------------------------------------------------------------------------

  /** `deletePlaylist`: delete the first playlist with the given id, if any;
      the answer is the same either way. */
  function DeletePlaylist(st: Store, rawId: string): (r: Step)
    ensures !IsValidObjectId(rawId) ==> r == Step(Raised(404, "user id not valid"), st)
    ensures IsValidObjectId(rawId) ==> r.out == Ok(Empty, "playlist deleted successfully")
    ensures IsValidObjectId(rawId) && PlaylistAt(st.playlists, Cast(rawId)).None? ==> r.st == st
    ensures IsValidObjectId(rawId) && PlaylistAt(st.playlists, Cast(rawId)).Some? ==>
              && |r.st.playlists| + 1 == |st.playlists|
              && multiset(r.st.playlists) + multiset{st.playlists[PlaylistAt(st.playlists, Cast(rawId)).value]}
                 == multiset(st.playlists)
              && r.st == st.(playlists := r.st.playlists)
  {
    if !IsValidObjectId(rawId) then Step(Raised(404, "user id not valid"), st)
    else match PlaylistAt(st.playlists, Cast(rawId))
      case None => Step(Ok(Empty, "playlist deleted successfully"), st)
      case Some(i) => Step(Ok(Empty, "playlist deleted successfully"), st.(playlists := RemoveAt(st.playlists, i)))
  }

  /** `updatePlaylist`: a missing, empty or blank name, or a blank
      description, is refused; a missing description leaves the stored one
      (the update drops undefined fields). `data` is empty when there is no
      such playlist. */
  function UpdatePlaylist(st: Store, rawId: string, name: Option<string>, description: Option<string>): (r: Step)
    ensures !IsValidObjectId(rawId) ==> r == Step(Raised(404, "user id not valid"), st)
    ensures IsValidObjectId(rawId) && (name.None? || IsBlank(name.value) || (description.Some? && IsBlank(description.value))) ==>
              r == Step(Raised(400, "all fields are required"), st)
    ensures r.out.Reply? ==> r.out.body.message == "playlist updated successfully"
    ensures IsValidObjectId(rawId) && name.Some? && !IsBlank(name.value) && (description.None? || !IsBlank(description.value)) ==>
              && (PlaylistAt(st.playlists, Cast(rawId)).None? ==> r == Step(Ok(Null, "playlist updated successfully"), st))
              && (PlaylistAt(st.playlists, Cast(rawId)).Some? ==>
                    var i := PlaylistAt(st.playlists, Cast(rawId)).value;
                    && |r.st.playlists| == |st.playlists|
                    && r.st.playlists[i].playlistName == name.value
                    && r.st.playlists[i].description == (if description.Some? then description.value else st.playlists[i].description)
                    && r.st.playlists[i].videos == st.playlists[i].videos
                    && r.st.playlists[i].owner == st.playlists[i].owner
                    && r.st.playlists[i].id == st.playlists[i].id
                    && r.st.playlists[i].createdAt == st.playlists[i].createdAt
                    && (forall j :: 0 <= j < |st.playlists| && j != i ==> r.st.playlists[j] == st.playlists[j])
                    && r.st == st.(playlists := r.st.playlists)
                    && r.out == Ok(PlaylistDoc(r.st.playlists[i]), "playlist updated successfully"))
  {
    if !IsValidObjectId(rawId) then Step(Raised(404, "user id not valid"), st)
    else if !Truthy(name) || IsBlank(name.value) || (description.Some? && IsBlank(description.value)) then
      Step(Raised(400, "all fields are required"), st)
    else match PlaylistAt(st.playlists, Cast(rawId))
      case None => Step(Ok(Null, "playlist updated successfully"), st)
      case Some(i) =>
        var p := st.playlists[i];
        var np := p.(playlistName := name.value, description := if description.Some? then description.value else p.description);
        Step(Ok(PlaylistDoc(np), "playlist updated successfully"), st.(playlists := st.playlists[i := np]))
  }

  // ---------------------------------------------------------------------------
  // Properties
  // ---------------------------------------------------------------------------

  /** Filtering keeps distinctness. */
  lemma {:induction false} FilterDistinct<T(!new)>(s: seq<T>, p: T -> bool)
    requires Distinct(s)
    ensures Distinct(Filter(s, p))
  {
    if |s| > 0 {
      FilterDistinct(s[1..], p);
      var rest := Filter(s[1..], p);
      assert s[0] !in s[1..];
      assert s[0] !in rest;
      var head := if p(s[0]) then [s[0]] else [];
      assert Filter(s, p) == head + rest;
    }
  }

  /** A filter every element passes keeps the whole sequence. */
  lemma {:induction false} FilterAll<T(!new)>(s: seq<T>, p: T -> bool)
    requires forall i :: 0 <= i < |s| ==> p(s[i])
    ensures Filter(s, p) == s
  {
    if |s| > 0 {
      assert forall i :: 1 <= i < |s| ==> s[1..][i - 1] == s[i];
      FilterAll(s[1..], p);
    }
  }

  /** Adding keeps every playlist free of repeated members. */
  lemma AddKeepsDistinct(st: Store, rawPlaylist: string, rawVideo: string)
    requires DistinctMembers(st.playlists)
    ensures DistinctMembers(AddVideoToPlaylist(st, rawPlaylist, rawVideo).st.playlists)
  {
  }

  /** Removing keeps every playlist free of repeated members. */
  lemma RemoveKeepsDistinct(st: Store, rawPlaylist: string, rawVideo: string)
    requires DistinctMembers(st.playlists)
    ensures DistinctMembers(RemoveVideoFromPlaylist(st, rawPlaylist, rawVideo).st.playlists)
  {
    if IsValidObjectId(rawPlaylist) && IsValidObjectId(rawVideo) && PlaylistAt(st.playlists, Cast(rawPlaylist)).Some? {
      var i := PlaylistAt(st.playlists, Cast(rawPlaylist)).value;
      FilterDistinct(st.playlists[i].videos, (w: ObjectId) => w != Cast(rawVideo));
    }
  }

  /** Creating keeps every playlist free of repeated members. */
  lemma CreateKeepsDistinct(st: Store, actor: ObjectId, name: Option<string>,
                            description: Option<string>, newId: ObjectId)
    requires DistinctMembers(st.playlists)
    ensures DistinctMembers(CreatePlaylist(st, actor, name, description, newId).st.playlists)
  {
  }

  /** Renaming keeps every playlist free of repeated members. */
  lemma UpdateKeepsDistinct(st: Store, rawId: string, name: Option<string>, description: Option<string>)
    requires DistinctMembers(st.playlists)
    ensures DistinctMembers(UpdatePlaylist(st, rawId, name, description).st.playlists)
  {
    var u := UpdatePlaylist(st, rawId, name, description).st.playlists;
    assert |u| == |st.playlists| && forall k :: 0 <= k < |u| ==> u[k].videos == st.playlists[k].videos;
  }

  /** Deleting keeps every remaining playlist free of repeated members. */
  lemma DeleteKeepsDistinct(st: Store, rawId: string)
    requires DistinctMembers(st.playlists)
    ensures DistinctMembers(DeletePlaylist(st, rawId).st.playlists)
  {
    if IsValidObjectId(rawId) && PlaylistAt(st.playlists, Cast(rawId)).Some? {
      var d := RemoveAt(st.playlists, PlaylistAt(st.playlists, Cast(rawId)).value);
      assert DeletePlaylist(st, rawId).st.playlists == d;
      forall k | 0 <= k < |d| ensures Distinct(d[k].videos) {
        assert d[k] in multiset(st.playlists);
        var j :| 0 <= j < |st.playlists| && st.playlists[j] == d[k];
      }
    }
  }

  /** Removing a video that is not a member leaves the store as it was. */
  lemma RemoveNonMember(st: Store, rawPlaylist: string, rawVideo: string)
    requires IsValidObjectId(rawPlaylist) && IsValidObjectId(rawVideo)
    requires PlaylistAt(st.playlists, Cast(rawPlaylist)).Some?
    requires Cast(rawVideo) !in st.playlists[PlaylistAt(st.playlists, Cast(rawPlaylist)).value].videos
    ensures RemoveVideoFromPlaylist(st, rawPlaylist, rawVideo).st == st
  {
    var i := PlaylistAt(st.playlists, Cast(rawPlaylist)).value;
    var vs := st.playlists[i].videos;
    assert forall k :: 0 <= k < |vs| ==> vs[k] in vs;
    FilterAll(vs, (w: ObjectId) => w != Cast(rawVideo));
    assert st.playlists[i := st.playlists[i]] == st.playlists;
  }

  /** Pulling a video just appended to a list that lacked it gives the list
      back. */
  lemma PullAppended(vs: seq<ObjectId>, vid: ObjectId)
    requires vid !in vs
    ensures Pull(vs + [vid], vid) == vs
  {
    assert forall m :: 0 <= m < |vs| ==> vs[m] in vs;
    FilterAll(vs, (w: ObjectId) => w != vid);
    FilterAppend(vs, [vid], (w: ObjectId) => w != vid);
    FilterSingle(vid, (w: ObjectId) => w != vid);
  }

  /** With playlist ids unique, the playlist `add` changed is the one
      `remove` finds. */
  lemma AddedIsFound(ps: seq<Playlist>, i: nat, np: Playlist, pid: ObjectId)
    requires i < |ps| && ps[i].id == pid && np.id == pid
    requires forall a, b :: 0 <= a < b < |ps| ==> ps[a].id != ps[b].id
    ensures PlaylistAt(ps[i := np], pid) == Some(i)
  {
    var qs := ps[i := np];
    assert qs[i].id == pid;
  }

  /** Adding a video that a playlist lacks and then removing it restores
      the store. */
  lemma AddThenRemove(st: Store, rawPlaylist: string, rawVideo: string)
    requires IsValidObjectId(rawPlaylist) && IsValidObjectId(rawVideo)
    requires AddSlot(st.playlists, Cast(rawPlaylist), Cast(rawVideo)).Some?
    requires forall i, j :: 0 <= i < j < |st.playlists| ==> st.playlists[i].id != st.playlists[j].id
    ensures RemoveVideoFromPlaylist(AddVideoToPlaylist(st, rawPlaylist, rawVideo).st, rawPlaylist, rawVideo).st == st
  {
    var pid := Cast(rawPlaylist);
    var vid := Cast(rawVideo);
    var i := AddSlot(st.playlists, pid, vid).value;
    var p := st.playlists[i];
    var np := p.(videos := p.videos + [vid]);
    var st1 := st.(playlists := st.playlists[i := np]);
    assert AddVideoToPlaylist(st, rawPlaylist, rawVideo).st == st1;
    AddedIsFound(st.playlists, i, np, pid);
    PullAppended(p.videos, vid);
    assert np.(videos := Pull(np.videos, vid)) == p;
    assert RemoveVideoFromPlaylist(st1, rawPlaylist, rawVideo).st == st1.(playlists := st1.playlists[i := p]);
    assert st.playlists[i := np][i := p] == st.playlists;
  }

  /** A user's playlist listing reports the member count of each playlist and
      the first member's thumbnail, or none when the first member is gone or
      the playlist is empty. */
  lemma ListingReportsFirstThumbnail(st: Store, rawId: string, p: Playlist)
    requires IsValidObjectId(rawId)
    requires p in st.playlists && p.owner == Cast(rawId)
    ensures SummaryOf(st.videos, p) in GetUserPlaylists(st, rawId).body.data.summaries
    ensures SummaryOf(st.videos, p).videos == |p.videos|
    ensures |p.videos| == 0 ==> SummaryOf(st.videos, p).thumbnail.None?
    ensures |p.videos| > 0 && FindVideo(st.videos, p.videos[0]).Some? ==>
              SummaryOf(st.videos, p).thumbnail == Some(FindVideo(st.videos, p.videos[0]).value.thumbnail)
  {
    var owned := Filter(st.playlists, (q: Playlist) => q.owner == Cast(rawId));
    assert p in owned;
    var i :| 0 <= i < |owned| && owned[i] == p;
    assert GetUserPlaylists(st, rawId).body.data.summaries[i] == SummaryOf(st.videos, p);
  }

  /** With unique video ids, a playlist's detail lists each existing member
      exactly once and nothing else. */
  lemma PlaylistListsMembersOnce(st: Store, rawId: string, v: Video)
    requires IsValidObjectId(rawId) && PlaylistAt(st.playlists, Cast(rawId)).Some?
    requires UniqueVideoIds(st.videos)
    ensures var p := st.playlists[PlaylistAt(st.playlists, Cast(rawId)).value];
            multiset(GetPlaylistById(st, rawId).body.data.playlistDetail.videos)[v]
              == if v in st.videos && v.id in p.videos then 1 else 0
  {
    UniqueVideoOnce(st.videos, v);
  }

  /** After a video is added to a playlist, reading the playlist shows it. */
  lemma AddThenGet(st: Store, rawPlaylist: string, rawVideo: string, v: Video)
    requires IsValidObjectId(rawPlaylist) && IsValidObjectId(rawVideo)
    requires AddSlot(st.playlists, Cast(rawPlaylist), Cast(rawVideo)).Some?
    requires forall i, j :: 0 <= i < j < |st.playlists| ==> st.playlists[i].id != st.playlists[j].id
    requires v in st.videos && v.id == Cast(rawVideo)
    ensures var r := GetPlaylistById(AddVideoToPlaylist(st, rawPlaylist, rawVideo).st, rawPlaylist);
            r.Reply? && r.body.data.PlaylistDetailDoc? && v in r.body.data.playlistDetail.videos
  {
    var pid := Cast(rawPlaylist);
    var vid := Cast(rawVideo);
    var i := AddSlot(st.playlists, pid, vid).value;
    var np := st.playlists[i].(videos := st.playlists[i].videos + [vid]);
    AddedIsFound(st.playlists, i, np, pid);
  }

  /** After a video is removed from a playlist, reading the playlist no
      longer shows it. */
  lemma RemoveThenGet(st: Store, rawPlaylist: string, rawVideo: string, v: Video)
    requires IsValidObjectId(rawPlaylist) && IsValidObjectId(rawVideo)
    requires PlaylistAt(st.playlists, Cast(rawPlaylist)).Some?
    requires v.id == Cast(rawVideo)
    ensures var r := GetPlaylistById(RemoveVideoFromPlaylist(st, rawPlaylist, rawVideo).st, rawPlaylist);
            r.Reply? && r.body.data.PlaylistDetailDoc? && v !in r.body.data.playlistDetail.videos
  {
    var pid := Cast(rawPlaylist);
    var i := PlaylistAt(st.playlists, pid).value;
    var np := st.playlists[i].(videos := Pull(st.playlists[i].videos, Cast(rawVideo)));
    var qs := st.playlists[i := np];
    assert PlaylistAt(qs, pid) == Some(i) by {
      assert qs[i].id == pid;
      assert forall k :: 0 <= k < i ==> qs[k] == st.playlists[k] && qs[k].id != pid;
    }
  }
}

=== FILE: sorting.dfy ===
/** The `$sort` stage of the video listings: the sort specification the
    controllers build from `sortBy`/`sortType`, the order MongoDB applies to
    the projected documents, and a stable insertion sort that realises it. */
module Sorting {
  import opened Base
  import opened Documents

  // ---------------------------------------------------------------------------
  // Field values and their order
  // ---------------------------------------------------------------------------

  /** A sortable field value. An empty array sorts before a missing field,
      missing before numbers, numbers before strings, as in the BSON
      comparison order. */
  datatype Value = EmptyArray | Missing | Num(n: int) | Str(s: string)

  /** Binary (code point) comparison of strings: -1, 0 or 1. */
  function StrCmp(a: string, b: string): int {
    if |a| == 0 && |b| == 0 then 0
    else if |a| == 0 then -1
    else if |b| == 0 then 1
    else if a[0] < b[0] then -1
    else if a[0] > b[0] then 1
    else StrCmp(a[1..], b[1..])
  }

  lemma {:induction false} StrCmpProperties(a: string, b: string)
    ensures StrCmp(a, b) == -StrCmp(b, a)
    ensures StrCmp(a, b) == 0 <==> a == b
    ensures -1 <= StrCmp(a, b) <= 1
  {
    if |a| > 0 && |b| > 0 && a[0] == b[0] {
      StrCmpProperties(a[1..], b[1..]);
      if a[1..] == b[1..] {
        assert a == [a[0]] + a[1..] && b == [b[0]] + b[1..];
      }
    }
  }

  lemma {:induction false} StrCmpTransitive(a: string, b: string, c: string)
    requires StrCmp(a, b) < 0 && StrCmp(b, c) < 0
    ensures StrCmp(a, c) < 0
  {
    if |a| > 0 && |b| > 0 && |c| > 0 && a[0] == b[0] && b[0] == c[0] {
      StrCmpTransitive(a[1..], b[1..], c[1..]);
    }
  }

  function Rank(v: Value): int {
    match v
    case EmptyArray => -1
    case Missing => 0
    case Num(_) => 1
    case Str(_) => 2
  }

  function CmpInt(x: int, y: int): int {
    if x < y then -1 else if x > y then 1 else 0
  }

  /** Ascending comparison of two field values: -1, 0 or 1. */
  function CmpValue(x: Value, y: Value): int {
    if Rank(x) != Rank(y) then CmpInt(Rank(x), Rank(y))
    else match (x, y)
      case (Num(m), Num(n)) => CmpInt(m, n)
      case (Str(s), Str(t)) => StrCmp(s, t)
      case _ => 0
  }

  lemma CmpValueProperties(x: Value, y: Value)
    ensures CmpValue(x, y) == -CmpValue(y, x)
    ensures CmpValue(x, y) == 0 <==> x == y
    ensures -1 <= CmpValue(x, y) <= 1
  {
    if x.Str? && y.Str? {
      StrCmpProperties(x.s, y.s);
    }
  }

  lemma CmpValueTransitive(x: Value, y: Value, z: Value)
    requires CmpValue(x, y) < 0 && CmpValue(y, z) < 0
    ensures CmpValue(x, z) < 0
  {
    if x.Str? && y.Str? && z.Str? {
      StrCmpTransitive(x.s, y.s, z.s);
    }
  }

  /** Two strings compare at most equal, in either order of the arguments. */
  lemma StrCmpLeTransitive(a: string, b: string, c: string)
    requires StrCmp(a, b) <= 0 && StrCmp(b, c) <= 0
    ensures StrCmp(a, c) <= 0
  {
    StrCmpProperties(a, b);
    StrCmpProperties(b, c);
    if StrCmp(a, b) < 0 && StrCmp(b, c) < 0 {
      StrCmpTransitive(a, b, c);
    }
  }

  /** The least string of a non-empty array, in binary order: the sort key
      of an array field in an ascending sort. */
  function LeastTag(tags: seq<string>): (r: string)
    requires |tags| > 0
    ensures r in tags
    ensures forall t :: t in tags ==> StrCmp(r, t) <= 0
  {
    if |tags| == 1 then
      StrCmpProperties(tags[0], tags[0]);
      tags[0]
    else
      var m := LeastTag(tags[1..]);
      assert forall t :: t in tags ==> t == tags[0] || t in tags[1..];
      StrCmpProperties(tags[0], m);
      StrCmpProperties(tags[0], tags[0]);
      if StrCmp(tags[0], m) <= 0 then
        assert forall t :: t in tags[1..] ==> StrCmp(tags[0], t) <= 0 by {
          forall t | t in tags[1..] ensures StrCmp(tags[0], t) <= 0 {
            StrCmpLeTransitive(tags[0], m, t);
          }
        }
        tags[0]
      else
        m
  }

  /** The greatest string of a non-empty array, in binary order: the sort
      key of an array field in a descending sort. */
  function GreatestTag(tags: seq<string>): (r: string)
    requires |tags| > 0
    ensures r in tags
    ensures forall t :: t in tags ==> StrCmp(t, r) <= 0
  {
    if |tags| == 1 then
      StrCmpProperties(tags[0], tags[0]);
      tags[0]
    else
      var m := GreatestTag(tags[1..]);
      assert forall t :: t in tags ==> t == tags[0] || t in tags[1..];
      StrCmpProperties(tags[0], m);
      StrCmpProperties(tags[0], tags[0]);
      if StrCmp(m, tags[0]) <= 0 then
        assert forall t :: t in tags[1..] ==> StrCmp(t, tags[0]) <= 0 by {
          forall t | t in tags[1..] ensures StrCmp(t, tags[0]) <= 0 {
            StrCmpLeTransitive(t, m, tags[0]);
          }
        }
        tags[0]
      else
        m
  }

  /** The value of a projected field of a listed video under a key of
      direction `dir`. Booleans are ranked false before true. The `tags`
      array sorts by its least tag ascending and its greatest descending, and
      as an empty array when it has none. The embedded `owner` document and
      fields the model does not carry read as missing. */
  function FieldValue(c: VideoCard, field: string, dir: int): Value {
    if field == "views" then Num(c.views)
    else if field == "createdAt" then Num(c.createdAt)
    else if field == "duration" then Num(c.duration)
    else if field == "isPublished" then Num(if c.isPublished then 1 else 0)
    else if field == "title" then Str(c.title)
    else if field == "description" then Str(c.description)
    else if field == "thumbnail" then Str(c.thumbnail)
    else if field == "_id" then Str(c.id)
    else if field == "owner.fullName" then Str(c.owner.fullName)
    else if field == "owner.userName" then Str(c.owner.userName)
    else if field == "owner.avatar" then Str(c.owner.avatar)
    else if field == "tags" then TagsKey(c.tags, dir)
    else Missing
  }

  /** The sort key of the `tags` array under a key of direction `dir`. */
  function TagsKey(tags: seq<string>, dir: int): Value {
    if |tags| == 0 then EmptyArray
    else if dir == -1 then Str(GreatestTag(tags))
    else Str(LeastTag(tags))
  }

  // ---------------------------------------------------------------------------
  // The sort specification
  // ---------------------------------------------------------------------------

  /** One entry `field: 1` (ascending) or `field: -1` (descending). */
  datatype SortKey = SortKey(field: string, dir: int)

  predicate ValidStage(stage: seq<SortKey>) {
    forall j :: 0 <= j < |stage| ==> stage[j].dir == 1 || stage[j].dir == -1
  }

  predicate DistinctFields(stage: seq<SortKey>) {
    forall j, k :: 0 <= j < k < |stage| ==> stage[j].field != stage[k].field
  }

  /** The direction a sort object gives `field`, if any. */
  function Lookup(stage: seq<SortKey>, field: string): Option<int> {
    if |stage| == 0 then None
    else if stage[0].field == field then Some(stage[0].dir)
    else Lookup(stage[1..], field)
  }

  /** `sortStage[field] = order` on a JavaScript object: an existing key keeps
      its position and takes the new value, a new key goes last. */
  function SetKey(stage: seq<SortKey>, field: string, dir: int): (r: seq<SortKey>)
    ensures |r| == |stage| || |r| == |stage| + 1
    ensures Lookup(r, field) == Some(dir)
    ensures forall f :: f != field ==> Lookup(r, f) == Lookup(stage, f)
    ensures forall j :: 0 <= j < |r| ==> r[j] in stage || r[j] == SortKey(field, dir)
  {
    if |stage| == 0 then [SortKey(field, dir)]
    else if stage[0].field == field then [SortKey(field, dir)] + stage[1..]
    else
      var rest := SetKey(stage[1..], field, dir);
      assert forall j :: 1 <= j < |stage| ==> stage[1..][j - 1] == stage[j];
      [stage[0]] + rest
  }

  /** Setting a key keeps every direction 1 or -1. */
  lemma SetKeyValid(stage: seq<SortKey>, field: string, dir: int)
    requires ValidStage(stage) && (dir == 1 || dir == -1)
    ensures ValidStage(SetKey(stage, field, dir))
  {
    var r := SetKey(stage, field, dir);
    forall j | 0 <= j < |r| ensures r[j].dir == 1 || r[j].dir == -1 {
      if r[j] != SortKey(field, dir) {
        var k :| 0 <= k < |stage| && stage[k] == r[j];
      }
    }
  }

  /** Setting a key never duplicates a field. */
  lemma {:induction false} SetKeyDistinct(stage: seq<SortKey>, field: string, dir: int)
    requires DistinctFields(stage)
    ensures DistinctFields(SetKey(stage, field, dir))
  {
    if |stage| > 0 {
      var tail := stage[1..];
      assert forall j :: 0 <= j < |tail| ==> tail[j] == stage[j + 1];
      if stage[0].field == field {
        var r := SetKey(stage, field, dir);
        assert forall j :: 0 < j < |r| ==> r[j] == stage[j];
      } else {
        SetKeyDistinct(tail, field, dir);
        var rest := SetKey(tail, field, dir);
        LookupPresent(rest);
        LookupAbsent(tail, stage[0].field);
        assert forall j :: 0 <= j < |rest| ==> rest[j].field != stage[0].field;
        var r := [stage[0]] + rest;
        assert forall j :: 0 < j < |r| ==> r[j] == rest[j - 1];
      }
    }
  }

  lemma {:induction false} LookupPresent(stage: seq<SortKey>)
    ensures forall j :: 0 <= j < |stage| ==> Lookup(stage, stage[j].field).Some?
  {
    if |stage| > 0 {
      LookupPresent(stage[1..]);
      assert forall j :: 1 <= j < |stage| ==> stage[1..][j - 1] == stage[j];
    }
  }

  lemma {:induction false} LookupAbsent(stage: seq<SortKey>, field: string)
    requires forall j :: 0 <= j < |stage| ==> stage[j].field != field
    ensures Lookup(stage, field) == None
  {
    if |stage| > 0 {
      assert forall j :: 1 <= j < |stage| ==> stage[1..][j - 1] == stage[j];
      LookupAbsent(stage[1..], field);
    }
  }

  /** `sortType[index] === "desc" ? -1 : 1`; an index past the end reads undefined. */
  function Order(types: seq<string>, i: nat): int {
    if i < |types| && types[i] == "desc" then -1 else 1
  }

  /** The sort object after the `forEach` over `fields`. */
  function StageOf(fields: seq<string>, types: seq<string>): (r: seq<SortKey>)
    ensures ValidStage(r) && DistinctFields(r)
  {
    if |fields| == 0 then []
    else
      var prev := StageOf(fields[..|fields| - 1], types);
      SetKeyValid(prev, fields[|fields| - 1], Order(types, |fields| - 1));
      SetKeyDistinct(prev, fields[|fields| - 1], Order(types, |fields| - 1));
      SetKey(prev, fields[|fields| - 1], Order(types, |fields| - 1))
  }

  /** A field the loop never names gets no key. */
  lemma {:induction false} StageOfAbsent(fields: seq<string>, types: seq<string>, f: string)
    requires f !in fields
    ensures Lookup(StageOf(fields, types), f) == None
  {
    if |fields| > 0 {
      var n := |fields| - 1;
      assert f !in fields[..n];
      StageOfAbsent(fields[..n], types, f);
    }
  }

  /** A named field gets the direction of its last occurrence. */
  lemma {:induction false} StageOfLast(fields: seq<string>, types: seq<string>, i: nat)
    requires i < |fields|
    requires forall k :: i < k < |fields| ==> fields[k] != fields[i]
    ensures Lookup(StageOf(fields, types), fields[i]) == Some(Order(types, i))
  {
    var n := |fields| - 1;
    var prev := StageOf(fields[..n], types);
    assert StageOf(fields, types) == SetKey(prev, fields[n], Order(types, n));
    if i < n {
      assert fields[..n][i] == fields[i];
      assert forall k :: i < k < n ==> fields[..n][k] != fields[..n][i];
      StageOfLast(fields[..n], types, i);
      assert fields[n] != fields[i];
    }
  }

  /** A query-string value: a single string, or an array (`?sortBy[]=views`). */
  datatype QueryValue = One(text: string) | Many(items: seq<string>)

  /** The sort stage built at src/controllers/video.controller.js:37-43 and
      :425-431: one key per named field, descending exactly when the type at
      the field's (last) index is "desc"; empty unless both are arrays. */
  function BuildSortStage(sortBy: QueryValue, sortType: QueryValue): (r: seq<SortKey>)
    ensures ValidStage(r) && DistinctFields(r)
    ensures !(sortBy.Many? && sortType.Many?) ==> r == []
    ensures sortBy.Many? && sortType.Many? ==>
              (forall f :: f !in sortBy.items ==> Lookup(r, f) == None)
              && (forall i :: 0 <= i < |sortBy.items|
                    && (forall k :: i < k < |sortBy.items| ==> sortBy.items[k] != sortBy.items[i])
                    ==> Lookup(r, sortBy.items[i]) == Some(if i < |sortType.items| && sortType.items[i] == "desc" then -1 else 1))
  {
    if sortBy.Many? && sortType.Many? then
      var r := StageOf(sortBy.items, sortType.items);
      assert forall f :: f !in sortBy.items ==> Lookup(r, f) == None by {
        forall f | f !in sortBy.items ensures Lookup(r, f) == None {
          StageOfAbsent(sortBy.items, sortType.items, f);
        }
      }
      assert forall i :: 0 <= i < |sortBy.items|
               && (forall k :: i < k < |sortBy.items| ==> sortBy.items[k] != sortBy.items[i])
               ==> Lookup(r, sortBy.items[i]) == Some(Order(sortType.items, i)) by {
        forall i | 0 <= i < |sortBy.items|
                   && (forall k :: i < k < |sortBy.items| ==> sortBy.items[k] != sortBy.items[i])
          ensures Lookup(r, sortBy.items[i]) == Some(Order(sortType.items, i))
        {
          StageOfLast(sortBy.items, sortType.items, i);
        }
      }
      r
    else []
  }

  // ---------------------------------------------------------------------------
  // The order a sort stage imposes
  // ---------------------------------------------------------------------------

  /** Compare by the first key on which the two documents differ, in that
      key's direction; 0 when they agree on every key. */
  function Compare(stage: seq<SortKey>, a: VideoCard, b: VideoCard): int {
    if |stage| == 0 then 0
    else
      var c := CmpValue(FieldValue(a, stage[0].field, stage[0].dir), FieldValue(b, stage[0].field, stage[0].dir));
      if c != 0 then stage[0].dir * c else Compare(stage[1..], a, b)
  }

  lemma {:induction false} CompareAntisymmetric(stage: seq<SortKey>, a: VideoCard, b: VideoCard)
    requires ValidStage(stage)
    ensures Compare(stage, a, b) == -Compare(stage, b, a)
  {
    if |stage| > 0 {
      CmpValueProperties(FieldValue(a, stage[0].field, stage[0].dir), FieldValue(b, stage[0].field, stage[0].dir));
      CompareAntisymmetric(stage[1..], a, b);
    }
  }

  lemma {:induction false} CompareTransitive(stage: seq<SortKey>, a: VideoCard, b: VideoCard, c: VideoCard)
    requires ValidStage(stage)
    requires Compare(stage, a, b) <= 0 && Compare(stage, b, c) <= 0
    ensures Compare(stage, a, c) <= 0
  {
    if |stage| > 0 {
      var f, d := stage[0].field, stage[0].dir;
      var x, y, z := FieldValue(a, f, d), FieldValue(b, f, d), FieldValue(c, f, d);
      CmpValueProperties(x, y);
      CmpValueProperties(y, z);
      CmpValueProperties(x, z);
      if CmpValue(x, y) == 0 && CmpValue(y, z) == 0 {
        CompareTransitive(stage[1..], a, b, c);
      } else if CmpValue(x, y) != 0 && CmpValue(y, z) != 0 {
        if CmpValue(x, y) < 0 {
          CmpValueTransitive(x, y, z);
        } else {
          CmpValueTransitive(z, y, x);
        }
      }
    }
  }

  /** Sorting on `tags`: a video with no tags goes before a tagged one
      ascending and after it descending; ascending, a video holding a tag
      below all of a tagged video's tags goes first; descending, one holding
      a tag above all of the other's tags goes first. */
  lemma TagSortOrder(a: VideoCard, b: VideoCard)
    ensures |a.tags| == 0 && |b.tags| > 0 ==>
              Compare([SortKey("tags", 1)], a, b) < 0 && Compare([SortKey("tags", -1)], a, b) > 0
    ensures |b.tags| > 0 && (exists x :: x in a.tags && forall t :: t in b.tags ==> StrCmp(x, t) < 0) ==>
              Compare([SortKey("tags", 1)], a, b) < 0
    ensures (exists x :: x in a.tags && forall t :: t in b.tags ==> StrCmp(t, x) < 0) ==>
              Compare([SortKey("tags", -1)], a, b) < 0
  {
    CompareOnTags(a, b, 1);
    CompareOnTags(a, b, -1);
    if x :| x in a.tags && forall t :: t in b.tags ==> StrCmp(x, t) < 0 {
      if |b.tags| > 0 {
        LeastBelow(a.tags, b.tags, x);
      }
    }
    if x :| x in a.tags && forall t :: t in b.tags ==> StrCmp(t, x) < 0 {
      if |b.tags| > 0 {
        GreatestAbove(a.tags, b.tags, x);
      }
    }
  }

  /** A one-key stage on `tags` compares the two arrays' keys. */
  lemma CompareOnTags(a: VideoCard, b: VideoCard, dir: int)
    ensures Compare([SortKey("tags", dir)], a, b) == dir * CmpValue(TagsKey(a.tags, dir), TagsKey(b.tags, dir))
  {
    var stage := [SortKey("tags", dir)];
    assert FieldValue(a, "tags", dir) == TagsKey(a.tags, dir);
    assert FieldValue(b, "tags", dir) == TagsKey(b.tags, dir);
    assert stage[1..] == [];
  }

  lemma LeastBelow(xs: seq<string>, ys: seq<string>, x: string)
    requires x in xs && |ys| > 0
    requires forall t :: t in ys ==> StrCmp(x, t) < 0
    ensures CmpValue(Str(LeastTag(xs)), Str(LeastTag(ys))) < 0
  {
    var lx, ly := LeastTag(xs), LeastTag(ys);
    StrCmpProperties(lx, x);
    if lx != x {
      StrCmpTransitive(lx, x, ly);
    }
  }

  lemma GreatestAbove(xs: seq<string>, ys: seq<string>, x: string)
    requires x in xs && |ys| > 0
    requires forall t :: t in ys ==> StrCmp(t, x) < 0
    ensures CmpValue(Str(GreatestTag(xs)), Str(GreatestTag(ys))) > 0
  {
    var gx, gy := GreatestTag(xs), GreatestTag(ys);
    StrCmpProperties(x, gx);
    if gx != x {
      StrCmpTransitive(gy, x, gx);
    }
    StrCmpProperties(gy, gx);
  }

  /** Every earlier document compares at most equal to every later one. */
  predicate Sorted(stage: seq<SortKey>, s: seq<VideoCard>) {
    forall i, j :: 0 <= i < j < |s| ==> Compare(stage, s[i], s[j]) <= 0
  }

  /** Insert `x` before the first element it does not follow. */
  function Insert(stage: seq<SortKey>, x: VideoCard, s: seq<VideoCard>): (r: seq<VideoCard>)
    ensures multiset(r) == multiset(s) + multiset{x}
  {
    if |s| == 0 then [x]
    else if Compare(stage, x, s[0]) <= 0 then [x] + s
    else
      assert s == [s[0]] + s[1..];
      [s[0]] + Insert(stage, x, s[1..])
  }

  /** A document no later than any element of a sorted sequence can lead it. */
  lemma SortedCons(stage: seq<SortKey>, a: VideoCard, s: seq<VideoCard>)
    requires Sorted(stage, s)
    requires forall j :: 0 <= j < |s| ==> Compare(stage, a, s[j]) <= 0
    ensures Sorted(stage, [a] + s)
  {
    var r := [a] + s;
    assert forall j :: 0 < j < |r| ==> r[j] == s[j - 1];
  }

  /** Inserting into a sorted sequence keeps it sorted. */
  lemma {:induction false} InsertSorted(stage: seq<SortKey>, x: VideoCard, s: seq<VideoCard>)
    requires ValidStage(stage) && Sorted(stage, s)
    ensures Sorted(stage, Insert(stage, x, s))
  {
    if |s| > 0 {
      if Compare(stage, x, s[0]) <= 0 {
        forall j | 0 < j < |s| ensures Compare(stage, x, s[j]) <= 0 {
          CompareTransitive(stage, x, s[0], s[j]);
        }
        SortedCons(stage, x, s);
      } else {
        var tail := s[1..];
        assert forall j :: 0 <= j < |tail| ==> tail[j] == s[j + 1];
        InsertSorted(stage, x, tail);
        var rest := Insert(stage, x, tail);
        CompareAntisymmetric(stage, x, s[0]);
        forall j | 0 <= j < |rest| ensures Compare(stage, s[0], rest[j]) <= 0 {
          var y := rest[j];
          assert y in multiset(rest);
          if y != x {
            assert y in multiset(tail);
            var k :| 0 <= k < |tail| && tail[k] == y;
          }
        }
        SortedCons(stage, s[0], rest);
      }
    }
  }

  /** What `$sort` returns: the documents in an order the stage accepts. The
      sort is stable, one admissible choice for ties MongoDB leaves open. */
  function SortCards(stage: seq<SortKey>, s: seq<VideoCard>): (r: seq<VideoCard>)
    requires ValidStage(stage)
    ensures multiset(r) == multiset(s)
    ensures Sorted(stage, r)
  {
    if |s| == 0 then []
    else
      assert s == [s[0]] + s[1..];
      var rest := SortCards(stage, s[1..]);
      InsertSorted(stage, s[0], rest);
      Insert(stage, s[0], rest)
  }

  /** An empty sort specification leaves documents in natural order. */
  lemma {:induction false} SortEmptyStage(s: seq<VideoCard>)
    ensures SortCards([], s) == s
  {
    if |s| > 0 {
      SortEmptyStage(s[1..]);
      assert s == [s[0]] + s[1..];
    }
  }
}

=== FILE: subscriptions.dfy ===
/** The subscription ledger of src/controllers/subscription.controller.js:
    the toggle, the subscriber summary of a channel, the subscriber list of a
    channel and the channel list of a subscriber. */
module Subscriptions {
  import opened Base
  import opened Envelope
  import opened Documents
  import opened Ledger

  /** The key of a toggle: records saying `subscriber` subscribes to `channel`. */
  function Key(subscriber: ObjectId, channel: ObjectId): Subscription -> bool {
    (s: Subscription) => s.subscriber == subscriber && s.channel == channel
  }

  function PairCount(subs: seq<Subscription>, subscriber: ObjectId, channel: ObjectId): nat {
    Count(subs, Key(subscriber, channel))
  }

  /** The shared body of both toggles once the checks pass: delete the first
      record of the pair if there is one, else create one. */
  function ToggleRecord(st: Store, actor: ObjectId, channel: ObjectId): (r: Step)
    ensures PairCount(st.subscriptions, actor, channel) == 0 ==>
              && r.out == Ok(SubscriptionDoc(Subscription(actor, channel, st.clock)), "Subscribed successfully")
              && r.st == st.(subscriptions := st.subscriptions + [Subscription(actor, channel, st.clock)], clock := st.clock + 1)
    ensures PairCount(st.subscriptions, actor, channel) > 0 ==>
              && r.out == Ok(Empty, "Unsubscribed successfully")
              && |r.st.subscriptions| + 1 == |st.subscriptions|
              && multiset(r.st.subscriptions) <= multiset(st.subscriptions)
              && r.st == st.(subscriptions := r.st.subscriptions)
    ensures PairCount(r.st.subscriptions, actor, channel) ==
              if PairCount(st.subscriptions, actor, channel) == 0 then 1 else PairCount(st.subscriptions, actor, channel) - 1
  {
    var x := Subscription(actor, channel, st.clock);
    var subs := Toggle(st.subscriptions, Key(actor, channel), x);
    if PairCount(st.subscriptions, actor, channel) > 0 then Step(Ok(Empty, "Unsubscribed successfully"), st.(subscriptions := subs))
    else Step(Ok(SubscriptionDoc(x), "Subscribed successfully"), st.(subscriptions := subs, clock := st.clock + 1))
  }

  /** The reply to a request to subscribe to one's own channel. */
  const SelfReply: Outcome := Reply(400, Make(400, Empty, Some("You cannot subscribe to your own channel")))

  /** `toggleSubscription` as written: the own-channel check compares the raw
      path parameter with the caller's id, whose text form is lower-case hex,
      so an upper-case spelling of one's own id passes the check. */
  function ToggleSubscriptionAsWritten(st: Store, actor: ObjectId, rawId: string): (r: Step)
    ensures !IsValidObjectId(rawId) ==> r == Step(Raised(404, "not valid user id"), st)
    ensures IsValidObjectId(rawId) && rawId == actor ==> r == Step(SelfReply, st)
    ensures IsValidObjectId(rawId) && rawId != actor ==> r == ToggleRecord(st, actor, Cast(rawId))
  {
    if !IsValidObjectId(rawId) then Step(Raised(404, "not valid user id"), st)
    else if rawId == actor then Step(SelfReply, st)
    else ToggleRecord(st, actor, Cast(rawId))
  }

  /** `toggleSubscription` with the own-channel check made on the cast id, the
      id the toggle then uses. */
  function ToggleSubscription(st: Store, actor: ObjectId, rawId: string): (r: Step)
    ensures !IsValidObjectId(rawId) ==> r == Step(Raised(404, "not valid user id"), st)
    ensures IsValidObjectId(rawId) && Cast(rawId) == actor ==> r == Step(SelfReply, st)
    ensures IsValidObjectId(rawId) && Cast(rawId) != actor ==> r == ToggleRecord(st, actor, Cast(rawId))
  {
    if !IsValidObjectId(rawId) then Step(Raised(404, "not valid user id"), st)
    else if Cast(rawId) == actor then Step(SelfReply, st)
    else ToggleRecord(st, actor, Cast(rawId))
  }

  /** No record says a user subscribes to their own channel. */
  ghost predicate NoSelfSubscription(subs: seq<Subscription>) {
    forall i :: 0 <= i < |subs| ==> subs[i].subscriber != subs[i].channel
  }

  /** The corrected toggle keeps every ledger free of self-subscriptions. */
  lemma ToggleKeepsNoSelf(st: Store, actor: ObjectId, rawId: string)
    requires NoSelfSubscription(st.subscriptions)
    ensures NoSelfSubscription(ToggleSubscription(st, actor, rawId).st.subscriptions)
  {
    if IsValidObjectId(rawId) && Cast(rawId) != actor {
      var channel := Cast(rawId);
      ToggleKeepsAll(st.subscriptions, Key(actor, channel), Subscription(actor, channel, st.clock),
                     (s: Subscription) => s.subscriber != s.channel);
    }
  }

  /** A user id in canonical form and its upper-case spelling. */
  const OwnId: ObjectId := "aaaaaaaaaaaaaaaaaaaaaaaa"
  const OwnIdUpper: string := "AAAAAAAAAAAAAAAAAAAAAAAA"

  /** The upper-case spelling is a valid id that casts to the canonical one
      but differs from it as text. */
  lemma UpperSpelling()
    ensures IsValidObjectId(OwnIdUpper) && Cast(OwnIdUpper) == OwnId && OwnIdUpper != OwnId
  {
    assert |OwnIdUpper| == 24;
    assert forall i :: 0 <= i < 24 ==> OwnIdUpper[i] == 'A';
    assert forall i :: 0 <= i < 24 ==> OwnId[i] == 'a';
    assert OwnIdUpper[0] != OwnId[0];
  }

  /** The as-written toggle lets a user subscribe to their own channel by
      spelling their id in upper case; the corrected toggle refuses. */
  lemma SelfSubscriptionAsWritten(st: Store)
    requires PairCount(st.subscriptions, OwnId, OwnId) == 0
    ensures IsValidObjectId(OwnIdUpper) && Cast(OwnIdUpper) == OwnId
    ensures ToggleSubscriptionAsWritten(st, OwnId, OwnIdUpper).out.Reply?
    ensures ToggleSubscriptionAsWritten(st, OwnId, OwnIdUpper).st.subscriptions
            == st.subscriptions + [Subscription(OwnId, OwnId, st.clock)]
    ensures ToggleSubscription(st, OwnId, OwnIdUpper) == Step(SelfReply, st)
  {
    UpperSpelling();
  }

  // ---------------------------------------------------------------------------
  // Read handlers
  // ---------------------------------------------------------------------------

  /** `getVideoSubscriber`: how many records name the channel, and whether the
      caller holds one. */
  function GetVideoSubscriber(st: Store, actor: ObjectId, rawId: string): (r: Outcome)
    ensures !IsValidObjectId(rawId) ==> r == Raised(404, "invalid channel id")
    ensures IsValidObjectId(rawId) ==>
              && r.Reply? && r.httpStatus == 200 && r.body.sucess && r.body.message == "success"
              && r.body.data.SubscriberSummary?
              && r.body.data.subscribers == |Filter(st.subscriptions, (s: Subscription) => s.channel == Cast(rawId))|
              && (r.body.data.subscribeByUser <==> PairCount(st.subscriptions, actor, Cast(rawId)) > 0)
  {
    if !IsValidObjectId(rawId) then Raised(404, "invalid channel id")
    else
      var channel := Cast(rawId);
      Ok(SubscriberSummary(SubscriberCount(st.subscriptions, channel), PairCount(st.subscriptions, actor, channel) > 0), "success")
  }

  /** Whether a record's subscriber has a user document (the join keeps it). */
  predicate SubscriberExists(users: seq<User>, s: Subscription) {
    FindUser(users, s.subscriber).Some?
  }

  /** Whether a record's channel has a user document (the join keeps it). */
  predicate ChannelExists(users: seq<User>, s: Subscription) {
    FindUser(users, s.channel).Some?
  }

  /** Cards naming user `id`. */
  function CardOf(id: ObjectId): ChannelCard -> bool {
    (c: ChannelCard) => c.id == id
  }

  /** Records whose subscriber is `id` and has a user document. */
  function BySubscriber(users: seq<User>, id: ObjectId): Subscription -> bool {
    (s: Subscription) => s.subscriber == id && SubscriberExists(users, s)
  }

  /** The joined subscribers of `recs`: one card per record whose subscriber
      exists (so each user has as many cards as records naming them), with
      that user's own subscriber count and whether `channel` subscribes back. */
  function SubscriberCards(recs: seq<Subscription>, st: Store, channel: ObjectId): (r: seq<ChannelCard>)
    ensures |r| == Count(recs, (s: Subscription) => SubscriberExists(st.users, s))
    ensures forall id :: Count(r, CardOf(id)) == Count(recs, BySubscriber(st.users, id))
    ensures forall c :: c in r ==>
              && (exists s :: s in recs && s.subscriber == c.id)
              && FindUser(st.users, c.id) == Some(User(c.id, c.userName, c.fullName, c.avatar))
              && c.subscriberCount == SubscriberCount(st.subscriptions, c.id)
              && (c.isSubscribed <==> Subscribes(st.subscriptions, channel, c.id))
  {
    if |recs| == 0 then []
    else
      var rest := SubscriberCards(recs[1..], st, channel);
      assert recs == [recs[0]] + recs[1..];
      CountAppend([recs[0]], recs[1..], (s: Subscription) => SubscriberExists(st.users, s));
      CountSingle(recs[0], (s: Subscription) => SubscriberExists(st.users, s));
      match FindUser(st.users, recs[0].subscriber)
      case None =>
        assert forall id :: Count(rest, CardOf(id)) == Count(recs, BySubscriber(st.users, id)) by {
          forall id ensures Count(rest, CardOf(id)) == Count(recs, BySubscriber(st.users, id)) {
            CountAppend([recs[0]], recs[1..], BySubscriber(st.users, id));
            CountSingle(recs[0], BySubscriber(st.users, id));
          }
        }
        rest
      case Some(u) =>
        var card := ChannelCard(u.id, u.fullName, u.userName, u.avatar, SubscriberCount(st.subscriptions, u.id),
                                Subscribes(st.subscriptions, channel, u.id));
        assert forall id :: Count([card] + rest, CardOf(id)) == Count(recs, BySubscriber(st.users, id)) by {
          forall id ensures Count([card] + rest, CardOf(id)) == Count(recs, BySubscriber(st.users, id)) {
            CountAppend([card], rest, CardOf(id));
            CountSingle(card, CardOf(id));
            CountAppend([recs[0]], recs[1..], BySubscriber(st.users, id));
            CountSingle(recs[0], BySubscriber(st.users, id));
          }
        }
        [card] + rest
  }

  /** `getUserChannelSubscribers`: one card per record naming the channel,
      in ledger order, dropping records whose subscriber has no user. */
  function GetUserChannelSubscribers(st: Store, rawId: string): (r: Outcome)
    ensures !IsValidObjectId(rawId) ==> r == Raised(404, "Invalid channel ID")
    ensures IsValidObjectId(rawId) ==>
              && r.Reply? && r.httpStatus == 200 && r.body.message == "Subscribers list retrieved successfully"
              && r.body.data.SubscriberList?
              && var recs := Filter(st.subscriptions, (s: Subscription) => s.channel == Cast(rawId));
              && |r.body.data.subscriberCards| == Count(recs, (s: Subscription) => SubscriberExists(st.users, s))
              && forall c :: c in r.body.data.subscriberCards ==>
                   && Subscribes(st.subscriptions, c.id, Cast(rawId))
                   && FindUser(st.users, c.id) == Some(User(c.id, c.userName, c.fullName, c.avatar))
                   && c.subscriberCount == SubscriberCount(st.subscriptions, c.id)
                   && (c.isSubscribed <==> Subscribes(st.subscriptions, Cast(rawId), c.id))
  {
    if !IsValidObjectId(rawId) then Raised(404, "Invalid channel ID")
    else
      var channel := Cast(rawId);
      var recs := Filter(st.subscriptions, (s: Subscription) => s.channel == channel);
      var cards := SubscriberCards(recs, st, channel);
      assert forall c :: c in cards ==> Subscribes(st.subscriptions, c.id, channel) by {
        forall c | c in cards ensures Subscribes(st.subscriptions, c.id, channel) {
          var s :| s in recs && s.subscriber == c.id;
          var i :| 0 <= i < |st.subscriptions| && st.subscriptions[i] == s;
        }
      }
      Ok(SubscriberList(cards), "Subscribers list retrieved successfully")
  }

  /** Entries naming channel `id`. */
  function InfoOf(id: ObjectId): ChannelInfo -> bool {
    (c: ChannelInfo) => c.id == id
  }

  /** Records whose channel is `id` and has a user document. */
  function ByChannel(users: seq<User>, id: ObjectId): Subscription -> bool {
    (s: Subscription) => s.channel == id && ChannelExists(users, s)
  }

  /** The joined channels of `recs`: one entry per record whose channel
      exists (so each channel has as many entries as records naming it), with
      that channel's subscriber count. */
  function ChannelInfos(recs: seq<Subscription>, st: Store): (r: seq<ChannelInfo>)
    ensures |r| == Count(recs, (s: Subscription) => ChannelExists(st.users, s))
    ensures forall id :: Count(r, InfoOf(id)) == Count(recs, ByChannel(st.users, id))
    ensures forall c :: c in r ==>
              && (exists s :: s in recs && s.channel == c.id)
              && FindUser(st.users, c.id) == Some(User(c.id, c.userName, c.fullName, c.avatar))
              && c.subscribers == SubscriberCount(st.subscriptions, c.id)
  {
    if |recs| == 0 then []
    else
      var rest := ChannelInfos(recs[1..], st);
      assert recs == [recs[0]] + recs[1..];
      CountAppend([recs[0]], recs[1..], (s: Subscription) => ChannelExists(st.users, s));
      CountSingle(recs[0], (s: Subscription) => ChannelExists(st.users, s));
      match FindUser(st.users, recs[0].channel)
      case None =>
        assert forall id :: Count(rest, InfoOf(id)) == Count(recs, ByChannel(st.users, id)) by {
          forall id ensures Count(rest, InfoOf(id)) == Count(recs, ByChannel(st.users, id)) {
            CountAppend([recs[0]], recs[1..], ByChannel(st.users, id));
            CountSingle(recs[0], ByChannel(st.users, id));
          }
        }
        rest
      case Some(u) =>
        var info := ChannelInfo(u.id, u.userName, u.fullName, u.avatar, SubscriberCount(st.subscriptions, u.id));
        assert forall id :: Count([info] + rest, InfoOf(id)) == Count(recs, ByChannel(st.users, id)) by {
          forall id ensures Count([info] + rest, InfoOf(id)) == Count(recs, ByChannel(st.users, id)) {
            CountAppend([info], rest, InfoOf(id));
            CountSingle(info, InfoOf(id));
            CountAppend([recs[0]], recs[1..], ByChannel(st.users, id));
            CountSingle(recs[0], ByChannel(st.users, id));
          }
        }
        [info] + rest
  }

  /** `getSubscribedChannels`: one entry per record the caller holds, in
      ledger order, dropping records whose channel has no user. */
  function GetSubscribedChannels(st: Store, actor: ObjectId): (r: Outcome)
    ensures r.Reply? && r.httpStatus == 200 && r.body.message == "channel list retrieved successfully"
    ensures r.body.data.ChannelList?
    ensures |r.body.data.channels| ==
              Count(Filter(st.subscriptions, (s: Subscription) => s.subscriber == actor),
                    (s: Subscription) => ChannelExists(st.users, s))
    ensures forall c :: c in r.body.data.channels ==>
              && Subscribes(st.subscriptions, actor, c.id)
              && FindUser(st.users, c.id) == Some(User(c.id, c.userName, c.fullName, c.avatar))
              && c.subscribers == SubscriberCount(st.subscriptions, c.id)
  {
    var recs := Filter(st.subscriptions, (s: Subscription) => s.subscriber == actor);
    var infos := ChannelInfos(recs, st);
    assert forall c :: c in infos ==> Subscribes(st.subscriptions, actor, c.id) by {
      forall c | c in infos ensures Subscribes(st.subscriptions, actor, c.id) {
        var s :| s in recs && s.channel == c.id;
        var i :| 0 <= i < |st.subscriptions| && st.subscriptions[i] == s;
      }
    }
    Ok(ChannelList(infos), "channel list retrieved successfully")
  }

  // ---------------------------------------------------------------------------
  // Properties
  // ---------------------------------------------------------------------------

  /** When every subscriber has a user document, the subscriber list of a
      channel has exactly as many entries as its subscriber count. */
  lemma ListMatchesCount(st: Store, actor: ObjectId, rawId: string)
    requires IsValidObjectId(rawId)
    requires forall i :: 0 <= i < |st.subscriptions| ==> SubscriberExists(st.users, st.subscriptions[i])
    ensures |GetUserChannelSubscribers(st, rawId).body.data.subscriberCards|
            == GetVideoSubscriber(st, actor, rawId).body.data.subscribers
  {
    var channel := Cast(rawId);
    var recs := Filter(st.subscriptions, (s: Subscription) => s.channel == channel);
    var p := (s: Subscription) => SubscriberExists(st.users, s);
    assert forall i :: 0 <= i < |recs| ==> recs[i] in recs;
    assert forall i :: 0 <= i < |recs| ==> p(recs[i]) by {
      forall i | 0 <= i < |recs| ensures p(recs[i]) {
        var j :| 0 <= j < |st.subscriptions| && st.subscriptions[j] == recs[i];
      }
    }
    CountComplement(recs, p, (s: Subscription) => !p(s));
    CountZero(recs, (s: Subscription) => !p(s));
  }

  /** Every record naming the channel whose subscriber has a user document
      is in the subscriber list, as that subscriber's card. */
  lemma SubscriberListed(st: Store, rawId: string, s: Subscription)
    requires IsValidObjectId(rawId)
    requires s in st.subscriptions && s.channel == Cast(rawId) && SubscriberExists(st.users, s)
    ensures exists c :: c in GetUserChannelSubscribers(st, rawId).body.data.subscriberCards && c.id == s.subscriber
  {
    var channel := Cast(rawId);
    var recs := Filter(st.subscriptions, (s: Subscription) => s.channel == channel);
    var cards := SubscriberCards(recs, st, channel);
    assert GetUserChannelSubscribers(st, rawId).body.data.subscriberCards == cards;
    CountPositive(recs, BySubscriber(st.users, s.subscriber), s);
    CountWitness(cards, CardOf(s.subscriber));
  }

  /** Every record the caller holds whose channel has a user document is in
      the caller's channel list, as that channel's entry. */
  lemma ChannelListed(st: Store, actor: ObjectId, s: Subscription)
    requires s in st.subscriptions && s.subscriber == actor && ChannelExists(st.users, s)
    ensures exists c :: c in GetSubscribedChannels(st, actor).body.data.channels && c.id == s.channel
  {
    var recs := Filter(st.subscriptions, (s: Subscription) => s.subscriber == actor);
    var infos := ChannelInfos(recs, st);
    assert GetSubscribedChannels(st, actor).body.data.channels == infos;
    CountPositive(recs, ByChannel(st.users, s.channel), s);
    CountWitness(infos, InfoOf(s.channel));
  }

  /** A toggle moves the channel's subscriber count by one and flips the
      caller's `subscribeByUser`; other channels' counts stay. */
  lemma ToggleFlipsSummary(st: Store, actor: ObjectId, rawId: string, other: ObjectId)
    requires IsValidObjectId(rawId) && Cast(rawId) != actor
    ensures var before := GetVideoSubscriber(st, actor, rawId).body.data;
            var after := GetVideoSubscriber(ToggleSubscription(st, actor, rawId).st, actor, rawId).body.data;
            && after.subscribers == (if before.subscribeByUser then before.subscribers - 1 else before.subscribers + 1)
            && (PairCount(st.subscriptions, actor, Cast(rawId)) <= 1 ==> (after.subscribeByUser <==> !before.subscribeByUser))
    ensures other != Cast(rawId) ==>
              SubscriberCount(ToggleSubscription(st, actor, rawId).st.subscriptions, other) == SubscriberCount(st.subscriptions, other)
  {
    var channel := Cast(rawId);
    var p := Key(actor, channel);
    var x := Subscription(actor, channel, st.clock);
    assert ToggleSubscription(st, actor, rawId).st.subscriptions == Toggle(st.subscriptions, p, x);
    ToggleCovering(st.subscriptions, p, x, (s: Subscription) => s.channel == channel);
    if other != channel {
      ToggleDisjoint(st.subscriptions, p, x, (s: Subscription) => s.channel == other);
    }
  }

  /** Subscribing and then unsubscribing restores the ledger exactly. */
  lemma SubscribeThenUnsubscribe(st: Store, actor: ObjectId, rawId: string)
    requires IsValidObjectId(rawId) && Cast(rawId) != actor
    requires PairCount(st.subscriptions, actor, Cast(rawId)) == 0
    ensures ToggleSubscription(ToggleSubscription(st, actor, rawId).st, actor, rawId).st.subscriptions == st.subscriptions
  {
    var st1 := ToggleSubscription(st, actor, rawId).st;
    var channel := Cast(rawId);
    ToggleBack(st.subscriptions, Key(actor, channel), Subscription(actor, channel, st.clock), Subscription(actor, channel, st1.clock));
  }

  /** Unsubscribing from the only record and subscribing again restores every
      pair count of the ledger: only the new record's timestamp differs. */
  lemma UnsubscribeThenSubscribe(st: Store, actor: ObjectId, rawId: string, u: ObjectId, c: ObjectId)
    requires IsValidObjectId(rawId) && Cast(rawId) != actor
    requires PairCount(st.subscriptions, actor, Cast(rawId)) == 1
    ensures PairCount(ToggleSubscription(ToggleSubscription(st, actor, rawId).st, actor, rawId).st.subscriptions, u, c)
            == PairCount(st.subscriptions, u, c)
  {
    var channel := Cast(rawId);
    var p := Key(actor, channel);
    var st1 := ToggleSubscription(st, actor, rawId).st;
    var x := Subscription(actor, channel, st.clock);
    var y := Subscription(actor, channel, st1.clock);
    assert st1.subscriptions == Toggle(st.subscriptions, p, x);
    ToggleReturn(st.subscriptions, p, x, y, Key(u, c));
  }

  /** `n` toggles in a row by the same caller on the same channel, each
      passing the checks. */
  function ToggleTimes(st: Store, actor: ObjectId, channel: ObjectId, n: nat): Store
    decreases n
  {
    if n == 0 then st else ToggleRecord(ToggleTimes(st, actor, channel, n - 1), actor, channel).st
  }

  /** With at most one record per pair, toggling alternates the record
      between present and absent. */
  lemma {:induction false} SubscriptionAlternates(st: Store, actor: ObjectId, channel: ObjectId, n: nat)
    requires PairCount(st.subscriptions, actor, channel) <= 1
    ensures PairCount(ToggleTimes(st, actor, channel, n).subscriptions, actor, channel) <= 1
    ensures (PairCount(ToggleTimes(st, actor, channel, n).subscriptions, actor, channel) == 1)
            <==> ((PairCount(st.subscriptions, actor, channel) == 1) != Odd(n))
    decreases n
  {
    if n > 0 {
      SubscriptionAlternates(st, actor, channel, n - 1);
      var before := ToggleTimes(st, actor, channel, n - 1);
      assert ToggleTimes(st, actor, channel, n) == ToggleRecord(before, actor, channel).st;
    }
  }

  /** With at most one record per pair, the record exists after `n` toggles
      exactly when it existed before or `n` is odd, but not both. */
  lemma SubscriptionParity(st: Store, actor: ObjectId, channel: ObjectId, n: nat)
    requires PairCount(st.subscriptions, actor, channel) <= 1
    ensures PairCount(ToggleTimes(st, actor, channel, n).subscriptions, actor, channel) <= 1
    ensures (PairCount(ToggleTimes(st, actor, channel, n).subscriptions, actor, channel) == 1)
            <==> ((PairCount(st.subscriptions, actor, channel) == 1) != (n % 2 == 1))
  {
    SubscriptionAlternates(st, actor, channel, n);
    OddIsRemainder(n);
  }

  /** A request naming one's own channel (in canonical spelling) changes
      nothing, whichever check is used. */
  lemma SelfToggleChangesNothing(st: Store, actor: ObjectId)
    requires IsValidObjectId(actor) && IsCanonical(actor)
    ensures ToggleSubscription(st, actor, actor) == Step(SelfReply, st)
    ensures ToggleSubscriptionAsWritten(st, actor, actor) == Step(SelfReply, st)
  {
  }
}

=== FILE: video_controller.dfy ===
/** The single-video handlers of src/controllers/video.controller.js: viewing
    a video (`getVideoById`), flipping its publish flag, editing and deleting
    it, the watch-history removal handlers, the request checks of
    `publishAVideo` / `updateVideo`, and the extraction of a hosted file's
    public id from its URL. */
module VideoController {
  import opened Base
  import opened Envelope
  import opened Documents
  import opened WatchHistory

  // ---------------------------------------------------------------------------
  // Writing one video document
  // ---------------------------------------------------------------------------

  /** Write `nv` over the first video whose `_id` is `id` (`updateOne`,
      `save()`, `findByIdAndUpdate`); nothing changes when there is none. */
  function ReplaceVideo(videos: seq<Video>, id: ObjectId, nv: Video): (r: seq<Video>)
    ensures |r| == |videos|
    ensures FindVideo(videos, id).None? ==> r == videos
    ensures FindVideo(videos, id).Some? && nv.id == id ==> FindVideo(r, id) == Some(nv)
    ensures nv.id == id ==> forall w :: w != id ==> FindVideo(r, w) == FindVideo(videos, w)
    ensures forall i :: 0 <= i < |r| ==> r[i] == videos[i] || (videos[i].id == id && r[i] == nv)
  {
    if |videos| == 0 then []
    else if videos[0].id == id then [nv] + videos[1..]
    else [videos[0]] + ReplaceVideo(videos[1..], id, nv)
  }

  /** Writing back the document just read changes nothing. */
  lemma {:induction false} ReplaceWithFound(videos: seq<Video>, id: ObjectId)
    requires FindVideo(videos, id).Some?
    ensures ReplaceVideo(videos, id, FindVideo(videos, id).value) == videos
  {
    if videos[0].id != id {
      ReplaceWithFound(videos[1..], id);
      assert videos == [videos[0]] + videos[1..];
    } else {
      assert videos == [videos[0]] + videos[1..];
    }
  }

  /** A second write to the same document overrides the first. */
  lemma {:induction false} ReplaceTwice(videos: seq<Video>, id: ObjectId, a: Video, b: Video)
    requires a.id == id
    ensures ReplaceVideo(ReplaceVideo(videos, id, a), id, b) == ReplaceVideo(videos, id, b)
  {
    if |videos| > 0 && videos[0].id != id {
      ReplaceTwice(videos[1..], id, a, b);
      assert ReplaceVideo(videos, id, a)[1..] == ReplaceVideo(videos[1..], id, a);
    }
  }

  /** `findByIdAndDelete`: the first video whose `_id` is `id` goes. */
  function DropVideo(videos: seq<Video>, id: ObjectId): (r: seq<Video>)
    ensures FindVideo(videos, id).None? ==> r == videos
    ensures FindVideo(videos, id).Some? ==>
              |r| == |videos| - 1 && multiset(r) + multiset{FindVideo(videos, id).value} == multiset(videos)
    ensures forall w :: w != id ==> FindVideo(r, w) == FindVideo(videos, w)
  {
    if |videos| == 0 then []
    else if videos[0].id == id then
      assert videos == [videos[0]] + videos[1..];
      videos[1..]
    else
      assert videos == [videos[0]] + videos[1..];
      [videos[0]] + DropVideo(videos[1..], id)
  }

  // ---------------------------------------------------------------------------
  // getVideoById
  // ---------------------------------------------------------------------------

  /** The joined owner of a viewed video: its subscriber count and whether the
      viewer is among the subscribers. */
  function OwnerCard(subs: seq<Subscription>, owner: User, viewer: ObjectId): (r: ChannelCard)
    ensures r.id == owner.id && r.userName == owner.userName && r.fullName == owner.fullName && r.avatar == owner.avatar
    ensures r.subscriberCount == |Filter(subs, (s: Subscription) => s.channel == owner.id)|
    ensures r.isSubscribed <==> exists s :: s in subs && s.subscriber == viewer && s.channel == owner.id
  {
    var sub := Subscribes(subs, viewer, owner.id);
    assert sub <==> exists s :: s in subs && s.subscriber == viewer && s.channel == owner.id by {
      if exists s :: s in subs && s.subscriber == viewer && s.channel == owner.id {
        var s :| s in subs && s.subscriber == viewer && s.channel == owner.id;
        var i :| 0 <= i < |subs| && subs[i] == s;
      }
    }
    ChannelCard(owner.id, owner.fullName, owner.userName, owner.avatar,
                SubscriberCount(subs, owner.id), sub)
  }

  /** The projected fields of the viewed video with its joined owner. */
  function Detail(v: Video, owner: ChannelCard): VideoDetail {
    VideoDetail(v.id, v.title, v.description, v.videoFile, v.thumbnail, v.duration,
                v.views, v.createdAt, owner, v.tags)
  }

  /** The part of `getVideoById` after the video `v` has been found: update
      the viewer's tag preferences, write back one more view, join the owner.
      A viewer whose user document is gone makes `user.updateTagPreferences`
      fail; a video whose owner is missing is dropped by the join and answers
      404 like a missing one. */
  function ViewFound(st: Store, actor: ObjectId, v: Video): (r: Step)
    requires FindVideo(st.videos, v.id) == Some(v)
    ensures FindUser(st.users, actor).None? ==> r == Step(Failed, st)
    ensures FindUser(st.users, actor).Some? ==>
              && r.st == st.(prefUpdates := st.prefUpdates + [PrefUpdate(actor, v.tags)],
                             videos := ReplaceVideo(st.videos, v.id, Viewed(v)))
              && (r.out.Reply? <==> FindUser(st.users, v.owner).Some?)
              && (!r.out.Reply? ==> r.out == Raised(404, "Video not found"))
    ensures r.out.Reply? ==>
              && r.out.httpStatus == 200 && r.out.body.message == "Video found successfully"
              && r.out.body.data.VideoDetailDoc?
              && r.out.body.data.detail.id == v.id
              && r.out.body.data.detail.views == v.views + 1
              && r.out.body.data.detail.title == v.title && r.out.body.data.detail.description == v.description
              && r.out.body.data.detail.thumbnail == v.thumbnail && r.out.body.data.detail.tags == v.tags
              && r.out.body.data.detail.videoFile == v.videoFile && r.out.body.data.detail.duration == v.duration
              && r.out.body.data.detail.createdAt == v.createdAt
              && r.out.body.data.detail.owner.id == v.owner
              && FindUser(st.users, v.owner).Some?
              && r.out.body.data.detail.owner.userName == FindUser(st.users, v.owner).value.userName
              && r.out.body.data.detail.owner.fullName == FindUser(st.users, v.owner).value.fullName
              && r.out.body.data.detail.owner.avatar == FindUser(st.users, v.owner).value.avatar
              && r.out.body.data.detail.owner.subscriberCount == SubscriberCount(st.subscriptions, v.owner)
              && (r.out.body.data.detail.owner.isSubscribed <==> Subscribes(st.subscriptions, actor, v.owner))
  {
    if FindUser(st.users, actor).None? then Step(Failed, st)
    else
      var viewed := Viewed(v);
      var st2 := st.(prefUpdates := st.prefUpdates + [PrefUpdate(actor, v.tags)],
                     videos := ReplaceVideo(st.videos, v.id, viewed));
      match FindUser(st.users, v.owner)
      case None => Step(Raised(404, "Video not found"), st2)
      case Some(o) =>
        Step(Ok(VideoDetailDoc(Detail(viewed, OwnerCard(st.subscriptions, o, actor))), "Video found successfully"), st2)
  }

  /** The store once the view is recorded: the history after the view,
      and the clock advanced past the new entry's timestamp. */
  function Watched(st: Store, actor: ObjectId, id: ObjectId): (r: Store)
    ensures r.history == RecordView(st.history, actor, id, st.clock) && r.clock == st.clock + 1
    ensures r.videos == st.videos && r.users == st.users && r.prefUpdates == st.prefUpdates
    ensures r.subscriptions == st.subscriptions && r.likes == st.likes && r.playlists == st.playlists
  {
    st.(history := RecordView(st.history, actor, id, st.clock), clock := st.clock + 1)
  }

  /** `getVideoById` for viewer `actor` and path parameter `rawId`. With a
      valid id the view is recorded in the history (stamped with the clock)
      before anything is looked up, so it happens even when the video does
      not exist; the rest is `ViewFound`. */
  function GetVideoById(st: Store, actor: ObjectId, rawId: string): (r: Step)
    ensures !IsValidObjectId(rawId) ==> r == Step(Raised(404, "Invalid video ID"), st)
    ensures IsValidObjectId(rawId) && FindVideo(st.videos, Cast(rawId)).None? ==>
              r == Step(Raised(404, "Video not found"), Watched(st, actor, Cast(rawId)))
    ensures IsValidObjectId(rawId) && FindVideo(st.videos, Cast(rawId)).Some? ==>
              r == ViewFound(Watched(st, actor, Cast(rawId)), actor, FindVideo(st.videos, Cast(rawId)).value)
  {
    if !IsValidObjectId(rawId) then Step(Raised(404, "Invalid video ID"), st)
    else
      var id := Cast(rawId);
      var st1 := Watched(st, actor, id);
      match FindVideo(st.videos, id)
      case None => Step(Raised(404, "Video not found"), st1)
      case Some(v) => ViewFound(st1, actor, v)
  }

  /** A view keeps the history invariant, leaves exactly one entry for the
      viewed pair, keeps the fresh entry, and caps the viewer's history. */
  lemma ViewMaintainsHistory(st: Store, actor: ObjectId, rawId: string)
    requires IsValidObjectId(rawId)
    requires HistoryInvariant(st.history, st.clock)
    ensures var h := GetVideoById(st, actor, rawId).st.history;
            && HistoryInvariant(h, GetVideoById(st, actor, rawId).st.clock)
            && CountPair(h, actor, Cast(rawId)) == 1
            && WatchEntry(actor, Cast(rawId), st.clock) in h
            && CountOf(h, actor) <= Cap
  {
    ViewRecorded(st, actor, rawId);
    ViewKeepsInvariant(st.history, actor, Cast(rawId), st.clock);
  }

  /** Whatever the lookups find, a valid id records the view. */
  lemma ViewRecorded(st: Store, actor: ObjectId, rawId: string)
    requires IsValidObjectId(rawId)
    ensures GetVideoById(st, actor, rawId).st.history == RecordView(st.history, actor, Cast(rawId), st.clock)
    ensures GetVideoById(st, actor, rawId).st.clock == st.clock + 1
  {
    var id := Cast(rawId);
    if FindVideo(st.videos, id).Some? {
      var v := FindVideo(st.videos, id).value;
      var st1 := Watched(st, actor, id);
      var r := ViewFound(st1, actor, v);
      assert r.st.history == st1.history && r.st.clock == st1.clock;
    }
  }

  /** A view of an existing video by a viewer with a user document writes
      back exactly one more view on that video, whether or not its owner
      exists, and leaves the other video documents as they were. */
  lemma ViewWritesOneView(st: Store, actor: ObjectId, rawId: string)
    requires IsValidObjectId(rawId) && FindVideo(st.videos, Cast(rawId)).Some?
    requires FindUser(st.users, actor).Some?
    ensures GetVideoById(st, actor, rawId).st.videos
            == ReplaceVideo(st.videos, Cast(rawId), Viewed(FindVideo(st.videos, Cast(rawId)).value))
  {
    var id := Cast(rawId);
    var v := FindVideo(st.videos, id).value;
    var st1 := Watched(st, actor, id);
    assert v.id == id && st1.videos == st.videos;
    var r := ViewFound(st1, actor, v);
    assert r == GetVideoById(st, actor, rawId);
    assert FindUser(st1.users, actor).Some?;
    assert r.st == st1.(prefUpdates := st1.prefUpdates + [PrefUpdate(actor, v.tags)],
                        videos := ReplaceVideo(st1.videos, v.id, Viewed(v)));
    assert r.st.videos == ReplaceVideo(st.videos, id, Viewed(v));
  }

  /** The document written back by a view: one more view, nothing else. */
  function Viewed(v: Video): (r: Video)
    ensures r.views == v.views + 1 && r.(views := v.views) == v
  {
    v.(views := v.views + 1)
  }

  // ---------------------------------------------------------------------------
  // togglePublishStatus
  // ---------------------------------------------------------------------------

  /** `togglePublishStatus`: negate the flag of an existing video; a missing
      one answers 404 (with the text in `data`) and changes nothing. */
  function TogglePublishStatus(st: Store, rawId: string): (r: Step)
    ensures !IsValidObjectId(rawId) ==> r == Step(Raised(404, "invalid params id"), st)
    ensures IsValidObjectId(rawId) && FindVideo(st.videos, Cast(rawId)).None? ==>
              && r.st == st
              && r.out == Reply(404, ApiResponse(404, Text("Video not found"), DefaultMessage, false))
    ensures IsValidObjectId(rawId) && FindVideo(st.videos, Cast(rawId)).Some? ==>
              var v := FindVideo(st.videos, Cast(rawId)).value;
              && FindVideo(r.st.videos, Cast(rawId)) == Some(v.(isPublished := !v.isPublished))
              && (forall w :: w != Cast(rawId) ==> FindVideo(r.st.videos, w) == FindVideo(st.videos, w))
              && r.st.(videos := st.videos) == st
              && r.out == Ok(VideoDoc(v.(isPublished := !v.isPublished)), "Publish status updated successfully")
  {
    if !IsValidObjectId(rawId) then Step(Raised(404, "invalid params id"), st)
    else
      var id := Cast(rawId);
      match FindVideo(st.videos, id)
      case None => Step(Reply(404, Make(404, Text("Video not found"), None)), st)
      case Some(v) =>
        var flipped := v.(isPublished := !v.isPublished);
        Step(Ok(VideoDoc(flipped), "Publish status updated successfully"),
             st.(videos := ReplaceVideo(st.videos, id, flipped)))
  }

  /** Two toggles restore the store. */
  lemma ToggleTwiceRestores(st: Store, rawId: string)
    ensures TogglePublishStatus(TogglePublishStatus(st, rawId).st, rawId).st == st
  {
    if IsValidObjectId(rawId) && FindVideo(st.videos, Cast(rawId)).Some? {
      var id := Cast(rawId);
      var v := FindVideo(st.videos, id).value;
      var flipped := v.(isPublished := !v.isPublished);
      ReplaceTwice(st.videos, id, flipped, v);
      ReplaceWithFound(st.videos, id);
      assert flipped.(isPublished := !flipped.isPublished) == v;
    }
  }

  // ---------------------------------------------------------------------------
  // removeFromWatchHistory and clearWatchHistory
  // ---------------------------------------------------------------------------

  /** `removeFromWatchHistory`: delete the viewer's entry for the video, 404
      when there was none. */
  function RemoveFromWatchHistory(st: Store, actor: ObjectId, rawId: string): (r: Step)
    ensures !IsValidObjectId(rawId) ==> r == Step(Raised(400, "Invalid video ID"), st)
    ensures IsValidObjectId(rawId) && CountPair(st.history, actor, Cast(rawId)) == 0 ==>
              r == Step(Raised(404, "Video not found in watch history"), st)
    ensures IsValidObjectId(rawId) && CountPair(st.history, actor, Cast(rawId)) > 0 ==>
              && r.out == Ok(Empty, "Video removed from watch history successfully")
              && CountPair(r.st.history, actor, Cast(rawId)) == CountPair(st.history, actor, Cast(rawId)) - 1
              && |r.st.history| == |st.history| - 1
              && multiset(r.st.history) <= multiset(st.history)
              && r.st.(history := st.history) == st
  {
    if !IsValidObjectId(rawId) then Step(Raised(400, "Invalid video ID"), st)
    else
      var (h, removed) := RemoveEntry(st.history, actor, Cast(rawId));
      if !removed then Step(Raised(404, "Video not found in watch history"), st)
      else Step(Ok(Empty, "Video removed from watch history successfully"), st.(history := h))
  }

  /** `clearWatchHistory`: delete every entry of the viewer and report how
      many went. */
  function ClearWatchHistory(st: Store, actor: ObjectId): (r: Step)
    ensures CountOf(r.st.history, actor) == 0
    ensures r.out == Ok(DeletedCount(CountOf(st.history, actor)), "Watch history cleared successfully")
    ensures |r.st.history| == |st.history| - CountOf(st.history, actor)
    ensures forall w :: w != actor ==> CountOf(r.st.history, w) == CountOf(st.history, w)
    ensures forall e: WatchEntry :: e.user != actor ==> multiset(r.st.history)[e] == multiset(st.history)[e]
    ensures r.st.(history := st.history) == st
  {
    var (h, n) := ClearUser(st.history, actor);
    Step(Ok(DeletedCount(n), "Watch history cleared successfully"), st.(history := h))
  }

  /** Right after a view, removing the same video succeeds and leaves no
      entry for the pair. */
  lemma RemoveAfterView(st: Store, actor: ObjectId, rawId: string)
    requires IsValidObjectId(rawId)
    requires HistoryInvariant(st.history, st.clock)
    ensures var st1 := GetVideoById(st, actor, rawId).st;
            && RemoveFromWatchHistory(st1, actor, rawId).out == Ok(Empty, "Video removed from watch history successfully")
            && CountPair(RemoveFromWatchHistory(st1, actor, rawId).st.history, actor, Cast(rawId)) == 0
  {
    ViewMaintainsHistory(st, actor, rawId);
  }

  /** After clearing, removing any video answers 404 and a second clear
      reports zero. */
  lemma RemoveAfterClear(st: Store, actor: ObjectId, rawId: string)
    requires IsValidObjectId(rawId)
    ensures var st1 := ClearWatchHistory(st, actor).st;
            && RemoveFromWatchHistory(st1, actor, rawId) == Step(Raised(404, "Video not found in watch history"), st1)
            && ClearWatchHistory(st1, actor).out == Ok(DeletedCount(0), "Watch history cleared successfully")
  {
    var st1 := ClearWatchHistory(st, actor).st;
    var id := Cast(rawId);
    CountZero(st1.history, e => OfUser(actor, e));
    CountZero(st1.history, e => OfPair(actor, id, e));
  }

  // ---------------------------------------------------------------------------
  // Public ids of hosted files
  // ---------------------------------------------------------------------------

  /** `s.split(c).pop()`: the text after the last `c` (all of `s` without one). */
  function AfterLast(s: string, c: char): (r: string)
    ensures c !in r
    ensures |r| <= |s| && r == s[|s| - |r|..]
    ensures |r| < |s| ==> s[|s| - |r| - 1] == c
  {
    if |s| == 0 then ""
    else if s[|s| - 1] == c then ""
    else
      var t := AfterLast(s[..|s| - 1], c);
      assert s[..|s| - 1][|s| - 1 - |t|..] + [s[|s| - 1]] == s[|s| - |t| - 1..];
      t + [s[|s| - 1]]
  }

  /** `s.split(c)[0]`: the text before the first `c` (all of `s` without one). */
  function BeforeFirst(s: string, c: char): (r: string)
    ensures c !in r
    ensures |r| <= |s| && r == s[..|r|]
    ensures |r| < |s| ==> s[|r|] == c
  {
    if |s| == 0 then ""
    else if s[0] == c then ""
    else [s[0]] + BeforeFirst(s[1..], c)
  }

  /** The public id of a hosted file: the last `/`-segment of its URL up to
      its first `.`. */
  function PublicId(url: string): (r: string)
    ensures '/' !in r && '.' !in r
    ensures |r| <= |url|
  {
    BeforeFirst(AfterLast(url, '/'), '.')
  }

  /** `AfterLast` finds the segment after a separator that is the last one. */
  lemma AfterLastOf(p: string, c: char, t: string)
    requires c !in t
    ensures AfterLast(p + [c] + t, c) == t
  {
    var s := p + [c] + t;
    assert s[|p|] == c;
    assert s[|p| + 1..] == t;
  }

  /** `BeforeFirst` stops at a separator that is the first one. */
  lemma BeforeFirstOf(n: string, c: char, e: string)
    requires c !in n
    ensures BeforeFirst(n + [c] + e, c) == n
  {
    var s := n + [c] + e;
    assert s[|n|] == c;
    assert s[..|n|] == n;
  }

  /** Without the separator `split(c)[0]` returns the whole string. */
  lemma BeforeFirstWithout(s: string, c: char)
    requires c !in s
    ensures BeforeFirst(s, c) == s
  {
  }

  /** For a URL `base/name.ext` whose name has no `/` or `.` and whose
      extension has no `/`, the public id is the name. */
  lemma PublicIdOfUrl(base: string, name: string, ext: string)
    requires '/' !in name && '.' !in name && '/' !in ext
    ensures PublicId(base + "/" + name + "." + ext) == name
  {
    var seg := name + "." + ext;
    assert '/' !in seg;
    assert base + "/" + name + "." + ext == base + ['/'] + seg;
    AfterLastOf(base, '/', seg);
    assert seg == name + ['.'] + ext;
    BeforeFirstOf(name, '.', ext);
  }

  /** For a URL `base/name` with no extension, the public id is the name. */
  lemma PublicIdOfBareUrl(base: string, name: string)
    requires '/' !in name && '.' !in name
    ensures PublicId(base + "/" + name) == name
  {
    assert base + "/" + name == base + ['/'] + name;
    AfterLastOf(base, '/', name);
    BeforeFirstWithout(name, '.');
  }

  // ---------------------------------------------------------------------------
  // Request checks of publishAVideo and updateVideo
  // ---------------------------------------------------------------------------

  /** The value of `req.body.tags`: absent, a string (to be parsed as JSON),
      an array of strings, or any other value. */
  datatype TagsField = NoTags | TagsText(text: string) | TagsArray(items: seq<string>) | TagsOther

  /** The tags after the string case is parsed; `None` when `JSON.parse`
      throws. The parser is a parameter: it returns `None` for text that is
      not JSON and otherwise the parsed value. */
  function ParsedTags(tags: TagsField, parse: string -> Option<TagsField>): Option<TagsField> {
    if tags.TagsText? then parse(tags.text) else Some(tags)
  }

  /** `Array.isArray(tags) && tags.length !== 0`. */
  predicate HasTags(t: TagsField) {
    t.TagsArray? && |t.items| > 0
  }

  /** The verdict of a handler's request checks: accept with the parsed tags,
      throw an `ApiError`, or crash with a `TypeError` (which is `Failed`). */
  datatype Verdict = Accept(tags: seq<string>) | Reject(status: int, message: string) | Crash

  /** `req.files` of `publishAVideo`: absent, or an object that may or may not
      hold each of the two upload fields (a field present holds a file). */
  datatype FilesField = NoFiles | Uploaded(hasVideo: bool, hasThumbnail: bool)

  /** The checks of `publishAVideo` before any upload: tags that do not parse,
      then a title or description that is the empty string (a missing one
      passes), then missing tags, then the files. `req.files?.videoFile[0]`
      guards only `req.files`: without it both paths are undefined and the
      request is refused, but an object lacking either field is indexed
      through `undefined` and throws. */
  function PublishChecks(title: Option<string>, description: Option<string>, tags: TagsField,
                         parse: string -> Option<TagsField>, files: FilesField): (r: Verdict)
    ensures r.Accept? <==>
              && ParsedTags(tags, parse).Some? && title != Some("") && description != Some("")
              && HasTags(ParsedTags(tags, parse).value) && files == Uploaded(true, true)
    ensures r.Accept? ==> r.tags == ParsedTags(tags, parse).value.items && |r.tags| > 0
    ensures ParsedTags(tags, parse).None? ==> r == Reject(400, "Invalid tags format")
    ensures ParsedTags(tags, parse).Some? && (title == Some("") || description == Some("")) ==>
              r == Reject(400, "title and description are required")
    ensures r == Reject(400, "video and thumbnail are required") <==>
              && ParsedTags(tags, parse).Some? && title != Some("") && description != Some("")
              && HasTags(ParsedTags(tags, parse).value) && files == NoFiles
    ensures r.Crash? <==>
              && ParsedTags(tags, parse).Some? && title != Some("") && description != Some("")
              && HasTags(ParsedTags(tags, parse).value) && files.Uploaded? && !(files.hasVideo && files.hasThumbnail)
    ensures r.Reject? ==> r.status == 400
  {
    match ParsedTags(tags, parse)
    case None => Reject(400, "Invalid tags format")
    case Some(t) =>
      if title == Some("") || description == Some("") then Reject(400, "title and description are required")
      else if !HasTags(t) then Reject(400, "At least one tag is required")
      else match files
        case NoFiles => Reject(400, "video and thumbnail are required")
        case Uploaded(hasVideo, hasThumbnail) => if hasVideo && hasThumbnail then Accept(t.items) else Crash
  }

  /** The checks of `updateVideo` before the video is read: tags that do not
      parse, then a malformed id, then a falsy title or description, then
      missing tags, then a missing thumbnail file. */
  function UpdateChecks(rawId: string, title: Option<string>, description: Option<string>, tags: TagsField,
                        parse: string -> Option<TagsField>, hasThumbnail: bool): (r: Verdict)
    ensures r.Accept? <==>
              && ParsedTags(tags, parse).Some? && IsValidObjectId(rawId) && Truthy(title) && Truthy(description)
              && HasTags(ParsedTags(tags, parse).value) && hasThumbnail
    ensures r.Accept? ==> r.tags == ParsedTags(tags, parse).value.items && |r.tags| > 0
    ensures ParsedTags(tags, parse).None? ==> r == Reject(400, "Invalid tags format")
    ensures ParsedTags(tags, parse).Some? && !IsValidObjectId(rawId) ==> r == Reject(404, "invalid params id")
    ensures !r.Crash?
  {
    match ParsedTags(tags, parse)
    case None => Reject(400, "Invalid tags format")
    case Some(t) =>
      if !IsValidObjectId(rawId) then Reject(404, "invalid params id")
      else if !Truthy(title) || !Truthy(description) then Reject(404, "All fields are required")
      else if !HasTags(t) then Reject(400, "At least one tag is required")
      else if !hasThumbnail then Reject(404, "thumbnail not found")
      else Accept(t.items)
  }

  /** Both handlers judge tags alike: once everything else passes, each
      accepts exactly the non-empty arrays and otherwise rejects the tags
      with the same status and message. */
  lemma TagRulesAgree(rawId: string, title: string, description: string, tags: TagsField,
                      parse: string -> Option<TagsField>)
    requires IsValidObjectId(rawId) && title != "" && description != ""
    ensures PublishChecks(Some(title), Some(description), tags, parse, Uploaded(true, true)).Accept?
        <==> UpdateChecks(rawId, Some(title), Some(description), tags, parse, true).Accept?
    ensures PublishChecks(Some(title), Some(description), tags, parse, Uploaded(true, true)).Reject? ==>
              PublishChecks(Some(title), Some(description), tags, parse, Uploaded(true, true))
              == UpdateChecks(rawId, Some(title), Some(description), tags, parse, true)
  {
  }

  /** A missing title passes the publish check (it tests only for `""`) but
      fails the update check (it tests for any falsy value). */
  lemma MissingTitleChecks(rawId: string, description: string, items: seq<string>, parse: string -> Option<TagsField>)
    requires IsValidObjectId(rawId) && description != "" && |items| > 0
    ensures PublishChecks(None, Some(description), TagsArray(items), parse, Uploaded(true, true)) == Accept(items)
    ensures UpdateChecks(rawId, None, Some(description), TagsArray(items), parse, true) == Reject(404, "All fields are required")
  {
  }

  // ---------------------------------------------------------------------------
  // updateVideo and deleteVideo
  // ---------------------------------------------------------------------------

  /** A handler step together with the public ids it hands to the file host
      for destruction (the host itself is not part of this model). */
  datatype HostedStep = HostedStep(step: Step, destroyed: seq<string>)

  /** What the upload helper hands back: nothing (a falsy result), a result
      without a URL, or a result with one (which may be the falsy `""`). */
  datatype UploadResult = NoResult | NoUrl | Url(url: string)

  /** `updateVideo` once its checks pass, with the file host's names in scope.
      Reading the thumbnail of a video that does not exist fails. The old
      thumbnail's public id is handed for destruction before the new upload.
      Reading `.url` of a falsy upload result throws (`Failed`); a result
      whose URL is missing or empty is refused with 400. Only the edited
      video changes. */
  function UpdateVideo(st: Store, rawId: string, title: Option<string>, description: Option<string>,
                       tags: TagsField, parse: string -> Option<TagsField>, hasThumbnail: bool,
                       uploaded: UploadResult): (r: HostedStep)
    ensures UpdateChecks(rawId, title, description, tags, parse, hasThumbnail).Reject? ==>
              var c := UpdateChecks(rawId, title, description, tags, parse, hasThumbnail);
              r == HostedStep(Step(Raised(c.status, c.message), st), [])
    ensures UpdateChecks(rawId, title, description, tags, parse, hasThumbnail).Accept? ==>
              var id := Cast(rawId);
              && (FindVideo(st.videos, id).None? ==> r == HostedStep(Step(Failed, st), []))
              && (FindVideo(st.videos, id).Some? ==> r.destroyed == [PublicId(FindVideo(st.videos, id).value.thumbnail)])
              && (FindVideo(st.videos, id).Some? && uploaded.NoResult? ==> r.step == Step(Failed, st))
              && (FindVideo(st.videos, id).Some? && (uploaded.NoUrl? || uploaded == Url("")) ==>
                    r.step == Step(Raised(400, "Error while uploading thumbnail"), st))
              && (FindVideo(st.videos, id).Some? && uploaded.Url? && uploaded.url != "" ==>
                    var v := FindVideo(st.videos, id).value;
                    var nv := v.(title := title.value, description := description.value, thumbnail := uploaded.url,
                                 tags := ParsedTags(tags, parse).value.items);
                    && r.step.out == Ok(VideoDoc(nv), "Video updated successfully")
                    && FindVideo(r.step.st.videos, id) == Some(nv)
                    && (forall w :: w != id ==> FindVideo(r.step.st.videos, w) == FindVideo(st.videos, w))
                    && r.step.st.(videos := st.videos) == st)
  {
    match UpdateChecks(rawId, title, description, tags, parse, hasThumbnail)
    case Reject(status, message) => HostedStep(Step(Raised(status, message), st), [])
    case Crash => HostedStep(Step(Failed, st), [])
    case Accept(items) =>
      var id := Cast(rawId);
      match FindVideo(st.videos, id)
      case None => HostedStep(Step(Failed, st), [])
      case Some(v) =>
        var gone := [PublicId(v.thumbnail)];
        match uploaded
        case NoResult => HostedStep(Step(Failed, st), gone)
        case NoUrl => HostedStep(Step(Raised(400, "Error while uploading thumbnail"), st), gone)
        case Url(url) =>
          if url == "" then HostedStep(Step(Raised(400, "Error while uploading thumbnail"), st), gone)
          else
            var nv := v.(title := title.value, description := description.value, thumbnail := url, tags := items);
            HostedStep(Step(Ok(VideoDoc(nv), "Video updated successfully"), st.(videos := ReplaceVideo(st.videos, id, nv))), gone)
  }

  /** An edit is what the next viewer sees: after a successful update the
      video page shows the new title, description, thumbnail and tags, and
      it is shown exactly when the video's owner exists. */
  lemma UpdateThenView(st: Store, actor: ObjectId, rawId: string, title: Option<string>, description: Option<string>,
                       tags: TagsField, parse: string -> Option<TagsField>, url: string)
    requires UpdateVideo(st, rawId, title, description, tags, parse, true, Url(url)).step.out.Reply?
    requires FindUser(st.users, actor).Some?
    ensures FindVideo(st.videos, Cast(rawId)).Some?
    ensures var st1 := UpdateVideo(st, rawId, title, description, tags, parse, true, Url(url)).step.st;
            var out := GetVideoById(st1, actor, rawId).out;
            && (out.Reply? <==> FindUser(st.users, FindVideo(st.videos, Cast(rawId)).value.owner).Some?)
            && (out.Reply? ==>
                  && out.body.data.VideoDetailDoc?
                  && out.body.data.detail.title == title.value
                  && out.body.data.detail.description == description.value
                  && out.body.data.detail.thumbnail == url
                  && out.body.data.detail.tags == ParsedTags(tags, parse).value.items)
  {
    var id := Cast(rawId);
    var c := UpdateChecks(rawId, title, description, tags, parse, true);
    assert c.Accept?;
    var v := FindVideo(st.videos, id).value;
    var st1 := UpdateVideo(st, rawId, title, description, tags, parse, true, Url(url)).step.st;
    var nv := v.(title := title.value, description := description.value, thumbnail := url, tags := c.tags);
    assert FindVideo(st1.videos, id) == Some(nv);
    var st2 := Watched(st1, actor, id);
    assert GetVideoById(st1, actor, rawId) == ViewFound(st2, actor, nv);
  }

  /** `deleteVideo`: destroy both hosted files and delete the document. Likes,
      history entries and playlist members that name the video stay. */
  function DeleteVideo(st: Store, rawId: string): (r: HostedStep)
    ensures !IsValidObjectId(rawId) ==> r == HostedStep(Step(Raised(404, "invalid params id"), st), [])
    ensures IsValidObjectId(rawId) && FindVideo(st.videos, Cast(rawId)).None? ==> r == HostedStep(Step(Failed, st), [])
    ensures IsValidObjectId(rawId) && FindVideo(st.videos, Cast(rawId)).Some? ==>
              var v := FindVideo(st.videos, Cast(rawId)).value;
              && r.destroyed == [PublicId(v.videoFile), PublicId(v.thumbnail)]
              && r.step.out == Ok(Empty, "video deleted  successfully")
              && multiset(r.step.st.videos) + multiset{v} == multiset(st.videos)
              && (forall w :: w != Cast(rawId) ==> FindVideo(r.step.st.videos, w) == FindVideo(st.videos, w))
              && r.step.st.(videos := st.videos) == st
  {
    if !IsValidObjectId(rawId) then HostedStep(Step(Raised(404, "invalid params id"), st), [])
    else
      var id := Cast(rawId);
      match FindVideo(st.videos, id)
      case None => HostedStep(Step(Failed, st), [])
      case Some(v) =>
        HostedStep(Step(Ok(Empty, "video deleted  successfully"), st.(videos := DropVideo(st.videos, id))),
                   [PublicId(v.videoFile), PublicId(v.thumbnail)])
  }

  // ---------------------------------------------------------------------------
  // The handlers as the controller file stands
  // ---------------------------------------------------------------------------

  /** `getVideoById` as written: the file does not import `WatchHistory`, so
      once the id is valid the first history write throws a `ReferenceError`,
      before anything is read or written. */
  function GetVideoByIdAsWritten(st: Store, actor: ObjectId, rawId: string): (r: Step)
    ensures r.st == st
    ensures r.out.Failed? <==> IsValidObjectId(rawId)
    ensures !IsValidObjectId(rawId) ==> r.out == Raised(404, "Invalid video ID")
  {
    if !IsValidObjectId(rawId) then Step(Raised(404, "Invalid video ID"), st) else Step(Failed, st)
  }

  /** As written no view is ever recorded: a viewer with an empty history
      still has one after the request, where the handler with its import in
      place gives them an entry. */
  lemma ViewNeverRecordedAsWritten(st: Store, actor: ObjectId, rawId: string)
    requires IsValidObjectId(rawId) && CountOf(st.history, actor) == 0
    ensures GetVideoByIdAsWritten(st, actor, rawId) == Step(Failed, st)
    ensures CountOf(GetVideoByIdAsWritten(st, actor, rawId).st.history, actor) == 0
    ensures CountOf(GetVideoById(st, actor, rawId).st.history, actor) == 1
  {
    ViewRecorded(st, actor, rawId);
    assert CountOf(DeleteOne(st.history, actor, Cast(rawId)).0, actor) == 0;
  }

  /** `updateVideo` as written: once the checks pass, reading the old
      thumbnail of a missing video throws, and for an existing one the
      reference to the file host's `cloudinary`, which the file does not
      import, throws before the upload. Nothing is written or destroyed. */
  function UpdateVideoAsWritten(st: Store, rawId: string, title: Option<string>, description: Option<string>,
                                tags: TagsField, parse: string -> Option<TagsField>, hasThumbnail: bool): (r: HostedStep)
    ensures UpdateChecks(rawId, title, description, tags, parse, hasThumbnail).Reject? ==>
              var c := UpdateChecks(rawId, title, description, tags, parse, hasThumbnail);
              r == HostedStep(Step(Raised(c.status, c.message), st), [])
    ensures UpdateChecks(rawId, title, description, tags, parse, hasThumbnail).Accept? ==>
              r == HostedStep(Step(Failed, st), [])
  {
    match UpdateChecks(rawId, title, description, tags, parse, hasThumbnail)
    case Reject(status, message) => HostedStep(Step(Raised(status, message), st), [])
    case Crash => HostedStep(Step(Failed, st), [])
    case Accept(_) => HostedStep(Step(Failed, st), [])
  }

  /** As written an edit never lands: where the handler with its imports in
      place answers 200 with the new thumbnail stored, the file as it stands
      fails and leaves the store as it was. */
  lemma UpdateNeverAppliesAsWritten(st: Store, rawId: string, title: Option<string>, description: Option<string>,
                                    tags: TagsField, parse: string -> Option<TagsField>, url: string)
    requires UpdateVideo(st, rawId, title, description, tags, parse, true, Url(url)).step.out.Reply?
    ensures FindVideo(st.videos, Cast(rawId)).Some?
    ensures FindVideo(UpdateVideo(st, rawId, title, description, tags, parse, true, Url(url)).step.st.videos, Cast(rawId))
              .value.thumbnail == url
    ensures UpdateVideoAsWritten(st, rawId, title, description, tags, parse, true) == HostedStep(Step(Failed, st), [])
  {
    assert UpdateChecks(rawId, title, description, tags, parse, true).Accept?;
  }

  /** `deleteVideo` as written: once the id is valid, reading the files of a
      missing video throws, and for an existing one the reference to the
      file host's `cloudinary`, which the file does not import, throws before
      `findByIdAndDelete`. */
  function DeleteVideoAsWritten(st: Store, rawId: string): (r: HostedStep)
    ensures r.step.st == st && r.destroyed == []
    ensures r.step.out.Failed? <==> IsValidObjectId(rawId)
    ensures !IsValidObjectId(rawId) ==> r.step.out == Raised(404, "invalid params id")
  {
    if !IsValidObjectId(rawId) then HostedStep(Step(Raised(404, "invalid params id"), st), [])
    else HostedStep(Step(Failed, st), [])
  }

  /** As written no video is ever deleted: an existing video is still in the
      collection afterwards, where the handler with its import in place
      removes it. */
  lemma DeleteNeverDeletesAsWritten(st: Store, rawId: string)
    requires IsValidObjectId(rawId) && FindVideo(st.videos, Cast(rawId)).Some?
    ensures FindVideo(DeleteVideoAsWritten(st, rawId).step.st.videos, Cast(rawId)) == FindVideo(st.videos, Cast(rawId))
    ensures |DeleteVideo(st, rawId).step.st.videos| == |st.videos| - 1
  {
    var v := FindVideo(st.videos, Cast(rawId)).value;
    var after := DeleteVideo(st, rawId).step.st.videos;
    assert |multiset(after) + multiset{v}| == |multiset(st.videos)|;
  }
}

=== FILE: watch_history.dfy ===
/** Per-user watch history, as `getVideoById` maintains it
    (src/controllers/video.controller.js:183-205): delete the viewer's entry
    for the video, insert a fresh one, count the viewer's entries and evict
    the oldest so that at most 50 remain. Also the explicit removal of one
    entry (lines 495-502) and the clearing of all of them (lines 512-514). */
module WatchHistory {
  import opened Base
  import opened Documents

  /** The cap on a user's history. */
  const Cap: nat := 50

  predicate OfUser(u: ObjectId, e: WatchEntry) { e.user == u }

  predicate OfPair(u: ObjectId, v: ObjectId, e: WatchEntry) { e.user == u && e.video == v }

  /** `countDocuments({ user: u })`. */
  function CountOf(h: seq<WatchEntry>, u: ObjectId): nat {
    Count(h, e => OfUser(u, e))
  }

  /** The number of entries for the pair (user, video). */
  function CountPair(h: seq<WatchEntry>, u: ObjectId, v: ObjectId): nat {
    Count(h, e => OfPair(u, v, e))
  }

  // ---------------------------------------------------------------------------
  // Single steps
  // ---------------------------------------------------------------------------

  /** `deleteOne({ user: u, video: v })`: the first matching entry goes; the
      second component is `deletedCount`. */
  function DeleteOne(h: seq<WatchEntry>, u: ObjectId, v: ObjectId): (r: (seq<WatchEntry>, nat))
    ensures r.1 == 0 <==> CountPair(h, u, v) == 0
    ensures r.1 == 0 ==> r.0 == h
    ensures r.1 <= 1
    ensures CountPair(r.0, u, v) == CountPair(h, u, v) - r.1
    ensures CountOf(r.0, u) == CountOf(h, u) - r.1
    ensures forall w :: w != u ==> CountOf(r.0, w) == CountOf(h, w)
    ensures multiset(r.0) <= multiset(h)
    ensures |r.0| == |h| - r.1
  {
    CountZero(h, e => OfPair(u, v, e));
    match FirstIndex(h, e => OfPair(u, v, e))
    case None => (h, 0)
    case Some(i) =>
      CountRemoveAt(h, i, e => OfPair(u, v, e));
      CountRemoveAt(h, i, e => OfUser(u, e));
      assert forall w :: w != u ==> CountOf(RemoveAt(h, i), w) == CountOf(h, w) by {
        forall w | w != u ensures CountOf(RemoveAt(h, i), w) == CountOf(h, w) {
          CountRemoveAt(h, i, e => OfUser(w, e));
        }
      }
      (RemoveAt(h, i), 1)
  }

  /** How `u`'s count splits over the first entry and the rest. */
  lemma CountOfCons(h: seq<WatchEntry>, u: ObjectId)
    requires |h| > 0
    ensures CountOf(h, u) == (if h[0].user == u then 1 else 0) + CountOf(h[1..], u)
    ensures CountOf(h[1..], u) == 0 ==> forall j :: 1 <= j < |h| ==> h[j].user != u
  {
    assert h == [h[0]] + h[1..];
    CountAppend([h[0]], h[1..], e => OfUser(u, e));
    CountSingle(h[0], e => OfUser(u, e));
    CountZero(h[1..], e => OfUser(u, e));
    assert forall j :: 1 <= j < |h| ==> h[1..][j - 1] == h[j];
  }

  /** The position of `u`'s oldest entry: least `watchedAt`, the earliest in
      natural order among equals (what `.sort({ watchedAt: 1 })` puts first). */
  function OldestIndex(h: seq<WatchEntry>, u: ObjectId): (i: nat)
    requires CountOf(h, u) > 0
    ensures i < |h| && h[i].user == u
    ensures forall j :: 0 <= j < |h| && h[j].user == u ==> h[i].watchedAt <= h[j].watchedAt
  {
    CountOfCons(h, u);
    if CountOf(h[1..], u) == 0 then 0
    else
      var k := 1 + OldestIndex(h[1..], u);
      assert forall j :: 1 <= j < |h| ==> h[1..][j - 1] == h[j];
      if h[0].user == u && h[0].watchedAt <= h[k].watchedAt then 0 else k
  }

  /** Delete `u`'s `k` oldest entries, one least `watchedAt` at a time. */
  function EvictOldest(h: seq<WatchEntry>, u: ObjectId, k: nat): (r: seq<WatchEntry>)
    requires k <= CountOf(h, u)
    ensures CountOf(r, u) == CountOf(h, u) - k
    ensures forall w :: w != u ==> CountOf(r, w) == CountOf(h, w)
    ensures multiset(r) <= multiset(h)
    ensures |r| == |h| - k
    decreases k
  {
    if k == 0 then h
    else
      var i := OldestIndex(h, u);
      CountRemoveAt(h, i, e => OfUser(u, e));
      assert forall w :: w != u ==> CountOf(RemoveAt(h, i), w) == CountOf(h, w) by {
        forall w | w != u ensures CountOf(RemoveAt(h, i), w) == CountOf(h, w) {
          CountRemoveAt(h, i, e => OfUser(w, e));
        }
      }
      EvictOldest(RemoveAt(h, i), u, k - 1)
  }

  // ---------------------------------------------------------------------------
  // The view, removal and clearing steps
  // ---------------------------------------------------------------------------

  /** Steps (1) and (2) of a view: drop the pair's entry, append a fresh one. */
  function Reinsert(h: seq<WatchEntry>, u: ObjectId, v: ObjectId, now: nat): (r: seq<WatchEntry>)
    ensures CountOf(r, u) == CountOf(DeleteOne(h, u, v).0, u) + 1
    ensures forall w :: w != u ==> CountOf(r, w) == CountOf(h, w)
    ensures r[|r| - 1] == WatchEntry(u, v, now)
    ensures multiset(r) <= multiset(h) + multiset{WatchEntry(u, v, now)}
  {
    var h1 := DeleteOne(h, u, v).0;
    var r := h1 + [WatchEntry(u, v, now)];
    CountAppend(h1, [WatchEntry(u, v, now)], e => OfUser(u, e));
    CountSingle(WatchEntry(u, v, now), e => OfUser(u, e));
    assert forall w :: w != u ==> CountOf(r, w) == CountOf(h1, w) by {
      forall w | w != u ensures CountOf(r, w) == CountOf(h1, w) {
        CountAppend(h1, [WatchEntry(u, v, now)], e => OfUser(w, e));
        CountSingle(WatchEntry(u, v, now), e => OfUser(w, e));
      }
    }
    r
  }

  /** Steps (3) and (4): count `u`'s entries and evict the oldest beyond the cap. */
  function Trim(h: seq<WatchEntry>, u: ObjectId): (r: seq<WatchEntry>)
    ensures CountOf(r, u) == Min(CountOf(h, u), Cap)
    ensures forall w :: w != u ==> CountOf(r, w) == CountOf(h, w)
    ensures multiset(r) <= multiset(h)
  {
    var count := CountOf(h, u);
    if count > Cap then EvictOldest(h, u, count - Cap) else h
  }

  /** Steps (1)-(4) of a view of `v` by `u` at time `now`. */
  function RecordView(h: seq<WatchEntry>, u: ObjectId, v: ObjectId, now: nat): (r: seq<WatchEntry>)
    ensures CountOf(r, u) == Min(CountOf(DeleteOne(h, u, v).0, u) + 1, Cap)
    ensures forall w :: w != u ==> CountOf(r, w) == CountOf(h, w)
    ensures multiset(r) <= multiset(h) + multiset{WatchEntry(u, v, now)}
  {
    Trim(Reinsert(h, u, v, now), u)
  }

  function Min(a: int, b: int): int { if a < b then a else b }

  /** `removeFromWatchHistory`: `deleteOne`, reporting whether anything went.
      When something went it is exactly one entry, and it is one of the pair's:
      every other entry survives. */
  function RemoveEntry(h: seq<WatchEntry>, u: ObjectId, v: ObjectId): (r: (seq<WatchEntry>, bool))
    ensures !r.1 <==> CountPair(h, u, v) == 0
    ensures !r.1 ==> r.0 == h
    ensures r.1 ==> CountPair(r.0, u, v) == CountPair(h, u, v) - 1
    ensures r.1 ==> |r.0| == |h| - 1 && multiset(r.0) <= multiset(h)
    ensures forall w :: w != u ==> CountOf(r.0, w) == CountOf(h, w)
  {
    var (h', n) := DeleteOne(h, u, v);
    (h', n == 1)
  }

  /** `clearWatchHistory`: `deleteMany({ user: u })` and its `deletedCount`. */
  function ClearUser(h: seq<WatchEntry>, u: ObjectId): (r: (seq<WatchEntry>, nat))
    ensures CountOf(r.0, u) == 0
    ensures r.1 == CountOf(h, u)
    ensures |r.0| + r.1 == |h|
    ensures forall w :: w != u ==> CountOf(r.0, w) == CountOf(h, w)
    ensures forall e :: multiset(r.0)[e] == if e.user == u then 0 else multiset(h)[e]
  {
    var kept := Filter(h, e => !OfUser(u, e));
    forall e ensures multiset(kept)[e] == if e.user == u then 0 else multiset(h)[e] {
      FilterMultiset(h, e => !OfUser(u, e), e);
    }
    CountComplement(h, e => OfUser(u, e), e => !OfUser(u, e));
    CountZero(kept, e => OfUser(u, e));
    assert forall w :: w != u ==> CountOf(kept, w) == CountOf(h, w) by {
      forall w | w != u ensures CountOf(kept, w) == CountOf(h, w) {
        KeepOthers(h, u, w);
      }
    }
    (kept, CountOf(h, u))
  }

  lemma {:induction false} KeepOthers(h: seq<WatchEntry>, u: ObjectId, w: ObjectId)
    requires w != u
    ensures CountOf(Filter(h, e => !OfUser(u, e)), w) == CountOf(h, w)
  {
    if |h| > 0 {
      KeepOthers(h[1..], u, w);
      var p := e => !OfUser(u, e);
      assert Filter(h, p) == (if p(h[0]) then [h[0]] else []) + Filter(h[1..], p);
      CountAppend(if p(h[0]) then [h[0]] else [], Filter(h[1..], p), e => OfUser(w, e));
      assert h == [h[0]] + h[1..];
      CountAppend([h[0]], h[1..], e => OfUser(w, e));
      CountSingle(h[0], e => OfUser(w, e));
    }
  }

  // ---------------------------------------------------------------------------
  // Properties
  // ---------------------------------------------------------------------------

  /** Eviction only deletes. */
  lemma EvictSubset(h: seq<WatchEntry>, u: ObjectId, k: nat, y: WatchEntry)
    requires k <= CountOf(h, u)
    requires y in EvictOldest(h, u, k)
    ensures y in h
  {
    assert y in multiset(EvictOldest(h, u, k));
  }

  /** One eviction step keeps every entry other than the one it deletes. */
  lemma RemoveAtKeeps(h: seq<WatchEntry>, i: nat, x: WatchEntry)
    requires i < |h| && x in h && x != h[i]
    ensures x in RemoveAt(h, i)
  {
    var j :| 0 <= j < |h| && h[j] == x;
    if j < i { assert RemoveAt(h, i)[j] == x; } else { assert RemoveAt(h, i)[j - 1] == x; }
  }

  /** The first eviction step deletes an entry no newer than any survivor,
      so it keeps every entry strictly newer than a survivor. */
  lemma EvictStep(h: seq<WatchEntry>, u: ObjectId, k: nat, x: WatchEntry, y: WatchEntry)
    requires 0 < k <= CountOf(h, u)
    requires y in EvictOldest(h, u, k) && y.user == u
    requires x in h && x.user == u && x.watchedAt > y.watchedAt
    ensures k - 1 <= CountOf(RemoveAt(h, OldestIndex(h, u)), u)
    ensures EvictOldest(h, u, k) == EvictOldest(RemoveAt(h, OldestIndex(h, u)), u, k - 1)
    ensures x in RemoveAt(h, OldestIndex(h, u))
  {
    var i := OldestIndex(h, u);
    var h' := RemoveAt(h, i);
    CountRemoveAt(h, i, e => OfUser(u, e));
    EvictSubset(h, u, k, y);
    assert h[i].watchedAt <= y.watchedAt;
    RemoveAtKeeps(h, i, x);
  }

  /** Eviction takes the oldest first: an entry of `u` strictly newer than
      one that survives survives too. */
  lemma {:induction false} EvictKeepsNewer(h: seq<WatchEntry>, u: ObjectId, k: nat, x: WatchEntry, y: WatchEntry)
    requires k <= CountOf(h, u)
    requires y in EvictOldest(h, u, k) && y.user == u
    requires x in h && x.user == u && x.watchedAt > y.watchedAt
    ensures x in EvictOldest(h, u, k)
    decreases k
  {
    if k > 0 {
      var h' := RemoveAt(h, OldestIndex(h, u));
      EvictStep(h, u, k, x, y);
      var r := EvictOldest(h', u, k - 1);
      assert y in r;
      EvictKeepsNewer(h', u, k - 1, x, y);
      assert x in r;
    }
  }

  /** An entry strictly newer than every other entry of `u` survives any
      eviction that leaves `u` at least one entry. */
  lemma EvictKeepsNewest(h: seq<WatchEntry>, u: ObjectId, k: nat, x: WatchEntry)
    requires k < CountOf(h, u)
    requires x in h && x.user == u
    requires forall j :: 0 <= j < |h| && h[j].user == u && h[j] != x ==> h[j].watchedAt < x.watchedAt
    ensures x in EvictOldest(h, u, k)
  {
    var r := EvictOldest(h, u, k);
    CountZero(r, e => OfUser(u, e));
    var j :| 0 <= j < |r| && r[j].user == u;
    var y := r[j];
    if y != x {
      assert y in multiset(h);
      var m :| 0 <= m < |h| && h[m] == y;
      EvictKeepsNewer(h, u, k, x, y);
    }
  }

  /** The store-wide history invariant: at most one entry per (user, video),
      at most `Cap` entries per user, every timestamp earlier than `clock`. */
  ghost predicate HistoryInvariant(h: seq<WatchEntry>, clock: nat) {
    && (forall u, v :: CountPair(h, u, v) <= 1)
    && (forall u :: CountOf(h, u) <= Cap)
    && (forall i :: 0 <= i < |h| ==> h[i].watchedAt < clock)
  }

  /** After steps (1) and (2) the pair has exactly its fresh entry. */
  lemma ReinsertPair(h: seq<WatchEntry>, u: ObjectId, v: ObjectId, clock: nat)
    requires HistoryInvariant(h, clock)
    ensures WatchEntry(u, v, clock) in Reinsert(h, u, v, clock)
    ensures CountPair(Reinsert(h, u, v, clock), u, v) == 1
  {
    var x := WatchEntry(u, v, clock);
    var h1 := DeleteOne(h, u, v).0;
    assert CountPair(h, u, v) <= 1;
    assert Reinsert(h, u, v, clock) == h1 + [x];
    CountAppend(h1, [x], e => OfPair(u, v, e));
    CountSingle(x, e => OfPair(u, v, e));
  }

  /** Entries drawn from a history stamped before `clock` are stamped before it. */
  lemma SubHistoryBelow(h1: seq<WatchEntry>, h: seq<WatchEntry>, clock: nat)
    requires multiset(h1) <= multiset(h)
    requires forall i :: 0 <= i < |h| ==> h[i].watchedAt < clock
    ensures forall j :: 0 <= j < |h1| ==> h1[j].watchedAt < clock
  {
    forall j | 0 <= j < |h1| ensures h1[j].watchedAt < clock {
      assert h1[j] in multiset(h);
      var m :| 0 <= m < |h| && h[m] == h1[j];
    }
  }

  /** After steps (1) and (2) the fresh entry is strictly the newest. */
  lemma ReinsertNewest(h: seq<WatchEntry>, u: ObjectId, v: ObjectId, clock: nat)
    requires HistoryInvariant(h, clock)
    ensures forall j :: 0 <= j < |Reinsert(h, u, v, clock)| && Reinsert(h, u, v, clock)[j] != WatchEntry(u, v, clock)
              ==> Reinsert(h, u, v, clock)[j].watchedAt < clock
  {
    var h1 := DeleteOne(h, u, v).0;
    SubHistoryBelow(h1, h, clock);
    assert Reinsert(h, u, v, clock) == h1 + [WatchEntry(u, v, clock)];
  }

  /** After steps (1) and (2) no other pair has gained an entry. */
  lemma ReinsertOthers(h: seq<WatchEntry>, u: ObjectId, v: ObjectId, clock: nat)
    requires HistoryInvariant(h, clock)
    ensures forall u', v' :: (u', v') != (u, v) ==> CountPair(Reinsert(h, u, v, clock), u', v') <= 1
  {
    var x := WatchEntry(u, v, clock);
    var h1 := DeleteOne(h, u, v).0;
    var h2 := Reinsert(h, u, v, clock);
    assert h2 == h1 + [x];
    forall u', v' | (u', v') != (u, v) ensures CountPair(h2, u', v') <= 1 {
      CountAppend(h1, [x], e => OfPair(u', v', e));
      CountSingle(x, e => OfPair(u', v', e));
      CountSubMultiset(h1, h, e => OfPair(u', v', e));
      assert CountPair(h, u', v') <= 1;
    }
  }

  /** After steps (1) and (2) the pair has exactly its fresh entry, which is
      strictly the newest, and no other pair gained an entry. */
  lemma ReinsertFacts(h: seq<WatchEntry>, u: ObjectId, v: ObjectId, clock: nat)
    requires HistoryInvariant(h, clock)
    ensures WatchEntry(u, v, clock) in Reinsert(h, u, v, clock)
    ensures CountPair(Reinsert(h, u, v, clock), u, v) == 1
    ensures forall j :: 0 <= j < |Reinsert(h, u, v, clock)| && Reinsert(h, u, v, clock)[j] != WatchEntry(u, v, clock)
              ==> Reinsert(h, u, v, clock)[j].watchedAt < clock
    ensures forall u', v' :: (u', v') != (u, v) ==> CountPair(Reinsert(h, u, v, clock), u', v') <= 1
  {
    ReinsertPair(h, u, v, clock);
    ReinsertNewest(h, u, v, clock);
    ReinsertOthers(h, u, v, clock);
  }

  /** The fresh entry of a view survives the trim. */
  lemma ViewKeepsFresh(h: seq<WatchEntry>, u: ObjectId, v: ObjectId, clock: nat)
    requires HistoryInvariant(h, clock)
    ensures WatchEntry(u, v, clock) in RecordView(h, u, v, clock)
  {
    var x := WatchEntry(u, v, clock);
    var h2 := Reinsert(h, u, v, clock);
    ReinsertPair(h, u, v, clock);
    ReinsertNewest(h, u, v, clock);
    assert RecordView(h, u, v, clock) == Trim(h2, u);
    if CountOf(h2, u) > Cap {
      EvictKeepsNewest(h2, u, CountOf(h2, u) - Cap, x);
    }
  }

  /** After a view every (user, video) pair still has at most one entry, and
      the viewed pair has exactly one. */
  lemma ViewPairs(h: seq<WatchEntry>, u: ObjectId, v: ObjectId, clock: nat)
    requires HistoryInvariant(h, clock)
    ensures CountPair(RecordView(h, u, v, clock), u, v) == 1
    ensures forall u', v' :: CountPair(RecordView(h, u, v, clock), u', v') <= 1
  {
    var x := WatchEntry(u, v, clock);
    var h2 := Reinsert(h, u, v, clock);
    var r := RecordView(h, u, v, clock);
    ReinsertFacts(h, u, v, clock);
    ViewKeepsFresh(h, u, v, clock);
    assert multiset(r) <= multiset(h2);
    CountSubMultiset(r, h2, e => OfPair(u, v, e));
    assert CountPair(r, u, v) >= 1 by {
      CountZero(r, e => OfPair(u, v, e));
      var j :| 0 <= j < |r| && r[j] == x;
    }
    forall u', v' ensures CountPair(r, u', v') <= 1 {
      CountSubMultiset(r, h2, e => OfPair(u', v', e));
    }
  }

  /** After a view every timestamp is earlier than the advanced clock. */
  lemma ViewTimes(h: seq<WatchEntry>, u: ObjectId, v: ObjectId, clock: nat)
    requires HistoryInvariant(h, clock)
    ensures forall i :: 0 <= i < |RecordView(h, u, v, clock)| ==> RecordView(h, u, v, clock)[i].watchedAt < clock + 1
  {
    var r := RecordView(h, u, v, clock);
    var x := WatchEntry(u, v, clock);
    forall i | 0 <= i < |r| ensures r[i].watchedAt < clock + 1 {
      assert r[i] in multiset(h) + multiset{x};
      if r[i] != x {
        assert r[i] in multiset(h);
        var m :| 0 <= m < |h| && h[m] == r[i];
      }
    }
  }

  /** A view stamped with the current clock leaves exactly one entry for the
      pair, keeps that fresh entry, and preserves the invariant for the
      advanced clock. */
  lemma ViewKeepsInvariant(h: seq<WatchEntry>, u: ObjectId, v: ObjectId, clock: nat)
    requires HistoryInvariant(h, clock)
    ensures WatchEntry(u, v, clock) in RecordView(h, u, v, clock)
    ensures CountPair(RecordView(h, u, v, clock), u, v) == 1
    ensures HistoryInvariant(RecordView(h, u, v, clock), clock + 1)
  {
    var r := RecordView(h, u, v, clock);
    ViewKeepsFresh(h, u, v, clock);
    ViewPairs(h, u, v, clock);
    ViewTimes(h, u, v, clock);
    forall w ensures CountOf(r, w) <= Cap {
      assert CountOf(h, w) <= Cap;
    }
  }
}
